=== FILE: README.md ===
# pitch archive format, modelled in Dafny

pitch is a small self-describing archive format. An archive is a run of
entries. Each entry is a header followed by the entry's content. A header
holds a name record, optional metadata key/value records and a content-length
record. Every record starts with a tagged variable-length size: a 2-bit tag
and a `uint64` in 1 to 10 bytes.

This project models the core of the format as pure functions over byte
sequences and small state records:

- the size codec (`VarSize`) and the header codec (`HeaderCodec`,
  `HeaderMap`, `HeaderSize`) of header.go;
- the two writers, `Writer` (`ArchiveWriter`) and `TOCWriter` (`TocWriter`).
  They share an untyped size prefix (`UntypedSize`) and emit into an
  `io.Writer` (`Sink`);
- the entry-by-entry reader of reader.go (`PlainReader`) over an `io.Reader`
  (`ByteSource`);
- the concatenating reader of cat.go (`CatReader`);
- the table-of-contents builder of pitch.go (`TableOfContents`).

Go errors are data (`Errors`). `errors.Is`, `%w` wrapping and
`errors.Join` are modelled, so contracts can say which errors match
`io.EOF`. A failed decoding step still reports how many input bytes it took,
because the Go code reads from a stream that does not rewind.
The decoder can panic, and nothing in the package recovers. Such a panic is
the value `Panicked`, which every caller passes on unchanged instead of
wrapping it.

The end-to-end theorems are stated over archives built from `EncodeHeader`
and contents: `TableOfContents.ByteSliceLocates` and
`TableOfContents.CatLocates`. They say that the builder's table maps every
name to the byte range in the input that holds exactly that entry's content.
This holds whether the archive comes as one byte slice or is split across
readers joined by `Cat`.

Files: base.dfy, errors.dfy, varsize.dfy, header.dfy, headermap.dfy,
headersize.dfy, sink.dfy, untyped.dfy, writer.dfy, tocwriter.dfy,
source.dfy, reader.dfy, cat.dfy, toc.dfy.

## Model

| member | source | states |
|---|---|---|
| `VarSize.ByteCount` | header.go:191-209 | at least one byte. What the count means is stated by `ByteCountFits`: the least k whose capacity holds x, at most 10 |
| `VarSize.ByteCountFits` | header.go:191-209 | ByteCount(x) is the least k ≥ 1 whose capacity (5 + 7(k−1) bits) holds x. It is at most 10 for every uint64 |
| `VarSize.WideByteCountOf` | header.go:191-209 | for x of more than 5 bits, ByteCount(x) = (bitlen(x) − 6)/7 + 2, and x lies between the capacities of ByteCount(x) − 1 and ByteCount(x) bytes |
| `VarSize.NarrowByteCount` | header.go:191-209 | values of at most 5 bits, and 0, take one byte |
| `VarSize.EncodeSize` | header.go:166-188 | the encoding is exactly ByteCount(x) bytes long |
| `VarSize.EncodeSizeLayout` | header.go:166-188 | byte 0 carries the tag in bits 7..6 and x mod 32 in bits 5..1. Byte j carries the j-th 7-bit group above those, least significant first. Bit 0 is set on the last byte and only there |
| `VarSize.DecodeSize` | header.go:32-67 | on success at least one byte is consumed and the tag is the one in bits 7..6 of the first byte. On failure the source's error is returned after all input is consumed |
| `VarSize.DecodeSizeStops` | header.go:32-67 | decoding succeeds iff some byte has bit 0 set. It then ends at the first such byte |
| `VarSize.DecodeGroupsOfGroups` | header.go:52-64 | the continuation loop, run over the 7-bit groups of y, adds y at the current shift to the accumulator and consumes exactly those groups |
| `VarSize.EncodeDecodeSize` | header.go:32-67 | round trip: decoding EncodeSize(t, x) followed by any bytes yields Size{t, x}, having consumed exactly ByteCount(x) bytes |
| `HeaderCodec.ReadFull` | header.go:143-145 | `io.ReadFull` succeeds iff n bytes are there, and then returns exactly the first n |
| `HeaderCodec.DecodeHeader` | header.go:82-163 | a decoded header has a non-empty name and consumed at least one byte, never more than the input |
| `HeaderCodec.EmptyInput` | header.go:93-96 | on empty input, the name size cannot be read: the source's error is wrapped with "error reading name size" |
| `HeaderCodec.EndMarker` | header.go:101-103 | a name size of 0 is the end of the archive: bare `io.EOF` after one byte |
| `HeaderCodec.NotANameRecord` | header.go:98-100 | a first record with a tag other than NameSize is refused with "expected name size, got " and the tag's number |
| `HeaderCodec.MissingName` | header.go:105-112 | a name record (length from 1 to 2^48, the runtime's `maxAlloc`) with no bytes after it fails with the source's error wrapped with "error reading name" |
| `HeaderCodec.HugeName` | header.go:104-105 | a name length above 2^48, the runtime's `maxAlloc` on 64-bit linux, panics in `make` ("makeslice: len out of range") before anything after the record is read |
| `HeaderCodec.ShortName` | header.go:109-126 | a name (length at most 2^48) cut short by the end of input is taken as read. The failure then comes from the next size read |
| `HeaderCodec.FieldsAtEnd` | header.go:121-126 | input that ends inside the field loop fails with "error reading size" around the source's error |
| `HeaderCodec.StrayNameRecord` | header.go:129-130 | a second name record inside the metadata is an error |
| `HeaderCodec.StrayValueRecord` | header.go:147-150 | a value record with no active key is an error |
| `HeaderCodec.EmptyKeyThenValue` | header.go:134-150 | an empty key leaves no active key, so a value after it is refused |
| `HeaderCodec.TruncatedPayload` | header.go:140-157 | a key or value payload of at most 256 bytes cut short fails with "error reading header byte". The error is `io.ErrUnexpectedEOF` when some bytes were read from a cleanly ending source |
| `HeaderCodec.OversizedPayload` | header.go:140-154 | a key or value record longer than 256 bytes panics before anything after it is read. This is exact for 257 to 512 bytes when no earlier name, key or value of the header was over 512 bytes: the buffer then keeps capacity 256 and `buf.Bytes()[:n]` slices past it |
| `HeaderCodec.ContentStep` | header.go:131-133 | a content-length record ends the header and sets its size |
| `HeaderCodec.ValuesRoundTrip` | header.go:147-158 | decoding encoded values of at most 256 bytes under the active key appends each of them under that key, in order |
| `HeaderCodec.FieldsRoundTrip` | header.go:121-160 | decoding encoded fields (non-empty keys, every key and value at most 256 bytes) and a content-length record yields the map the field loop folds from those fields, and consumes exactly their bytes |
| `HeaderCodec.EncodeHeader` | header.go:239-261 | the first record a decoder reads back is the name's length, tagged NameSize. The whole encoding decodes back by `HeaderRoundTripWith`, and its length is `HeaderSize.HeaderSizeExact`'s |
| `HeaderCodec.DecodeHeaderAsWritten` | header.go:82-163 | never consumes more than the input. What it yields from an encoded header is stated by `HeaderRoundTripWith` with the flush and by `HeaderMap.DecodeEncodeAsWritten` |
| `HeaderCodec.HeaderRoundTripWith` | header.go:82-163 | decoding an encoded header whose keys and values fit the 256-byte buffer, with or without the flush, recovers name and size and consumes exactly the encoding |
| `HeaderMap.FoldFresh` | header.go:134-158 | without the flush, distinct keys are stored in order, each with its values, and keys without values are dropped |
| `HeaderMap.DecodeEncode` | header.go:82-163 | DecodeHeader inverts EncodeHeader for distinct non-empty keys and fields of at most 256 bytes, up to dropping keys that have no values. Trailing input is left alone |
| `HeaderMap.DecodeEncodeExact` | header.go:239-261 | when every key has a value and every field fits the buffer, decoding the encoding gives back the header itself |
| `HeaderMap.DecodeEncodeAsWritten` | header.go:118-137 | on fields that fit the buffer, the decoder as written yields the map AsWritten: every key but the last gains an empty string value |
| `HeaderMap.AsWrittenValued` | header.go:135-137 | the flush changes the decoded map exactly when there are two keys or more |
| `HeaderMap.AsWrittenAgreesIff` | header.go:119-137 | the decoder as written agrees with the corrected one on an encoded header iff the header has at most one key |
| `HeaderMap.TwoKeysGainEmptyValue` | header.go:135-137 | keys "k"→["v"] and "j"→["w"] decode as written to "k"→["v", ""] |
| `HeaderSize.EncodedHeaderSize` | header.go:212-236 | no contract of its own. It is the corrected size: `HeaderSizeExact` proves it equals the length of EncodeHeader's output |
| `HeaderSize.EncodedHeaderSizeAsWritten` | header.go:212-236 | no contract of its own. It is the size as written: `AsWrittenDiscrepancy` states its exact error against the encoding |
| `HeaderSize.HeaderSizeExact` | header.go:212-236 | the corrected EncodedHeaderSize is the length of EncodeHeader's output |
| `HeaderSize.AsWrittenDiscrepancy` | header.go:220-233 | as written, the size counts one key record per value and no value-length prefixes. The error is exactly the repeated keys minus the prefixes |
| `HeaderSize.AsWrittenExactWithoutValues` | header.go:229-232 | with no metadata values, the size as written is exact |
| `HeaderSize.AsWrittenExactIff` | header.go:212-236 | with at most one value per key, the size as written never exceeds the encoding's length. It is equal iff no key has a value |
| `HeaderSize.SizeAsWrittenFallsShort` | header.go:224-228 | name "a", size 0 and key "k"→["v"] encode to 7 bytes, which the size as written counts as 6 |
| `Sink.Write` | tocWriter_test.go:146-155 | the count never exceeds the input and a short count comes with an error. The sink gains exactly the counted prefix. A healthy sink takes everything |
| `UntypedSize.SizeWriteSize` | writer.go:156-158 | floor(log2(size))/7 + 1 is the number of 7-bit groups bitlen(size) needs |
| `UntypedSize.WriteSizeLoop` | writer.go:137-151 | the fill loop produces the untyped encoding of the size |
| `UntypedSize.GroupsLayout` | writer.go:137-151 | byte i holds group n−1−i (most significant first) shifted left by one. Bit 0 is set on the last byte only |
| `UntypedSize.UntypedRoundTrip` | writer.go:127-154 | reading back writeSize's bytes gives the size and consumes exactly SizeWriteSize(size) bytes |
| `UntypedSize.SmallSizesLookLikeNames` | writer.go:127-154 | below 32 the untyped prefix is byte for byte header.go's NameSize record |
| `UntypedSize.ContentLengthThreeReadsAsName` | header.go:128-130 | the content length 3 that a writer emits is read by DecodeSize as a NameSize record |
| `ArchiveWriter.NewWriter` | writer.go:23-27 | a new writer owes no content and is open iff it has a sink |
| `ArchiveWriter.Pad` | writer.go:123-125 | at most the remaining count is padded. A healthy sink receives exactly that many zeros |
| `ArchiveWriter.WriteSize` | writer.go:127-154 | size 0 panics (log2 of 0). Otherwise a healthy sink receives the untyped encoding and the count is its length |
| `ArchiveWriter.WriteHeader` | writer.go:29-72 | a closed writer or a negative length is refused before anything is emitted. Success owes exactly the declared length. A failure keeps the count. The count returned is what the sink took |
| `ArchiveWriter.WriteContent` | writer.go:74-107 | at most min(len(b), remaining) bytes pass. The sink gains exactly those bytes. Remaining drops by them, or stays unchanged on a sink fault |
| `ArchiveWriter.Close` | writer.go:109-121 | Close succeeds iff the writer is open and padding succeeds. The writer is then closed with the padding emitted |
| `ArchiveWriter.ClosedIsInert` | writer.go:109-121 | after a successful Close, WriteHeader, Write and Close all return ErrClosed with count 0, and nothing changes |
| `ArchiveWriter.WriteHeaderHealthy` | writer.go:43-71 | on a healthy sink: panic iff the name is empty or the length is 0, after the padding (and for length 0 the name's record and name) went out. Otherwise the output is zeros(remaining) ++ size(name) ++ name ++ size(length), and the writer owes the length |
| `ArchiveWriter.WriteHealthy` | writer.go:80-106 | on a healthy sink, Write emits b[:min(len(b), remaining)] and decreases remaining by that. It returns ErrWriteTooLong iff len(b) > remaining |
| `ArchiveWriter.WriteWhenComplete` | writer.go:85-87 | with nothing owed, Write emits nothing and returns (0, ErrWriteTooLong) |
| `ArchiveWriter.WriteSinkFault` | writer.go:95-100 | a sink fault returns the sink's count and error, and the remaining count is not decremented |
| `ArchiveWriter.WriteAllHealthy` | writer.go:74-107 | any run of Writes on a healthy sink emits the first min(total, remaining) bytes offered |
| `ArchiveWriter.EntryContent` | writer.go:109-125 | after Writes and Close, the entry's content region is the accepted bytes followed by zeros, exactly its declared length |
| `TocWriter.NewTocWriter` | tocWriter.go:23-28 | a new TOC writer has offset 0, an empty table, nothing owed, and is open iff it has a sink |
| `TocWriter.Pad` | tocWriter.go:117-126 | padding advances the offset by the remaining count. A healthy sink receives that many zeros |
| `TocWriter.WriteSize` | tocWriter.go:128-162 | sizes below 1 are refused with ErrInvalidSize. Otherwise a healthy sink gets the untyped encoding and the offset advances by its length |
| `TocWriter.WriteHeader` | tocWriter.go:30-64 | a closed writer is refused. Success records name ↦ [offset, offset + length) and owes the length. A failure leaves the table and the count unchanged |
| `TocWriter.WriteHeaderHealthy` | tocWriter.go:30-64 | on an open writer and a healthy sink, a header succeeds iff the name is non-empty and the length is at least 1. It then emits zeros(remaining) ++ size(name) ++ name ++ size(length), counts them in the offset, and records the range that starts right after them |
| `TocWriter.WriteContent` | tocWriter.go:66-101 | a closed writer gives (0, ErrClosed) and a complete entry (0, ErrWriteTooLong), both with nothing changed. Otherwise the sink gains exactly the accepted bytes, at most min(len(b), remaining); offset plus remaining is kept, and the table is untouched |
| `TocWriter.Close` | tocWriter.go:103-126 | a closed writer gives ErrClosed and stays as it is. A failed pad gives "error padding file" wrapping the sink's error, with the writer still open. Close succeeds iff the writer is open and padding succeeds. The table is never changed |
| `TocWriter.ClosedIsInert` | tocWriter.go:30-115 | after a successful Close, WriteHeader, Write and Close each return ErrClosed and leave the writer unchanged |
| `TocWriter.WriteHealthy` | tocWriter.go:72-100 | on a healthy sink with content owed, Write takes n = min(len(b), remaining), moves n from remaining to the offset, and returns ErrWriteTooLong iff len(b) > remaining |
| `TocWriter.WriteWhenComplete` | tocWriter.go:77-79 | with no content owed, Write returns (0, ErrWriteTooLong) and changes nothing |
| `TocWriter.WriteSinkFault` | tocWriter.go:87-90 | a failing sink: Write returns the sink's count and error, and neither remaining nor the offset moves |
| `TocWriter.WriteHeaderCounts` | tocWriter.go:30-64 | on a healthy sink, the offset after WriteHeader equals the bytes emitted since the start |
| `TocWriter.WriteContentCounts` | tocWriter.go:66-101 | on a healthy sink, the offset after Write equals the bytes emitted since the start |
| `TocWriter.CloseCounts` | tocWriter.go:103-126 | on a healthy sink, the offset after Close equals the bytes emitted since the start |
| `TocWriter.HeaderRange` | tocWriter.go:53-61 | after a successful header, the name's range starts at the current output length and spans the content length |
| `TocWriter.NonPositiveRejected` | tocWriter.go:40-55 | an empty name or a length below 1 gives ErrInvalidSize and an unchanged table. The padding, and for a non-empty name the name's prefix and the name, are already emitted |
| `TocWriter.LastWriterWins` | tocWriter.go:58-61 | a second header with the same name keeps the key set and replaces the range |
| `TocWriter.WriteAllHealthy` | tocWriter.go:66-101 | any run of Writes on a healthy sink emits the first min(total, remaining) bytes and advances the offset by that many |
| `TocWriter.EntryRegion` | tocWriter.go:103-126 | once Close completes an entry, output[Start:End] is the accepted bytes followed by zeros, and End is the output length |
| `TocWriter.EntryRegionNext` | tocWriter.go:36-38 | once the next header (another name) completes an entry, output[Start:End] is the accepted bytes followed by the zeros that header pads with |
| `TocWriter.NextHeaderPads` | tocWriter.go:117-126 | writes then another header on a healthy sink: the output continues with the accepted bytes padded to the owed length, and other names keep their ranges |
| `TocWriter.EntryContent` | tocWriter.go:103-115 | Writes and then Close leave the table alone and emit the accepted bytes padded to the declared length |
| `TocWriter.TableOfContents` | tocWriter.go:164-166 | no contract of its own. `TableHoldsWrittenNames` states which names the returned table holds |
| `TocWriter.TableHoldsWrittenNames` | tocWriter.go:57-63 | after any run of calls, the table's names are the earlier ones plus exactly those of the headers that succeeded |
| `ByteSource.Read` | reader.go:50-52 | a read returns at most k bytes from the front of the unread input, and the end error only when nothing is left |
| `ByteSource.Discard` | reader.go:60-75 | seek and copy both skip min(n, unread) bytes. Only a copy that runs short reports the end error. A negative seek moves back unless it would pass the start |
| `PlainReader.NewReader` | reader.go:26-33 | a new reader owes no content and has consumed nothing |
| `PlainReader.DiscardContent` | reader.go:54-78 | a count of 0 does nothing. Otherwise min(count, unread) bytes are skipped. The only failure is a copy running into a non-EOF end |
| `PlainReader.NextWith` | reader.go:35-48 | as written: header.go's flushing DecodeHeader and the count int64(size); corrected: the decoder without the flush and the size itself. A failure keeps the count |
| `PlainReader.Next` | reader.go:35-48 | with the unsigned count, every Next keeps the reader valid, and each decoded header strictly shrinks the unread input |
| `PlainReader.Read` | reader.go:50-52 | with a count ≤ 0: (0, io.EOF) and no change. Otherwise at most min(k, count) bytes, taken off the front of the input and off the count |
| `PlainReader.ReadWithin` | reader.go:50-52 | inside an entry, Read hands out the content's next bytes and never anything past the entry |
| `PlainReader.DiscardWithin` | reader.go:54-78 | however much of the content was read, skipping lands right after the entry |
| `PlainReader.NextWithin` | reader.go:35-48 | the corrected Next over an encoded header yields the header the corrected decoder stores, and leaves the reader inside the new entry's content |
| `PlainReader.NextWithinAsWritten` | reader.go:35-48 | as written, Next over an encoded header of size below 2^63 yields the map AsWritten (every key but the last gains `""`) and leaves the reader inside the new entry's content |
| `PlainReader.EndError` | reader.go:41-43 | the doubly wrapped end error still matches `io.EOF` under errors.Is iff the source's end error does |
| `PlainReader.NextAtEnd` | reader.go:35-48 | once only the last content is left, Next reports the source's end error, wrapped twice |
| `PlainReader.DiscardFault` | reader.go:36-38 | a copy that fails with a non-EOF error makes Next fail with "error discarding content" and keeps the count |
| `PlainReader.NextAsWrittenRepeats` | reader.go:45 | as written, a header "a" of size 2^64−12 on a byte slice brings Next back to the same state |
| `CatReader.MakeCat` | cat.go:101-112 | the first reader is current and the rest queue up in argument order |
| `CatReader.Next` | cat.go:15-36 | Next keeps the reader valid, and each header it yields strictly shrinks the unread input over all readers |
| `CatReader.CatNextStep` | cat.go:25-35 | an io.EOF from the current reader pops the queue and retries. io.EOF is reported only when the queue is empty. Every other result passes through |
| `CatReader.ForeignRefused` | cat.go:20-23 | a current reader from another package makes Next, Read and discardContent fail with "unrecognized reader" |
| `CatReader.NilCurrentEnds` | cat.go:16-18 | a nil current reader makes Next and Read report io.EOF, and discarding succeeds |
| `CatReader.Read` | cat.go:38-59 | Read keeps the reader valid and returns at most k bytes |
| `CatReader.ReadAtEntryEnd` | cat.go:48-56 | at the end of an entry's content, Read pops through the fresh queued readers and reports io.EOF from the last |
| `CatReader.EntryRead` | cat.go:38-59 | the corrected Read: a catReader keeps its queue, and stays a catReader |
| `CatReader.EntryReadWithin` | cat.go:38-59 | the corrected Read within an entry hands out the entry's next min(k, left) bytes, reports io.EOF at its end without moving, and agrees with cat.go's Read while content is left |
| `CatReader.EntryReadThenNext` | cat.go:15-59 | after the corrected Read reports the end of an entry, Next still yields the current reader's next header, with the queue untouched |
| `CatReader.ReadWithinCat` | cat.go:38-59 | inside an entry, Read on a catReader hands out the content's next bytes as the reader does and keeps the queue. At the entry's end it pops to the next queued reader, or with an empty queue reports io.EOF |
| `CatReader.DiscardNeverPops` | cat.go:71-92 | over a reader of this package, discardContent returns the reader's own result and never pops: that skip never reports an error matching io.EOF |
| `CatReader.DiscardWithinCat` | cat.go:71-92 | inside an entry, discardContent on a catReader succeeds and lands right after the entry, with the queue unchanged |
| `CatReader.DiscardContent` | cat.go:71-92 | discarding keeps the reader valid and of the same kind |
| `CatReader.JoinIs` | cat.go:65 | errors.Is looks into both halves of an errors.Join |
| `CatReader.Close` | cat.go:61-69 | no contract of its own. `CloseQueueJoins` states when it panics, when it returns nil and what its error matches, and `CloseSkipsCurrent` that it ignores the current reader |
| `CatReader.CloseQueueJoins` | cat.go:61-69 | closing the queue panics iff a queued reader is nil. It returns nil iff every queued reader closes cleanly. Its error matches t iff some queued reader's error does |
| `CatReader.CloseSkipsCurrent` | cat.go:61-69 | Close does not depend on the current reader, only on the queued ones |
| `CatReader.Drain` | cat.go:15-36 | no contract of its own: the headers repeated Next calls yield and the error that stops them. `DrainCat` and `CatHeaders` state what it is over a catReader |
| `CatReader.DrainCat` | cat.go:15-36 | draining a catReader drains the current reader, then, on io.EOF, the queue |
| `CatReader.CatHeaders` | cat.go:25-33 | repeated Next over Cat(r1…rn) yields r1's headers, then r2's, and so on, then io.EOF |
| `TableOfContents.FromReader` | pitch.go:28-58 | a table, when returned, is non-empty and each item spans its size under its own name. Every error is bare io.EOF, a decoder panic passed through, or wrapped with "error reading header" |
| `TableOfContents.BuildTableOfContents` | pitch.go:14-26 | an unsupported value is refused with its message. A table, when returned, is non-empty and consistent |
| `TableOfContents.Build` | pitch.go:33-57 | a table it returns is never empty and keeps every name it started with. `BuildIsTable` states the whole result |
| `TableOfContents.BuildIsTable` | pitch.go:33-57 | the loop's result is the fold over the headers that repeated Next calls yield, decided by the error that stops them |
| `TableOfContents.BuildStep` | pitch.go:34-56 | one turn of the loop: on io.EOF an empty table becomes io.EOF and a non-empty one is returned. Other errors are wrapped, and a decoder panic passes through. A header is recorded and the offset advances by its span |
| `TableOfContents.OutcomeStep` | pitch.go:46-56 | one more header in front is recorded first, at the current offset |
| `TableOfContents.TableConsistent` | pitch.go:46-55 | every recorded item has End − Start = int64(Size) under its own name, and one header makes the table non-empty |
| `TableOfContents.TableKeeps` | pitch.go:49 | a name that no later header repeats keeps its item |
| `TableOfContents.LastWins` | pitch.go:49 | a name's last header decides its item, at that header's offset |
| `TableOfContents.SpanExact` | pitch.go:46-47 | an entry's span is its encoded header plus its content, and the item starts after the header |
| `TableOfContents.AtIsPrefix` | pitch.go:53-56 | the offset at the i-th header is the length of the archive of the entries before it |
| `TableOfContents.DrainArchive` | reader.go:35-48 | a reader over an archive yields its headers, as stored, and then the source's end error |
| `TableOfContents.ItemAt` | pitch.go:49-55 | the item of the i-th entry covers exactly its content |
| `TableOfContents.TableLocates` | pitch.go:46-56 | with distinct names, each name maps to an item that covers its entry's content |
| `TableOfContents.ByteSliceTable` | pitch.go:16-18 | a byte slice holding a non-empty archive gives the table of its headers |
| `TableOfContents.ByteSliceLocates` | pitch.go:14-58 | for a byte slice holding an archive with distinct names, each name maps to [Start, End) with input[Start:End] equal to that entry's content |
| `TableOfContents.EmptyIsEOF` | pitch.go:36-41 | an empty byte slice, or a stream that ends cleanly at once, gives no table and io.EOF |
| `TableOfContents.BrokenIsWrapped` | pitch.go:43 | a stream that breaks where a header should start gives no table and the error wrapped with "error reading header" |
| `TableOfContents.ServedHeaders` | cat.go:15-36 | readers each serving an archive drain, one after the other, to the headers of the concatenated archive |
| `TableOfContents.CatTable` | pitch.go:19-20 | readers joined by Cat give the table of the concatenated archive's headers |
| `TableOfContents.CatLocates` | pitch.go:28-58 | through Cat, offsets run on across readers. Each name maps to the range of the concatenated input that holds its content |

## Left out

- Only the core of the repository is modelled. Left out are cmd/main.go
  (command-line and file I/O), pitch.go:60-120 (filesystem walking) and
  math.go (an endianness probe and float helpers the format does not use).
- HeaderCodec.DecodeHeader: the scratch buffer of header.go:83 has capacity
  256. `resizeBuffer` (header.go:23-28) asks `Grow` only for the shortfall
  against `Available()`, so for a key or value of 257 to 512 bytes the
  capacity stays 256 and `buf.Bytes()[:n]` panics. The model reports a panic
  for every key or value longer than 256 bytes. For longer payloads, or after
  a name over 512 bytes has grown the buffer, whether Go panics depends on
  the runtime's allocation size classes, which the model does not know. A
  name length above 2^48, the runtime's `maxAlloc` on 64-bit linux, makes
  `make` panic with "makeslice: len out of range" (header.go:105). Other
  platforms have other limits. Running out of memory for a large name at or
  below that limit is a fatal runtime error, and it is not modelled.
- OversizedPayload: the panic it states is the program's for a payload of 257
  to 512 bytes when no earlier name, key or value of the same header was over
  512 bytes. Beyond that the program may grow the buffer and decode the
  field, as for a 10000-byte value, which grows the buffer to a capacity of
  10240. The model still reports the panic there.
- Go map order: `Header.Data` is a sequence of (key, values) pairs, and
  EncodeHeader's order is that sequence's order. Properties that depend on the
  order are stated for that order.
- UntypedSize.SizeWriteSize: models `int(math.Log2(float64(size)))/7 + 1`
  with an exact integer floor(log2). Float rounding can make them differ for
  sizes just below a power of two from about 2^47 on.
- ArchiveWriter.WriteSize: a size of 0 makes `math.Log2` return −Inf and
  `make` panic. It is modelled as a distinct panic outcome, not as a Go value.
- TocWriter.WriteHeader: the offsets and ranges are unbounded integers.
  int64 wrap-around of the offset is not modelled; it needs archives beyond
  2^63 bytes.
- TableOfContents.FromReader: the offset is an unbounded integer, and
  `int64(EncodedHeaderSize(...))` does not wrap. `int64(hdr.Size)` at
  pitch.go:47 is modelled exactly.
- TableOfContents.FromReader: the builder uses the corrected
  EncodedHeaderSize (see Findings). With no metadata values the two agree
  (`HeaderSize.AsWrittenExactWithoutValues`), so the end-to-end lemmas also
  describe the code as written in that case. It also drains the corrected
  reader (`PlainReader.Next`): the items' Data has no extra `""` values, and
  the count is unsigned, so the model's loop ends where the program, on a
  byte slice holding a header of size 2^63 or more, loops forever
  (`PlainReader.NextAsWrittenRepeats`).
- BuildIsTable: the loop it states is over the corrected reader's headers,
  as for `TableOfContents.FromReader`; for the program's reader the drained
  headers would carry the extra `""` values, and on a byte slice with a
  header of size 2^63 or more there is no end to drain to.
- SpanExact: the span it states uses the corrected EncodedHeaderSize. As
  written, the size leaves out the value records' length prefixes and counts
  a key's record again for every value after its first
  (`HeaderSize.AsWrittenDiscrepancy`). With no metadata values the two
  agree, and with at most one value per key they agree only then
  (`HeaderSize.AsWrittenExactIff`).
- AtIsPrefix: the offsets follow the corrected EncodedHeaderSize. As
  written, each entry with metadata values shifts every later offset by the
  difference between the two sizes.
- ItemAt: the item covers the entry's content with the corrected
  EncodedHeaderSize only. As written, an entry with metadata values, and
  every entry after it, gets a shifted range.
- TableLocates: the same corrected EncodedHeaderSize as `ItemAt`.
- TableOfContents.ByteSliceLocates: requires every metadata key to have a
  value. The decoder drops a key without values, so the decoded header is
  shorter than the one written and later offsets would shift.
- HeaderItem: the table of pitch.go:49 holds `&HeaderItem{Name, Size, Data,
  Start, End}`, but tocWriter.go:14 declares `TableOfContents` as
  `map[string]ByteRange` and no HeaderItem is declared in the modelled files.
  The model follows pitch.go: a record of those five fields.
- TableOfContents.BuildTableOfContents: a `Reader` argument is one of this
  package's readers (a reader or a catReader). A Reader from another package
  has a Next the model cannot see. The readers it builds from are the
  corrected ones, as for `TableOfContents.FromReader`: no extra `""` values
  in the items' Data, and an end where the program loops on a byte slice
  with a header of size 2^63 or more.
- Reader and writer round trip: writer.go and tocWriter.go emit their own
  untyped size prefix, which DecodeHeader does not accept
  (`UntypedSize.ContentLengthThreeReadsAsName`). So no theorem connects
  writer output to the reader, and the reader-side theorems are over archives
  built with EncodeHeader.
- `reader()` (reader.go:80-82, cat.go:94-99) is an accessor. It is not
  modelled.
- `Close` of a reader forwards to the source's `io.Closer`. The error that
  call returns is a parameter of the model (`closeErr`).
- `Reader.Read` on a source: sources are in-memory byte sequences that end
  with a chosen error (`io.EOF` for a clean end). A byte slice is a
  seekable `bytes.Reader`. Short reads other than at the end of the input are
  not modelled.
- Sinks fail per call, as a scripted writer does: each call consumes one
  outcome.
- CatReader.Read: its own contract states validity and the length bound
  only. Reads inside an entry and at its end are stated by `ReadWithinCat`
  and `ReadAtEntryEnd`, and the nil and foreign cases by `NilCurrentEnds`
  and `ForeignRefused`.
- CatReader.DiscardContent: its own contract states validity only. Its
  behaviour over a reader of this package is stated by `DiscardNeverPops`
  and `DiscardWithinCat`, and the nil and foreign cases by `NilCurrentEnds`
  and `ForeignRefused`.
- Readers are values, so Go's pointer sharing is not represented.
  `Cat(r, r)` copies one pointer into two slots (cat.go:106), and there the
  second slot would see the first slot's progress. `BuildTableOfContents`
  consumes the Reader it is given, which the caller then sees at the end.
- PlainReader.Next: the corrected reader, with the decoder without the
  flush (header.go:135-137) and the unsigned count (see Findings). As
  written, a header with two keys or more comes back with an extra `""`
  value; `NextWithinAsWritten` states that case.
- PlainReader.NextWithin: states the corrected reader. For two keys or
  more the program yields the map of `NextWithinAsWritten` instead.
- CatReader.Next: delegates to the corrected `PlainReader.Next`.
- TableOfContents.DrainArchive: drains the corrected reader, so each
  header's metadata is the map written. As written, for two keys or more,
  every key but the last carries an extra `""`.
- TableOfContents.ByteSliceTable: the items' `Data` is the corrected
  decoder's map. As written it gains the extra `""` values for two keys or
  more, and the offsets then also follow the larger decoded header.
- TableOfContents.ByteSliceLocates: the same corrected decoder as
  `ByteSliceTable`.
- TableOfContents.ServedHeaders: the headers of the corrected reader.
- TableOfContents.CatTable: the same corrected decoder, through Cat.
- TableOfContents.CatLocates: the same corrected decoder, through Cat.

## Findings

| source | as written | input that shows it | evidently intended | confidence | as-written member | corrected member |
|---|---|---|---|---|---|---|
| header.go:119 | `value` is declared and never assigned. A new key appends it under the active key (header.go:135-137), so every key but the last gains an extra `""` value | keys "k"→["v"] then "j"→["w"]: "k" decodes to ["v", ""] | a key keeps exactly the values encoded after it | not executed | `HeaderMap.TwoKeysGainEmptyValue` | `HeaderMap.DecodeEncode` |
| header.go:224-228 | EncodedHeaderSize adds the key record once per value and never the value records' length prefixes | name "a", size 0, key "k"→["v"]: 7 bytes encoded, 6 counted | the length of EncodeHeader's output | not executed | `HeaderSize.SizeAsWrittenFallsShort` | `HeaderSize.EncodedHeaderSize` | header.go:212-236 | no contract of its own. It is the corrected size: `HeaderSizeExact` proves it equals the length of EncodeHeader's output |
| `HeaderSize.EncodedHeaderSizeAsWritten` | header.go:212-236 | no contract of its own. It is the size as written: `AsWrittenDiscrepancy` states its exact error against the encoding |
| `HeaderSize.HeaderSizeExact` |
| cat.go:48-56 | Read pops the next queued reader on any error matching `io.EOF`, including the `io.EOF` that ends an entry's content | an entry read to its end (`io.ReadAll`) on `Cat(a, b)` where `a` holds two entries: the read pops `b`, and the second entry of `a` is never served | the end of an entry is reported as `io.EOF` and the catReader stays on its current reader, so that Next moves on | not executed | `CatReader.ReadAtEntryEnd` | `CatReader.EntryReadThenNext` |
| reader.go:45 | `int64(hdr.Size)` turns a size of 2^63 or more negative. A byte slice then seeks back by that amount on the next Next | a header "a" of size 2^64−12 (12 bytes): Next seeks back over it and decodes it again, forever | the count is the size, and the reader moves forward | not executed | `PlainReader.NextAsWrittenRepeats` | `PlainReader.Next` |

The as-written definitions are `HeaderCodec.DecodeHeaderAsWritten`,
`HeaderSize.EncodedHeaderSizeAsWritten`, `PlainReader.NextWith` with
`asWritten` set, which uses both the flushing decoder and the wrapping
conversion, and `CatReader.Read`. The rest of the model uses the corrected
ones: `HeaderCodec.DecodeHeader`, `HeaderSize.EncodedHeaderSize` and
`PlainReader.Next`. `CatReader.EntryRead` is the corrected Read; no other
member reads content through a catReader.

=== FILE: base.dfy ===
/** Machine-level vocabulary shared by every part of the archive model:
    bytes, Go's fixed-width integers, powers of two and bit lengths. */
module Base {

  /** A Go `byte`; all byte-level arithmetic is done on naturals. */
  type byte = x: nat | x < 256

  type Bytes = seq<byte>

  const UINT64_LIMIT: nat := 0x1_0000_0000_0000_0000
  const INT64_LIMIT: nat := 0x8000_0000_0000_0000

  /** A Go `uint64`. */
  type uint64 = x: nat | x < UINT64_LIMIT

  /** A Go `int64`. */
  type int64 = x: int | -(INT64_LIMIT as int) <= x < INT64_LIMIT

  function Pow2(n: nat): (r: nat)
    ensures r >= 1
  {
    if n == 0 then 1 else 2 * Pow2(n - 1)
  }

  lemma {:induction false} Pow2Add(a: nat, b: nat)
    ensures Pow2(a + b) == Pow2(a) * Pow2(b)
    decreases a
  {
    if a > 0 {
      Pow2Add(a - 1, b);
    }
  }

  lemma Pow2Monotone(a: nat, b: nat)
    requires a <= b
    ensures Pow2(a) <= Pow2(b)
    decreases b - a
  {
    if a < b {
      Pow2Monotone(a + 1, b);
    }
  }

  lemma Pow2Small()
    ensures Pow2(5) == 32 && Pow2(7) == 128
  {
    assert Pow2(2) == 4;
    assert Pow2(5) == 32;
    assert Pow2(7) == 128;
  }

  lemma Pow2Wide()
    ensures Pow2(63) == INT64_LIMIT && Pow2(64) == UINT64_LIMIT
  {
    Pow2Small();
    Pow2Add(7, 7);
    assert Pow2(14) == 0x4000;
    Pow2Add(14, 14);
    assert Pow2(28) == 0x1000_0000;
    Pow2Add(28, 28);
    assert Pow2(56) == 0x100_0000_0000_0000;
    Pow2Add(56, 7);
    Pow2Add(63, 1);
  }

  lemma Pow2Step7(n: nat)
    ensures Pow2(n + 7) == 128 * Pow2(n)
  {
    Pow2Add(n, 7);
    Pow2Small();
  }

  /** Number of significant bits of `x`, as counted by the shift loop in
      ByteCount (header.go). */
  function BitLen(x: nat): nat
  {
    if x == 0 then 0 else 1 + BitLen(x / 2)
  }

  /** `BitLen` is the unique `b` with 2^(b-1) <= x < 2^b. */
  lemma {:induction false} BitLenBounds(x: nat)
    ensures x < Pow2(BitLen(x))
    ensures x > 0 ==> BitLen(x) >= 1 && Pow2(BitLen(x) - 1) <= x
  {
    if x > 0 {
      BitLenBounds(x / 2);
    }
  }

  /** Conversely, bounds on `x` pin down its bit length. */
  lemma {:induction false} BitLenFromBounds(x: nat, b: nat)
    requires x < Pow2(b)
    ensures BitLen(x) <= b
  {
    if x > 0 {
      assert b >= 1;
      BitLenFromBounds(x / 2, b - 1);
    }
  }

  lemma {:induction false} BitLenAtLeast(x: nat, b: nat)
    requires b >= 1 && Pow2(b - 1) <= x
    ensures BitLen(x) >= b
  {
    if b > 1 {
      BitLenAtLeast(x / 2, b - 1);
    }
  }

  /** `n` zero bytes: what `make([]byte, n)` holds. */
  function Zeros(n: nat): (r: seq<byte>)
    ensures |r| == n
    ensures forall i :: 0 <= i < n ==> r[i] == 0
  {
    seq(n, _ => 0)
  }

  function Min(a: int, b: int): int
  {
    if a <= b then a else b
  }

  /** Go's `int64(u)` for a `uint64` value: two's-complement reinterpretation. */
  function Int64Of(u: uint64): (r: int64)
    ensures r % UINT64_LIMIT == u
    ensures u < INT64_LIMIT <==> r == u
  {
    if u < INT64_LIMIT then u else u - UINT64_LIMIT
  }

  lemma MulMonotone(d: nat, x: nat, y: nat)
    requires x <= y
    ensures d * x <= d * y
  {
    assert d * y == d * x + d * (y - x);
  }

  lemma DivUnique(a: nat, d: nat, q: nat, r: nat)
    requires d > 0 && r < d && a == d * q + r
    ensures a / d == q && a % d == r
  {
    var q' := a / d;
    var r' := a % d;
    assert a == d * q' + r';
    if q' < q {
      MulMonotone(d, q' + 1, q);
      assert false;
    } else if q' > q {
      MulMonotone(d, q + 1, q');
      assert false;
    }
  }

  lemma DivDiv(a: nat, b: nat, c: nat)
    requires b > 0 && c > 0
    ensures a / b / c == a / (b * c)
  {
    var q := a / b;
    var r := a % b;
    var q2 := q / c;
    var r2 := q % c;
    assert a == b * (c * q2 + r2) + r;
    assert b * (c * q2 + r2) == (b * c) * q2 + b * r2;
    MulMonotone(b, r2, c - 1);
    assert b * (c - 1) == b * c - b;
    DivUnique(a, b * c, q2, b * r2 + r);
  }

  lemma DivBound(y: nat, d: nat, m: nat)
    requires d > 0 && y < d * m
    ensures y / d < m
  {
    if y / d >= m {
      MulMonotone(d, m, y / d);
    }
  }
}

=== FILE: cat.dfy ===
/** catReader (cat.go): reads several archives one after the other. It
    keeps a current reader and a queue; whenever the current one reports
    `io.EOF`, the next queued reader takes its place. */
module CatReader {
  import opened Base
  import opened Errors
  import opened HeaderCodec
  import PlainReader
  import HeaderMap

  /** The Reader values cat.go deals with: a reader of reader.go (with the
      error its source's Close returns, if it is an io.Closer), a
      catReader (cat.go:8-13: `r` and `readers`), a nil Reader, and a
      Reader of another package, which is not an internalReader. */
  datatype Reader =
    | Plain(p: PlainReader.Reader, closeErr: Option<Error>)
    | Cat(cur: Reader, queue: seq<Reader>)
    | Nil
    | Foreign(closeErr: Option<Error>)

  /** internalReader (reader.go:15-19) is implemented by reader and
      catReader only. */
  predicate Internal(r: Reader)
  {
    r.Plain? || r.Cat?
  }

  predicate Valid(r: Reader)
    decreases r
  {
    match r
    case Plain(p, _) => PlainReader.Valid(p)
    case Cat(cur, queue) => Valid(cur) && AllValid(queue)
    case _ => true
  }

  predicate AllValid(rs: seq<Reader>)
    decreases rs
  {
    rs == [] || (Valid(rs[0]) && AllValid(rs[1..]))
  }

  /** The input bytes not yet consumed, over every reader inside `r`. */
  function Pending(r: Reader): nat
    decreases r
  {
    match r
    case Plain(p, _) => if p.src.pos <= |p.src.data| then |p.src.data| - p.src.pos else 0
    case Cat(cur, queue) => Pending(cur) + PendingAll(queue)
    case _ => 0
  }

  function PendingAll(rs: seq<Reader>): nat
    decreases rs
  {
    if rs == [] then 0 else Pending(rs[0]) + PendingAll(rs[1..])
  }

  /** How deeply readers nest: it bounds the pops and delegations of one
      call. */
  function Size(r: Reader): nat
    decreases r
  {
    match r
    case Cat(cur, queue) => 1 + Size(cur) + SizeAll(queue)
    case _ => 1
  }

  function SizeAll(rs: seq<Reader>): nat
    decreases rs
  {
    if rs == [] then 0 else Size(rs[0]) + SizeAll(rs[1..])
  }

  /** Cat (cat.go:101-112): the first reader is current, the rest queue up
      in argument order. With no reader at all `readers[0]` panics. */
  function MakeCat(rs: seq<Reader>): (r: Reader)
    requires |rs| >= 1
    ensures r.Cat? && [r.cur] + r.queue == rs
  {
    Cat(rs[0], rs[1..])
  }

  // ------------------------------------------------------------------ Next

  /** Next (reader.go:35-48 for a reader, cat.go:15-36 for a catReader). A
      reader stays a reader and a catReader a catReader; no call consumes
      input it does not report, and a header always consumes some. */
  function Next(r: Reader): (res: (Reader, Result<Header>))
    requires Internal(r) && Valid(r)
    ensures Internal(res.0) && Valid(res.0) && res.0.Plain? == r.Plain?
    ensures Pending(res.0) <= Pending(r)
    ensures res.1.Ok? ==> Pending(res.0) < Pending(r)
    decreases Size(r), 1
  {
    match r
    case Plain(p, ce) =>
      var (p', res) := PlainReader.Next(p);
      (Plain(p', ce), res)
    case Cat(cur, queue) => CatNext(cur, queue)
  }

  /** catReader.Next: a nil current reports `io.EOF` as it stands; a
      foreign one is refused; an `io.EOF` from the current reader pops the
      next queued reader and tries again, and is reported only once the
      queue is empty. Every other result passes through. */
  function CatNext(cur: Reader, queue: seq<Reader>): (res: (Reader, Result<Header>))
    requires Valid(cur) && AllValid(queue)
    ensures res.0.Cat? && Valid(res.0)
    ensures Pending(res.0) <= Pending(cur) + PendingAll(queue)
    ensures res.1.Ok? ==> Pending(res.0) < Pending(cur) + PendingAll(queue)
    decreases 1 + Size(cur) + SizeAll(queue), 0
  {
    if cur.Nil? then (Cat(cur, queue), Err(EOF))
    else if cur.Foreign? then (Cat(cur, queue), Err(Message("unrecognized reader")))
    else
      var (cur', res) := Next(cur);
      if res.Err? && IsEOF(res.error) then
        if queue == [] then (Cat(cur', queue), Err(EOF))
        else CatNext(queue[0], queue[1..])
      else (Cat(cur', queue), res)
  }

  // ------------------------------------------------------------------ Read

  /** Read (reader.go:50-52, cat.go:38-59). catReader.Read pops on `io.EOF`
      like Next, so the end of an entry's content, which a reader reports
      as `io.EOF`, also moves on to the next queued reader. */
  function Read(r: Reader, k: nat): (res: (Reader, Bytes, Option<Error>))
    requires Internal(r) && Valid(r)
    ensures Internal(res.0) && Valid(res.0) && res.0.Plain? == r.Plain?
    ensures |res.1| <= k
    decreases Size(r), 1
  {
    match r
    case Plain(p, ce) =>
      var (p', b, err) := PlainReader.Read(p, k);
      (Plain(p', ce), b, err)
    case Cat(cur, queue) => CatRead(cur, queue, k)
  }

  function CatRead(cur: Reader, queue: seq<Reader>, k: nat): (res: (Reader, Bytes, Option<Error>))
    requires Valid(cur) && AllValid(queue)
    ensures res.0.Cat? && Valid(res.0) && |res.1| <= k
    decreases 1 + Size(cur) + SizeAll(queue), 0
  {
    if cur.Nil? then (Cat(cur, queue), [], Some(EOF))
    else if cur.Foreign? then (Cat(cur, queue), [], Some(Message("unrecognized reader")))
    else
      var (cur', b, err) := Read(cur, k);
      if err.Some? && IsEOF(err.value) then
        if queue == [] then (Cat(cur', queue), [], Some(EOF))
        else CatRead(queue[0], queue[1..], k)
      else (Cat(cur', queue), b, err)
  }

  // -------------------------------------------------------- discardContent

  /** discardContent (reader.go:54-78, cat.go:71-92). */
  function DiscardContent(r: Reader): (res: (Reader, Option<Error>))
    requires Internal(r) && Valid(r)
    ensures Internal(res.0) && Valid(res.0) && res.0.Plain? == r.Plain?
    decreases Size(r), 1
  {
    match r
    case Plain(p, ce) =>
      var (p', err) := PlainReader.DiscardContent(p);
      (Plain(p', ce), err)
    case Cat(cur, queue) => CatDiscard(cur, queue)
  }

  function CatDiscard(cur: Reader, queue: seq<Reader>): (res: (Reader, Option<Error>))
    requires Valid(cur) && AllValid(queue)
    ensures res.0.Cat? && Valid(res.0)
    decreases 1 + Size(cur) + SizeAll(queue), 0
  {
    if cur.Nil? then (Cat(cur, queue), None)
    else if cur.Foreign? then (Cat(cur, queue), Some(Message("unrecognized reader")))
    else
      var (cur', err) := DiscardContent(cur);
      if err.Some? && IsEOF(err.value) then
        if queue == [] then (Cat(cur', queue), None)
        else CatDiscard(queue[0], queue[1..])
      else (Cat(cur', queue), err)
  }

  // ----------------------------------------------------------------- Close

  /** What a Close call does: return an error or nothing, or panic on a nil
      Reader. */
  datatype Closing = Returned(err: Option<Error>) | NilPanic

  /** `errors.Join(err, e)` for a non-nil `e`. */
  function Join(acc: Option<Error>, e: Error): (r: Error)
    ensures r.Joined?
  {
    if acc.None? then Joined([e]) else Joined([acc.value, e])
  }

  /** Close (reader.go:84-91 forwards to the source; cat.go:61-69 for a
      catReader closes only the queued readers, joining their errors). */
  function Close(r: Reader): (c: Closing)
    decreases r
  {
    match r
    case Plain(_, ce) => Returned(ce)
    case Foreign(ce) => Returned(ce)
    case Nil => NilPanic
    case Cat(_, queue) => CloseQueue(queue, None)
  }

  function CloseQueue(rs: seq<Reader>, acc: Option<Error>): (c: Closing)
    decreases rs
  {
    if rs == [] then Returned(acc)
    else
      var c := Close(rs[0]);
      if c.NilPanic? then NilPanic
      else if c.err.None? then CloseQueue(rs[1..], acc)
      else CloseQueue(rs[1..], Some(Join(acc, c.err.value)))
  }

  // --------------------------------------------------------------- proofs

  /** `errors.Is` looks into both halves of a join. */
  lemma JoinIs(acc: Option<Error>, e: Error, t: Error)
    requires !t.Joined?
    ensures Is(Join(acc, e), t) <==> (acc.Some? && Is(acc.value, t)) || Is(e, t)
  {
    var j := Join(acc, e);
    if acc.None? {
      assert j.errs[0] == e;
    } else {
      assert j.errs[0] == acc.value && j.errs[1] == e;
    }
  }

  /** `r`'s Close returned an error that `errors.Is` matches to `t`. */
  predicate CloseFails(r: Reader, t: Error)
  {
    Close(r).Returned? && Close(r).err.Some? && Is(Close(r).err.value, t)
  }

  /** Some reader in `rs` is nil, so closing the queue panics. */
  predicate Panics(rs: seq<Reader>)
  {
    exists i :: 0 <= i < |rs| && Close(rs[i]).NilPanic?
  }

  /** Every reader in `rs` closes without an error. */
  predicate Quiet(rs: seq<Reader>)
  {
    forall i :: 0 <= i < |rs| ==> Close(rs[i]) == Returned(None)
  }

  /** Closing the queue panics exactly when a queued reader is nil;
      otherwise it returns nothing when every queued reader closed quietly,
      and else an error that `errors.Is` matches to `t` exactly when one of
      the queued readers' errors (or the accumulated one) does. */
  lemma {:induction false} CloseQueueJoins(rs: seq<Reader>, acc: Option<Error>, t: Error)
    requires !t.Joined?
    ensures CloseQueue(rs, acc).NilPanic? <==> Panics(rs)
    ensures CloseQueue(rs, acc) == Returned(None) <==> acc.None? && Quiet(rs)
    ensures var c := CloseQueue(rs, acc);
      c.Returned? && c.err.Some? ==>
        (Is(c.err.value, t) <==> (acc.Some? && Is(acc.value, t)) || exists i :: 0 <= i < |rs| && CloseFails(rs[i], t))
    decreases rs
  {
    if rs != [] {
      var c := Close(rs[0]);
      var tail := rs[1..];
      assert forall i :: 0 <= i < |tail| ==> tail[i] == rs[i + 1];
      if c.NilPanic? {
        assert Close(rs[0]).NilPanic?;
      } else if c.err.None? {
        CloseQueueJoins(tail, acc, t);
        if Panics(rs) {
          var i :| 0 <= i < |rs| && Close(rs[i]).NilPanic?;
          assert i > 0 && Close(tail[i - 1]).NilPanic?;
        }
        if (exists i :: 0 <= i < |rs| && CloseFails(rs[i], t)) {
          var i :| 0 <= i < |rs| && CloseFails(rs[i], t);
          assert i > 0 && CloseFails(tail[i - 1], t);
        }
      } else {
        var acc' := Some(Join(acc, c.err.value));
        CloseQueueJoins(tail, acc', t);
        JoinIs(acc, c.err.value, t);
        if Panics(rs) {
          var i :| 0 <= i < |rs| && Close(rs[i]).NilPanic?;
          assert i > 0 && Close(tail[i - 1]).NilPanic?;
        }
        if (exists i :: 0 <= i < |rs| && CloseFails(rs[i], t)) {
          var i :| 0 <= i < |rs| && CloseFails(rs[i], t);
          if i > 0 {
            assert CloseFails(tail[i - 1], t);
          }
        }
        if Is(c.err.value, t) {
          assert CloseFails(rs[0], t);
        }
        assert !Quiet(rs) by {
          assert Close(rs[0]) != Returned(None);
        }
      }
    }
  }

  /** catReader.Close ignores the current reader: its result is the same
      whatever the current reader is. */
  lemma CloseSkipsCurrent(a: Reader, b: Reader, queue: seq<Reader>, t: Error)
    requires !t.Joined?
    ensures Close(Cat(a, queue)) == Close(Cat(b, queue))
    ensures Close(Cat(a, queue)) == Returned(None) <==> Quiet(queue)
    ensures var c := Close(Cat(a, queue));
      c.Returned? && c.err.Some? ==> (Is(c.err.value, t) <==> exists i :: 0 <= i < |queue| && CloseFails(queue[i], t))
  {
    CloseQueueJoins(queue, None, t);
  }

  // ---------------------------------------------------- draining with Next

  /** The headers repeated Next calls yield, and the error that stops them. */
  function Drain(r: Reader): (d: (seq<Header>, Error))
    requires Internal(r) && Valid(r)
    decreases Pending(r)
  {
    var (r', res) := Next(r);
    if res.Err? then ([], res.error)
    else
      var rest := Drain(r');
      ([res.value] + rest.0, rest.1)
  }

  /** What draining a catReader yields when its current reader drains to
      `d`: `d` itself if that stopped on an error other than `io.EOF`, a
      bare `io.EOF` if the queue is empty, and otherwise `d`'s headers
      followed by the drain of the catReader of the queue. */
  function AfterCurrent(d: (seq<Header>, Error), queue: seq<Reader>): (r: (seq<Header>, Error))
    requires AllValid(queue)
  {
    if !IsEOF(d.1) then d
    else if queue == [] then (d.0, EOF)
    else
      var q := Drain(Cat(queue[0], queue[1..]));
      (d.0 + q.0, q.1)
  }

  /** Draining a catReader drains its current reader, then, if that ended
      with `io.EOF`, the catReader of the queue; a final `io.EOF` comes out
      bare, and any other error stops everything. */
  lemma {:induction false} DrainCat(cur: Reader, queue: seq<Reader>)
    requires Internal(cur) && Valid(cur) && AllValid(queue)
    ensures Drain(Cat(cur, queue)) == AfterCurrent(Drain(cur), queue)
    decreases Pending(cur), 1
  {
    if Next(cur).1.Ok? {
      DrainCatOk(cur, queue);
    } else {
      DrainCatStop(cur, queue);
    }
  }

  lemma {:induction false} DrainCatOk(cur: Reader, queue: seq<Reader>)
    requires Internal(cur) && Valid(cur) && AllValid(queue) && Next(cur).1.Ok?
    ensures Drain(Cat(cur, queue)) == AfterCurrent(Drain(cur), queue)
    decreases Pending(cur), 0
  {
    var n := Next(cur);
    var c := Cat(cur, queue);
    DrainStep(c);
    DrainStep(cur);
    CatNextStep(cur, queue);
    assert Valid(c) && Valid(Cat(n.0, queue));
    hide Drain, Next, CatNext, Valid, AllValid, Pending, PendingAll;
    var d := Drain(n.0);
    assert Drain(cur) == ([n.1.value] + d.0, d.1);
    assert Next(c) == (Cat(n.0, queue), n.1);
    var dc := Drain(Cat(n.0, queue));
    assert Drain(c) == ([n.1.value] + dc.0, dc.1);
    DrainCat(n.0, queue);
    if IsEOF(d.1) && queue != [] {
      var q := Drain(Cat(queue[0], queue[1..]));
      assert [n.1.value] + (d.0 + q.0) == [n.1.value] + d.0 + q.0;
    }
  }

  lemma DrainCatStop(cur: Reader, queue: seq<Reader>)
    requires Internal(cur) && Valid(cur) && AllValid(queue) && Next(cur).1.Err?
    ensures Drain(Cat(cur, queue)) == AfterCurrent(Drain(cur), queue)
  {
    var n := Next(cur);
    var c := Cat(cur, queue);
    assert Valid(c);
    assert Drain(cur) == ([], n.1.error) by {
      DrainStep(cur);
    }
    if !IsEOF(n.1.error) {
      assert Drain(c) == ([], n.1.error) by {
        DrainStep(c);
        CatNextStep(cur, queue);
      }
    } else if queue == [] {
      assert Drain(c) == ([], EOF) by {
        DrainStep(c);
        CatNextStep(cur, queue);
      }
    } else {
      var c2 := Cat(queue[0], queue[1..]);
      assert Valid(c2);
      var q := Drain(c2);
      assert Drain(c) == q by {
        DrainStep(c);
        DrainStep(c2);
        CatNextStep(cur, queue);
      }
      assert [] + q.0 == q.0;
    }
  }

  /** One step of Drain. */
  lemma DrainStep(r: Reader)
    requires Internal(r) && Valid(r)
    ensures var n := Next(r);
      Drain(r) == if n.1.Err? then ([], n.1.error) else ([n.1.value] + Drain(n.0).0, Drain(n.0).1)
  {
  }

  /** One step of catReader.Next, with a pop going through Next of the
      catReader of the queue. */
  lemma CatNextStep(cur: Reader, queue: seq<Reader>)
    requires Internal(cur) && Valid(cur) && AllValid(queue)
    ensures var n := Next(cur);
      && Next(Cat(cur, queue)) == CatNext(cur, queue)
      && CatNext(cur, queue)
           == if n.1.Err? && IsEOF(n.1.error) then
                if queue == [] then (Cat(n.0, queue), Err(EOF)) else Next(Cat(queue[0], queue[1..]))
              else (Cat(n.0, queue), n.1)
  {
  }

  /** A current reader of another package is refused by all three
      operations, and nothing moves. */
  lemma ForeignRefused(ce: Option<Error>, queue: seq<Reader>, k: nat)
    requires AllValid(queue)
    ensures Next(Cat(Foreign(ce), queue)) == (Cat(Foreign(ce), queue), Err(Message("unrecognized reader")))
    ensures Read(Cat(Foreign(ce), queue), k) == (Cat(Foreign(ce), queue), [], Some(Message("unrecognized reader")))
    ensures DiscardContent(Cat(Foreign(ce), queue)) == (Cat(Foreign(ce), queue), Some(Message("unrecognized reader")))
  {
  }

  /** A nil current reader is the end: Next and Read report `io.EOF`
      without looking at the queue, and there is nothing to skip. */
  lemma NilCurrentEnds(queue: seq<Reader>, k: nat)
    requires AllValid(queue)
    ensures Next(Cat(Nil, queue)) == (Cat(Nil, queue), Err(EOF))
    ensures Read(Cat(Nil, queue), k) == (Cat(Nil, queue), [], Some(EOF))
    ensures DiscardContent(Cat(Nil, queue)) == (Cat(Nil, queue), None)
  {
  }

  /** Readers that are internal, valid, and end with `io.EOF`. */
  predicate Drainable(rs: seq<Reader>)
  {
    rs == [] || (Internal(rs[0]) && Valid(rs[0]) && IsEOF(Drain(rs[0]).1) && Drainable(rs[1..]))
  }

  /** The headers of each reader in turn. */
  function Headers(rs: seq<Reader>): (hs: seq<Header>)
    requires Drainable(rs)
  {
    if rs == [] then [] else Drain(rs[0]).0 + Headers(rs[1..])
  }

  /** Repeated Next over Cat(r1, ..., rn) yields r1's headers, then r2's,
      and so on, then `io.EOF`. */
  lemma {:induction false} CatHeaders(rs: seq<Reader>)
    requires |rs| >= 1 && Drainable(rs) && AllValid(rs)
    ensures Drain(MakeCat(rs)) == (Headers(rs), EOF)
  {
    DrainCat(rs[0], rs[1..]);
    if |rs| > 1 {
      CatHeaders(rs[1..]);
      assert MakeCat(rs[1..]) == Cat(rs[1..][0], rs[1..][1..]);
    } else {
      var d := Drain(rs[0]);
      assert rs[1..] == [] && Headers(rs[1..]) == [];
      assert Headers(rs) == d.0 + [] == d.0;
      assert AfterCurrent(d, rs[1..]) == (d.0, EOF);
    }
  }

  // ------------------------------------------- Read and discardContent

  /** Read on a catReader whose current reader is within an entry: while
      content is owed, it hands out the entry's next bytes exactly as the
      reader does and leaves the queue alone; at the entry's end the
      reader's `io.EOF` pops the next queued reader and the read goes to
      it, or, with an empty queue, is a bare `io.EOF`. */
  lemma ReadWithinCat(p: PlainReader.Reader, ce: Option<Error>, queue: seq<Reader>, c: Bytes, rest: Bytes, k: nat)
    requires PlainReader.Within(p, c, rest) && AllValid(queue)
    ensures Valid(Cat(Plain(p, ce), queue))
    ensures var (r', b, err) := Read(Cat(Plain(p, ce), queue), k);
      var m := Min(k, |c|);
      c != [] ==>
        && b == c[..m] && err.None?
        && r' == Cat(Plain(PlainReader.Read(p, k).0, ce), queue)
        && PlainReader.Within(PlainReader.Read(p, k).0, c[m..], rest)
    ensures c == [] && queue == [] ==> Read(Cat(Plain(p, ce), queue), k) == (Cat(Plain(p, ce), []), [], Some(EOF))
    ensures c == [] && queue != [] ==> Read(Cat(Plain(p, ce), queue), k) == CatRead(queue[0], queue[1..], k)
  {
    PlainReader.ReadWithin(p, c, rest, k);
    assert Read(Cat(Plain(p, ce), queue), k) == CatRead(Plain(p, ce), queue, k);
    var (p', b, err) := PlainReader.Read(p, k);
    assert Read(Plain(p, ce), k) == (Plain(p', ce), b, err);
  }

  /** discardContent on a catReader over a reader of this package never
      pops the queue: the reader's skip never reports an error `errors.Is`
      matches to `io.EOF`, so its result comes back as it is. */
  lemma DiscardNeverPops(p: PlainReader.Reader, ce: Option<Error>, queue: seq<Reader>)
    requires PlainReader.Valid(p) && AllValid(queue)
    ensures Valid(Cat(Plain(p, ce), queue))
    ensures var (p', err) := PlainReader.DiscardContent(p);
      DiscardContent(Cat(Plain(p, ce), queue)) == (Cat(Plain(p', ce), queue), err)
  {
    var (p', err) := PlainReader.DiscardContent(p);
    assert DiscardContent(Plain(p, ce)) == (Plain(p', ce), err);
    assert err.Some? ==> !IsEOF(err.value);
    assert DiscardContent(Cat(Plain(p, ce), queue)) == CatDiscard(Plain(p, ce), queue);
  }

  /** Within an entry, discardContent on the catReader lands right after
      the entry, as the reader's own skip does, with no error. */
  lemma DiscardWithinCat(p: PlainReader.Reader, ce: Option<Error>, queue: seq<Reader>, c: Bytes, rest: Bytes)
    requires PlainReader.Within(p, c, rest) && AllValid(queue)
    ensures Valid(Cat(Plain(p, ce), queue))
    ensures var (r', err) := DiscardContent(Cat(Plain(p, ce), queue));
      && err.None? && r'.Cat? && r'.queue == queue && r'.cur.Plain? && PlainReader.Valid(r'.cur.p)
      && PlainReader.Pending(r'.cur.p) == rest && r'.cur.p.src.end == p.src.end
  {
    PlainReader.DiscardWithin(p, c, rest);
    DiscardNeverPops(p, ce, queue);
  }

  // ------------------------------------------------------ Read at an end

  /** Readers that have not decoded a header yet. */
  predicate Fresh(rs: seq<Reader>)
  {
    rs == [] || (rs[0].Plain? && rs[0].p.n == 0 && Valid(rs[0]) && Fresh(rs[1..]))
  }

  /** At the end of an entry's content the current reader reports `io.EOF`,
      and so does every reader that has not decoded a header yet; Read on a
      catReader therefore pops the whole queue of fresh readers and leaves
      the last one current. The current reader's later entries, and every
      reader in between, are never read. */
  lemma {:induction false} ReadAtEntryEnd(cur: Reader, queue: seq<Reader>, k: nat)
    requires cur.Plain? && cur.p.n == 0 && Valid(cur) && Fresh(queue)
    ensures AllValid(queue)
    ensures CatRead(cur, queue, k) == (Cat(if queue == [] then cur else queue[|queue| - 1], []), [], Some(EOF))
    decreases |queue|
  {
    if queue != [] {
      ReadAtEntryEnd(queue[0], queue[1..], k);
      assert queue[1..] != [] ==> queue[1..][|queue[1..]| - 1] == queue[|queue| - 1];
    }
  }

  // ------------------------------------------------- Read, as intended

  /** The catReader Read that reads the current entry and nothing else: the
      end of an entry's content comes back as the reader's `io.EOF`, and the
      queue is left for Next to advance through. cat.go:48-56 instead pops
      on that `io.EOF` (see `ReadAtEntryEnd`). */
  function EntryRead(r: Reader, k: nat): (res: (Reader, Bytes, Option<Error>))
    requires Internal(r) && Valid(r)
    ensures Internal(res.0) && Valid(res.0) && res.0.Plain? == r.Plain?
    ensures r.Cat? ==> res.0.queue == r.queue
    ensures |res.1| <= k
    decreases r
  {
    match r
    case Plain(p, ce) =>
      var (p', b, err) := PlainReader.Read(p, k);
      (Plain(p', ce), b, err)
    case Cat(cur, queue) =>
      if cur.Nil? then (r, [], Some(EOF))
      else if cur.Foreign? then (r, [], Some(Message("unrecognized reader")))
      else
        var (cur', b, err) := EntryRead(cur, k);
        (Cat(cur', queue), b, err)
  }

  /** Within an entry the intended Read hands out the entry's next bytes
      as the reader does, and reports `io.EOF` at its end without moving;
      where content is left it agrees with cat.go's Read. */
  lemma EntryReadWithin(p: PlainReader.Reader, ce: Option<Error>, queue: seq<Reader>, c: Bytes, rest: Bytes, k: nat)
    requires PlainReader.Within(p, c, rest) && AllValid(queue)
    ensures Valid(Cat(Plain(p, ce), queue))
    ensures var (r', b, err) := EntryRead(Cat(Plain(p, ce), queue), k);
      var m := Min(k, |c|);
      && r' == Cat(Plain(PlainReader.Read(p, k).0, ce), queue)
      && b == c[..m]
      && err == (if c == [] then Some(EOF) else None)
      && PlainReader.Within(PlainReader.Read(p, k).0, c[m..], rest)
    ensures c != [] ==> EntryRead(Cat(Plain(p, ce), queue), k) == Read(Cat(Plain(p, ce), queue), k)
  {
    PlainReader.ReadWithin(p, c, rest, k);
    ReadWithinCat(p, ce, queue, c, rest, k);
    var (p', b, err) := PlainReader.Read(p, k);
    assert EntryRead(Plain(p, ce), k) == (Plain(p', ce), b, err);
  }

  /** Reading an entry to its end with the intended Read loses nothing:
      the next Next still yields the current reader's next header, with the
      queue untouched. */
  lemma EntryReadThenNext(p: PlainReader.Reader, ce: Option<Error>, queue: seq<Reader>, h: Header,
                          content: Bytes, rest: Bytes, k: nat)
    requires Encodable(h) && ReadableName(h.name) && HeaderMap.Decodable(h.data) && |content| == h.size
    requires PlainReader.Within(p, [], EncodeHeader(h) + content + rest) && AllValid(queue)
    ensures Valid(Cat(Plain(p, ce), queue))
    ensures var (r', b, err) := EntryRead(Cat(Plain(p, ce), queue), k);
      && r' == Cat(Plain(p, ce), queue) && b == [] && err == Some(EOF)
      && Next(r') == (Cat(Plain(PlainReader.Next(p).0, ce), queue), Ok(Header(h.name, h.size, Valued(h.data))))
  {
    hide EncodeHeader, Valued;
    EntryReadWithin(p, ce, queue, [], EncodeHeader(h) + content + rest, k);
    PlainReader.ReadWithin(p, [], EncodeHeader(h) + content + rest, k);
    PlainReader.NextWithin(p, [], h, content, rest);
    var (p', res) := PlainReader.Next(p);
    assert Next(Plain(p, ce)) == (Plain(p', ce), res);
    assert Next(Cat(Plain(p, ce), queue)) == CatNext(Plain(p, ce), queue);
  }
}

=== FILE: errors.dfy ===
/** Go's error values as data. Sentinel errors (`io.EOF`, `ErrClosed`, ...)
    are constructors, `fmt.Errorf("...: %w", e)` is `Wrapped`, and
    `errors.Join` is `Joined`; `Is` is `errors.Is`. */
module Errors {

  datatype Error =
    | EOF                                // io.EOF
    | UnexpectedEOF                      // io.ErrUnexpectedEOF
    | IoFault(code: nat)                 // any other error of a byte source or sink
    | Closed                             // ErrClosed (writer.go)
    | WriteTooLong                       // ErrWriteTooLong (writer.go)
    | InvalidSize                        // ErrInvalidSize (writer.go)
    | Message(text: string)              // errors.New / fmt.Errorf without %w
    | Wrapped(context: string, inner: Error)
    | Joined(errs: seq<Error>)
    | Panicked(reason: string)           // a run-time panic (see Wrap)

  /** `errors.Is(e, target)`: `e` is `target` or wraps or joins it. */
  predicate Is(e: Error, target: Error)
  {
    match e
    case Wrapped(_, inner) => e == target || Is(inner, target)
    case Joined(errs) => e == target || exists i :: 0 <= i < |errs| && Is(errs[i], target)
    case _ => e == target
  }

  /** `errors.Is(e, io.EOF)`. */
  predicate IsEOF(e: Error)
  {
    Is(e, EOF)
  }

  /** `fmt.Errorf(context + ": %w", e)` on the way up a call chain. A
      panic is no error value: nothing in the package recovers it, so it
      unwinds every caller unchanged, and the model passes it on as it is. */
  function Wrap(context: string, e: Error): (r: Error)
    ensures e.Panicked? ==> r == e
    ensures !e.Panicked? ==> r == Wrapped(context, e)
  {
    if e.Panicked? then e else Wrapped(context, e)
  }

  /** Wrapping with context keeps the wrapped error visible to `errors.Is`. */
  lemma WrapKeepsIs(context: string, e: Error, target: Error)
    requires target.EOF? || target.Closed? || target.WriteTooLong? || target.InvalidSize?
    ensures Is(Wrapped(context, e), target) <==> Is(e, target)
  {
  }

  datatype Option<+T> = None | Some(value: T)

  datatype Result<+T> = Ok(value: T) | Err(error: Error)

  /** A decoding step: what it produced and how many input bytes it took,
      which the caller needs even on failure since the source has advanced. */
  datatype Decoded<+T> = Decoded(result: Result<T>, used: nat)
}

=== FILE: header.dfy ===
/** The entry header of header.go: a name record, optional metadata key
    and value records, and a content-length record, each record a VarSize
    followed (except the last) by that many bytes. */
module HeaderCodec {
  import opened Base
  import opened Errors
  import opened VarSize

  /** Every string is a Go string: at most `maxInt` bytes long. */
  predicate GoStrings(vs: seq<Bytes>)
  {
    vs == [] || (|vs[0]| < INT64_LIMIT && GoStrings(vs[1..]))
  }

  /** One metadata key with its list of values. A Go map has no order, so
      `Header.data` lists the keys in the order the map is iterated. */
  datatype Field = Field(key: Bytes, values: seq<Bytes>)

  /** Header (header.go:71-79); an empty `data` is the nil map. */
  datatype Header = Header(name: Bytes, size: uint64, data: seq<Field>)

  predicate FieldsEncodable(data: seq<Field>)
  {
    data == [] || (|data[0].key| < INT64_LIMIT && GoStrings(data[0].values) && FieldsEncodable(data[1..]))
  }

  /** The capacity of DecodeHeader's scratch buffer (header.go:83). */
  const BufferCap: nat := 256

  /** Every payload fits the scratch buffer. */
  predicate FitsBuffer(vs: seq<Bytes>)
  {
    vs == [] || (|vs[0]| <= BufferCap && FitsBuffer(vs[1..]))
  }

  /** Fields the decoder reads back without failing: every key is
      non-empty, since an empty key leaves no active key and the values
      after it are rejected; and every key and value fits the scratch
      buffer, since a longer payload makes the decoder panic. */
  predicate FieldsReadable(data: seq<Field>)
  {
    data == [] || (data[0].key != [] && |data[0].key| <= BufferCap && FitsBuffer(data[0].values)
                   && FieldsReadable(data[1..]))
  }

  predicate Encodable(h: Header)
  {
    |h.name| < INT64_LIMIT && FieldsEncodable(h.data)
  }

  // ---------------------------------------------------------------- encoding

  function EncodeValues(vs: seq<Bytes>): Bytes
    requires GoStrings(vs)
  {
    if vs == [] then []
    else EncodeSize(DataValueSize, |vs[0]|) + vs[0] + EncodeValues(vs[1..])
  }

  function EncodeField(f: Field): Bytes
    requires |f.key| < INT64_LIMIT && GoStrings(f.values)
  {
    EncodeSize(DataNameSize, |f.key|) + f.key + EncodeValues(f.values)
  }

  function EncodeFields(data: seq<Field>): Bytes
    requires FieldsEncodable(data)
  {
    if data == [] then [] else EncodeField(data[0]) + EncodeFields(data[1..])
  }

  /** EncodeHeader (header.go:239-261): the name record, each key once
      followed by one record per value, then the content length. The first
      record a decoder reads from it is the name's length, tagged NameSize. */
  function EncodeHeader(h: Header): (r: Bytes)
    requires Encodable(h)
    ensures DecodeSize(r, EOF) == Decoded(Ok(Size(NameSize, |h.name|)), ByteCount(|h.name|))
  {
    var tail := h.name + EncodeFields(h.data) + EncodeSize(ContentSize, h.size);
    EncodeDecodeSize(NameSize, |h.name|, tail, EOF);
    assert EncodeSize(NameSize, |h.name|) + tail
        == EncodeSize(NameSize, |h.name|) + h.name + EncodeFields(h.data) + EncodeSize(ContentSize, h.size);
    EncodeSize(NameSize, |h.name|) + h.name + EncodeFields(h.data) + EncodeSize(ContentSize, h.size)
  }

  // ---------------------------------------------------------------- decoding

  /** `h.Data[key] = append(h.Data[key], v)` on the map kept as a list of
      fields in first-insertion order. */
  function Append(data: seq<Field>, key: Bytes, v: Bytes): (r: seq<Field>)
    ensures |r| >= 1
  {
    if data == [] then [Field(key, [v])]
    else if data[0].key == key then [Field(key, data[0].values + [v])] + data[1..]
    else [data[0]] + Append(data[1..], key, v)
  }

  /** `io.ReadFull` of `n` bytes from a source holding `s` and then
      reporting `eof`: a short read is `io.ErrUnexpectedEOF` when the source
      ended with a bare `io.EOF` after some bytes, the source's error
      otherwise. */
  function ReadFull(s: Bytes, n: nat, eof: Error): (d: Decoded<Bytes>)
    ensures d.used <= |s|
    ensures d.result.Ok? <==> n <= |s|
    ensures d.result.Ok? ==> d.used == n && d.result.value == s[..n]
  {
    if n <= |s| then Decoded(Ok(s[..n]), n)
    else if |s| == 0 then Decoded(Err(eof), 0)
    else Decoded(Err(if eof == EOF then UnexpectedEOF else eof), |s|)
  }

  /** `d` after `n` more input bytes were consumed before it. */
  function Later<T>(n: nat, d: Decoded<T>): Decoded<T>
  {
    Decoded(d.result, n + d.used)
  }

  /** The panic of `buf.Bytes()[:n]` (header.go:142, 154) for a payload
      longer than the scratch buffer: resizeBuffer asks `Grow` only for the
      shortfall against `Available()`, which `Grow` meets by reslicing, so
      the capacity stays at BufferCap. */
  const SliceBoundsPanic: Error := Panicked("slice bounds out of range")

  /** The largest length `make([]byte, n)` accepts: the Go runtime's
      `maxAlloc`, 2^48 on 64-bit linux (amd64 and arm64), where the heap
      addresses 48 bits. */
  const MaxAlloc: nat := 0x1_0000_0000_0000

  /** The panic of `make([]byte, n)` (header.go:105) for a name length
      above MaxAlloc. */
  const MakeLenPanic: Error := Panicked("makeslice: len out of range")

  /** A name DecodeHeader can read back: non-empty, and short enough for
      `make` to allocate. */
  predicate ReadableName(n: Bytes)
  {
    n != [] && |n| <= MaxAlloc
  }

  /** The field loop of DecodeHeader (header.go:121-160) over the bytes
      `rest` still unread, with `key` the active metadata key (empty when
      none) and `data` the map built so far. With `flush` set it appends the
      never-assigned `value` (the empty string) under the active key when a
      new key arrives, as header.go:135-137 does. A payload longer than
      BufferCap panics before anything is read for it. */
  function DecodeFields(flush: bool, rest: Bytes, eof: Error, name: Bytes, key: Bytes, data: seq<Field>)
    : (d: Decoded<Header>)
    ensures d.used <= |rest|
    ensures d.result.Ok? ==> 1 <= d.used && d.result.value.name == name
    decreases |rest|
  {
    var sz := DecodeSize(rest, eof);
    if sz.result.Err? then Decoded(Err(Wrapped("error reading size", sz.result.error)), sz.used)
    else
      var size := sz.result.value;
      var after := rest[sz.used..];
      match size.kind
      case NameSize => Decoded(Err(Message("unexpected name size")), sz.used)
      case ContentSize => Decoded(Ok(Header(name, size.value, data)), sz.used)
      case DataNameSize =>
        if size.value > BufferCap then Decoded(Err(SliceBoundsPanic), sz.used)
        else
          var rf := ReadFull(after, size.value, eof);
          if rf.result.Err? then Decoded(Err(Wrapped("error reading header byte", rf.result.error)), sz.used + rf.used)
          else
            var data' := if flush && key != [] then Append(data, key, []) else data;
            Later(sz.used + rf.used, DecodeFields(flush, after[rf.used..], eof, name, rf.result.value, data'))
      case DataValueSize =>
        if key == [] then Decoded(Err(Message("unexpected value size")), sz.used)
        else if size.value > BufferCap then Decoded(Err(SliceBoundsPanic), sz.used)
        else
          var rf := ReadFull(after, size.value, eof);
          if rf.result.Err? then Decoded(Err(Wrapped("error reading header byte", rf.result.error)), sz.used + rf.used)
          else Later(sz.used + rf.used, DecodeFields(flush, after[rf.used..], eof, name, key, Append(data, key, rf.result.value)))
  }

  /** The message of header.go:99 for a first record of tag `t`. */
  function NotANameMessage(t: SizeType): string
  {
    "expected name size, got " + [(48 + t.Ord()) as char]
  }

  /** DecodeHeader (header.go:82-163) over the bytes `s` a source holds
      before reporting `eof`. The name is taken with a single `Read`, so a
      short read leaves the zero bytes of the fresh buffer in the name. */
  function DecodeHeaderWith(flush: bool, s: Bytes, eof: Error): (d: Decoded<Header>)
    ensures d.used <= |s|
    ensures d.result.Ok? ==> 1 <= d.used && d.result.value.name != []
  {
    var sz := DecodeSize(s, eof);
    if sz.result.Err? then Decoded(Err(Wrapped("error reading name size", sz.result.error)), sz.used)
    else
      var size := sz.result.value;
      if size.kind != NameSize then Decoded(Err(Message(NotANameMessage(size.kind))), sz.used)
      else if size.value == 0 then Decoded(Err(EOF), sz.used)
      else if size.value > MaxAlloc then Decoded(Err(MakeLenPanic), sz.used)
      else
        var rest := s[sz.used..];
        if |rest| == 0 then Decoded(Err(Wrapped("error reading name", eof)), sz.used)
        else
          var got := Min(size.value, |rest|);
          var name := rest[..got] + Zeros(size.value - got);
          if name == [] then Decoded(Err(Message("unexpected empty name")), sz.used + got)
          else Later(sz.used + got, DecodeFields(flush, rest[got..], eof, name, [], []))
  }

  /** The decoder as written, including the flush of the unassigned `value`. */
  function DecodeHeaderAsWritten(s: Bytes, eof: Error): (d: Decoded<Header>)
    ensures d.used <= |s|
  {
    DecodeHeaderWith(true, s, eof)
  }

  /** The decoder without that flush: what the reader uses. */
  function DecodeHeader(s: Bytes, eof: Error): (d: Decoded<Header>)
    ensures d.used <= |s|
    ensures d.result.Ok? ==> 1 <= d.used && d.result.value.name != []
  {
    DecodeHeaderWith(false, s, eof)
  }

  // ------------------------------------------------- what the decoder stores

  function AppendAll(data: seq<Field>, key: Bytes, vs: seq<Bytes>): seq<Field>
    decreases |vs|
  {
    if vs == [] then data else AppendAll(Append(data, key, vs[0]), key, vs[1..])
  }

  /** The map the field loop builds from a list of encoded fields, starting
      from active key `key` and map `data`. */
  function FoldFields(flush: bool, key: Bytes, data: seq<Field>, fields: seq<Field>): seq<Field>
    decreases |fields|
  {
    if fields == [] then data
    else
      var data' := if flush && key != [] then Append(data, key, []) else data;
      FoldFields(flush, fields[0].key, AppendAll(data', fields[0].key, fields[0].values), fields[1..])
  }

  /** The fields that have at least one value: a key encoded without values
      is never stored by the decoder. */
  function Valued(data: seq<Field>): (r: seq<Field>)
    ensures |r| <= |data|
  {
    if data == [] then []
    else if data[0].values == [] then Valued(data[1..])
    else [data[0]] + Valued(data[1..])
  }

  // --------------------------------------------------------------- proofs

  /** A record followed by its payload, read back from the front of the
      input: DecodeSize gives the record, ReadFull the payload. */
  lemma ReadRecord(t: SizeType, p: Bytes, tail: Bytes, eof: Error)
    requires |p| < UINT64_LIMIT
    ensures var s := EncodeSize(t, |p|) + p + tail;
      && DecodeSize(s, eof) == Decoded(Ok(Size(t, |p|)), ByteCount(|p|))
      && s[ByteCount(|p|)..] == p + tail
      && ReadFull(p + tail, |p|, eof) == Decoded(Ok(p), |p|)
      && (p + tail)[|p|..] == tail
  {
    var s := EncodeSize(t, |p|) + p + tail;
    assert s == EncodeSize(t, |p|) + (p + tail);
    EncodeDecodeSize(t, |p|, p + tail, eof);
  }

  /** One step of the field loop: a value record under an active key. */
  lemma ValueStep(flush: bool, v: Bytes, tail: Bytes, eof: Error, name: Bytes, key: Bytes, data: seq<Field>)
    requires key != [] && |v| <= BufferCap
    ensures DecodeFields(flush, EncodeSize(DataValueSize, |v|) + v + tail, eof, name, key, data)
         == Later(ByteCount(|v|) + |v|, DecodeFields(flush, tail, eof, name, key, Append(data, key, v)))
  {
    ReadRecord(DataValueSize, v, tail, eof);
  }

  /** One step of the field loop: a key record. */
  lemma KeyStep(flush: bool, k: Bytes, tail: Bytes, eof: Error, name: Bytes, key: Bytes, data: seq<Field>)
    requires |k| <= BufferCap
    ensures DecodeFields(flush, EncodeSize(DataNameSize, |k|) + k + tail, eof, name, key, data)
         == Later(ByteCount(|k|) + |k|,
                  DecodeFields(flush, tail, eof, name, k, if flush && key != [] then Append(data, key, []) else data))
  {
    ReadRecord(DataNameSize, k, tail, eof);
  }

  /** The last step of the field loop: the content-length record ends the
      header. */
  lemma ContentStep(flush: bool, size: uint64, tail: Bytes, eof: Error, name: Bytes, key: Bytes, data: seq<Field>)
    ensures DecodeFields(flush, EncodeSize(ContentSize, size) + tail, eof, name, key, data)
         == Decoded(Ok(Header(name, size, data)), ByteCount(size))
  {
    EncodeDecodeSize(ContentSize, size, tail, eof);
  }

  /** Decoding the value records of the active key appends each value under
      it, in order. */
  lemma {:induction false} ValuesRoundTrip(flush: bool, vs: seq<Bytes>, tail: Bytes, eof: Error, name: Bytes,
                                           key: Bytes, data: seq<Field>)
    requires key != [] && GoStrings(vs) && FitsBuffer(vs)
    ensures DecodeFields(flush, EncodeValues(vs) + tail, eof, name, key, data)
         == Later(|EncodeValues(vs)|, DecodeFields(flush, tail, eof, name, key, AppendAll(data, key, vs)))
    decreases |vs|
  {
    hide DecodeFields, DecodeSize;
    if vs == [] {
      assert EncodeValues(vs) + tail == tail;
    } else {
      var v := vs[0];
      var more := EncodeValues(vs[1..]) + tail;
      assert EncodeValues(vs) + tail == EncodeSize(DataValueSize, |v|) + v + more;
      ValueStep(flush, v, more, eof, name, key, data);
      ValuesRoundTrip(flush, vs[1..], tail, eof, name, key, Append(data, key, v));
    }
  }

  /** Decoding encoded fields up to the content-length record yields the
      map FoldFields describes. */
  lemma {:induction false} FieldsRoundTrip(flush: bool, fields: seq<Field>, size: uint64, tail: Bytes, eof: Error,
                                           name: Bytes, key: Bytes, data: seq<Field>)
    requires FieldsEncodable(fields) && FieldsReadable(fields)
    ensures DecodeFields(flush, EncodeFields(fields) + EncodeSize(ContentSize, size) + tail, eof, name, key, data)
         == Decoded(Ok(Header(name, size, FoldFields(flush, key, data, fields))),
                    |EncodeFields(fields)| + ByteCount(size))
    decreases |fields|
  {
    hide DecodeFields, DecodeSize, EncodeSize, EncodeField;
    if fields == [] {
      assert EncodeFields(fields) + EncodeSize(ContentSize, size) + tail == EncodeSize(ContentSize, size) + tail;
      ContentStep(flush, size, tail, eof, name, key, data);
    } else {
      var f := fields[0];
      var after := EncodeFields(fields[1..]) + EncodeSize(ContentSize, size) + tail;
      assert EncodeFields(fields) + EncodeSize(ContentSize, size) + tail == EncodeField(f) + after;
      FieldRoundTrip(flush, f, after, eof, name, key, data);
      var data' := if flush && key != [] then Append(data, key, []) else data;
      assert FoldFields(flush, key, data, fields) == FoldFields(flush, f.key, AppendAll(data', f.key, f.values), fields[1..]);
      assert |EncodeFields(fields)| == |EncodeField(f)| + |EncodeFields(fields[1..])|;
      FieldsRoundTrip(flush, fields[1..], size, tail, eof, name, f.key, AppendAll(data', f.key, f.values));
    }
  }

  /** Decoding one encoded field makes its key the active one and appends
      its values under it. */
  lemma FieldRoundTrip(flush: bool, f: Field, after: Bytes, eof: Error, name: Bytes, key: Bytes, data: seq<Field>)
    requires f.key != [] && |f.key| <= BufferCap && GoStrings(f.values) && FitsBuffer(f.values)
    ensures var data' := if flush && key != [] then Append(data, key, []) else data;
      DecodeFields(flush, EncodeField(f) + after, eof, name, key, data)
      == Later(|EncodeField(f)|, DecodeFields(flush, after, eof, name, f.key, AppendAll(data', f.key, f.values)))
  {
    hide DecodeFields, DecodeSize;
    FieldLayout(f, after);
    KeyThenValues(flush, f.key, f.values, after, eof, name, key, data);
  }

  lemma FieldLayout(f: Field, after: Bytes)
    requires |f.key| < INT64_LIMIT && GoStrings(f.values)
    ensures EncodeField(f) + after == EncodeSize(DataNameSize, |f.key|) + f.key + (EncodeValues(f.values) + after)
    ensures |EncodeField(f)| == ByteCount(|f.key|) + |f.key| + |EncodeValues(f.values)|
  {
    Assoc(EncodeSize(DataNameSize, |f.key|) + f.key, EncodeValues(f.values), after);
  }

  lemma KeyThenValues(flush: bool, k: Bytes, vs: seq<Bytes>, after: Bytes, eof: Error, name: Bytes, key: Bytes,
                      data: seq<Field>)
    requires k != [] && |k| <= BufferCap && GoStrings(vs) && FitsBuffer(vs)
    ensures var data' := if flush && key != [] then Append(data, key, []) else data;
      DecodeFields(flush, EncodeSize(DataNameSize, |k|) + k + (EncodeValues(vs) + after), eof, name, key, data)
      == Later(ByteCount(|k|) + |k| + |EncodeValues(vs)|,
               DecodeFields(flush, after, eof, name, k, AppendAll(data', k, vs)))
  {
    hide DecodeFields, DecodeSize, EncodeSize, EncodeValues;
    var data' := if flush && key != [] then Append(data, key, []) else data;
    KeyStep(flush, k, EncodeValues(vs) + after, eof, name, key, data);
    ValuesRoundTrip(flush, vs, after, eof, name, k, data');
  }

  lemma Assoc<T>(a: seq<T>, b: seq<T>, c: seq<T>)
    ensures a + b + c == a + (b + c)
  {
  }

  /** The name record: a non-empty name read in full hands the rest of the
      input to the field loop with no active key and an empty map. */
  lemma NameStep(flush: bool, n: Bytes, after: Bytes, eof: Error)
    requires ReadableName(n)
    ensures DecodeHeaderWith(flush, EncodeSize(NameSize, |n|) + n + after, eof)
         == Later(ByteCount(|n|) + |n|, DecodeFields(flush, after, eof, n, [], []))
  {
    hide DecodeFields;
    ReadRecord(NameSize, n, after, eof);
    assert (n + after)[..|n|] + Zeros(0) == n;
  }

  /** Decoding an encoded header recovers its name and content length and
      the map FoldFields builds from its fields, and consumes exactly the
      encoding. */
  lemma HeaderRoundTripWith(flush: bool, h: Header, rest: Bytes, eof: Error)
    requires Encodable(h) && ReadableName(h.name)
    requires FieldsReadable(h.data)
    ensures DecodeHeaderWith(flush, EncodeHeader(h) + rest, eof)
         == Decoded(Ok(Header(h.name, h.size, FoldFields(flush, [], [], h.data))), |EncodeHeader(h)|)
  {
    hide DecodeFields, DecodeSize, EncodeSize, EncodeFields;
    var after := EncodeFields(h.data) + EncodeSize(ContentSize, h.size) + rest;
    assert EncodeHeader(h) + rest == EncodeSize(NameSize, |h.name|) + h.name + after;
    NameStep(flush, h.name, after, eof);
    FieldsRoundTrip(flush, h.data, h.size, rest, eof, h.name, [], []);
  }

  // ------------------------------------------------------------ error paths

  /** Empty input: the name size cannot be read. */
  lemma EmptyInput(flush: bool, eof: Error)
    ensures DecodeHeaderWith(flush, [], eof) == Decoded(Err(Wrapped("error reading name size", eof)), 0)
  {
    var sz := DecodeSize([], eof);
    assert sz.result.Err?;
  }

  /** A name size of zero is the archive's end marker and decodes to a bare
      `io.EOF` after one byte. */
  lemma EndMarker(flush: bool, rest: Bytes, eof: Error)
    ensures DecodeHeaderWith(flush, EncodeSize(NameSize, 0) + rest, eof) == Decoded(Err(EOF), 1)
  {
    EncodeDecodeSize(NameSize, 0, rest, eof);
  }

  /** A header must open with a name record; the error names the tag it
      found, as a decimal digit. */
  lemma NotANameRecord(flush: bool, t: SizeType, x: uint64, rest: Bytes, eof: Error)
    requires t != NameSize
    ensures DecodeHeaderWith(flush, EncodeSize(t, x) + rest, eof)
         == Decoded(Err(Message("expected name size, got " + [if t == ContentSize then '1' else if t == DataNameSize then '2' else '3'])),
                    ByteCount(x))
  {
    EncodeDecodeSize(t, x, rest, eof);
  }

  /** A name record with nothing after it: the name read fails with the
      source's own error. */
  lemma MissingName(flush: bool, x: uint64, eof: Error)
    requires 0 < x <= MaxAlloc
    ensures DecodeHeaderWith(flush, EncodeSize(NameSize, x), eof)
         == Decoded(Err(Wrapped("error reading name", eof)), ByteCount(x))
  {
    EncodeDecodeSize(NameSize, x, [], eof);
    assert EncodeSize(NameSize, x) + [] == EncodeSize(NameSize, x);
  }

  /** A name cut short by the end of the input: the single read takes what
      is there, and the field loop then finds no size to read, so the
      zero-padded name is never returned. */
  lemma ShortName(flush: bool, x: uint64, p: Bytes, eof: Error)
    requires 0 < |p| < x <= MaxAlloc
    ensures DecodeHeaderWith(flush, EncodeSize(NameSize, x) + p, eof)
         == Decoded(Err(Wrapped("error reading size", eof)), ByteCount(x) + |p|)
  {
    hide DecodeFields;
    EncodeDecodeSize(NameSize, x, p, eof);
    assert (EncodeSize(NameSize, x) + p)[ByteCount(x)..] == p;
    assert p[|p|..] == [];
    FieldsAtEnd(flush, eof, p[..|p|] + Zeros(x - |p|), [], []);
  }

  /** A name length above MaxAlloc makes `make` panic before anything past
      the record is read. */
  lemma HugeName(flush: bool, x: uint64, rest: Bytes, eof: Error)
    requires x > MaxAlloc
    ensures DecodeHeaderWith(flush, EncodeSize(NameSize, x) + rest, eof) == Decoded(Err(MakeLenPanic), ByteCount(x))
  {
    EncodeDecodeSize(NameSize, x, rest, eof);
  }

  /** The field loop at the end of the input: the size cannot be read. */
  lemma FieldsAtEnd(flush: bool, eof: Error, name: Bytes, key: Bytes, data: seq<Field>)
    ensures DecodeFields(flush, [], eof, name, key, data) == Decoded(Err(Wrapped("error reading size", eof)), 0)
  {
    var sz := DecodeSize([], eof);
    assert sz.result.Err?;
  }

  /** A second name record inside the metadata. */
  lemma StrayNameRecord(flush: bool, x: uint64, tail: Bytes, eof: Error, name: Bytes, key: Bytes, data: seq<Field>)
    ensures DecodeFields(flush, EncodeSize(NameSize, x) + tail, eof, name, key, data)
         == Decoded(Err(Message("unexpected name size")), ByteCount(x))
  {
    EncodeDecodeSize(NameSize, x, tail, eof);
  }

  /** A value record with no active key. */
  lemma StrayValueRecord(flush: bool, x: uint64, tail: Bytes, eof: Error, name: Bytes, data: seq<Field>)
    ensures DecodeFields(flush, EncodeSize(DataValueSize, x) + tail, eof, name, [], data)
         == Decoded(Err(Message("unexpected value size")), ByteCount(x))
  {
    EncodeDecodeSize(DataValueSize, x, tail, eof);
  }

  /** A key or value record whose payload the input cuts short: the error
      is `io.ErrUnexpectedEOF` when some bytes were there and the source
      ended cleanly, and the source's own error otherwise. */
  lemma TruncatedPayload(flush: bool, t: SizeType, x: uint64, p: Bytes, eof: Error, name: Bytes, key: Bytes,
                         data: seq<Field>)
    requires t == DataNameSize || (t == DataValueSize && key != [])
    requires |p| < x <= BufferCap
    ensures DecodeFields(flush, EncodeSize(t, x) + p, eof, name, key, data)
         == Decoded(Err(Wrapped("error reading header byte",
                                if p != [] && eof == EOF then UnexpectedEOF else eof)),
                    ByteCount(x) + |p|)
  {
    EncodeDecodeSize(t, x, p, eof);
    assert (EncodeSize(t, x) + p)[ByteCount(x)..] == p;
  }

  /** A key or value record longer than the scratch buffer: slicing the
      buffer to that length panics, whatever input follows. */
  lemma OversizedPayload(flush: bool, t: SizeType, x: uint64, tail: Bytes, eof: Error, name: Bytes, key: Bytes,
                         data: seq<Field>)
    requires t == DataNameSize || (t == DataValueSize && key != [])
    requires x > BufferCap
    ensures DecodeFields(flush, EncodeSize(t, x) + tail, eof, name, key, data) == Decoded(Err(SliceBoundsPanic), ByteCount(x))
  {
    EncodeDecodeSize(t, x, tail, eof);
  }

  /** A key read in full followed by a value record with an empty key
      leaves no active key: an empty key cannot carry values. */
  lemma EmptyKeyThenValue(flush: bool, x: uint64, tail: Bytes, eof: Error, name: Bytes, data: seq<Field>)
    ensures DecodeFields(flush, EncodeSize(DataNameSize, 0) + EncodeSize(DataValueSize, x) + tail, eof, name, [], data)
         == Decoded(Err(Message("unexpected value size")), 1 + ByteCount(x))
  {
    hide DecodeFields;
    var none: Bytes := [];
    KeyStep(flush, none, EncodeSize(DataValueSize, x) + tail, eof, name, [], data);
    assert EncodeSize(DataNameSize, 0) + EncodeSize(DataValueSize, x) + tail
        == EncodeSize(DataNameSize, |none|) + none + (EncodeSize(DataValueSize, x) + tail);
    StrayValueRecord(flush, x, tail, eof, name, data);
  }
}

=== FILE: headermap.dfy ===
/** What the header decoder stores in `Header.Data`: closed forms of the
    map the field loop builds, for the fixed decoder and for the decoder as
    written, and the round trips of header.go's codec that follow. */
module HeaderMap {
  import opened Base
  import opened Errors
  import opened VarSize
  import opened HeaderCodec

  function Keys(data: seq<Field>): set<Bytes>
  {
    if data == [] then {} else {data[0].key} + Keys(data[1..])
  }

  predicate DistinctKeys(data: seq<Field>)
  {
    data == [] || (data[0].key !in Keys(data[1..]) && DistinctKeys(data[1..]))
  }

  /** The metadata of a header the decoder reads back: the keys of a Go
      map, so distinct, and fields the decoder can read (FieldsReadable). */
  predicate Decodable(data: seq<Field>)
  {
    FieldsReadable(data) && DistinctKeys(data)
  }

  /** Every key carries at least one value. */
  predicate AllValued(data: seq<Field>)
  {
    data == [] || (data[0].values != [] && AllValued(data[1..]))
  }

  /** The map header.go:121-160 builds, as written, from encoded fields
      `[cur] + fields`: every key but the last also receives the empty
      string, because a new key flushes the unassigned `value`; the last
      key is stored only if it has values. */
  function AsWrittenFrom(cur: Field, fields: seq<Field>): (r: seq<Field>)
    decreases |fields|
  {
    if fields == [] then Valued([cur])
    else [Field(cur.key, cur.values + [[]])] + AsWrittenFrom(fields[0], fields[1..])
  }

  function AsWritten(fields: seq<Field>): seq<Field>
  {
    if fields == [] then [] else AsWrittenFrom(fields[0], fields[1..])
  }

  // ------------------------------------------------------- map primitives

  lemma {:induction false} KeysAppend(data: seq<Field>, more: seq<Field>)
    ensures Keys(data + more) == Keys(data) + Keys(more)
    decreases |data|
  {
    if data != [] {
      assert (data + more)[1..] == data[1..] + more;
      KeysAppend(data[1..], more);
    } else {
      assert data + more == more;
    }
  }

  lemma {:induction false} ValuedKeys(data: seq<Field>)
    ensures Keys(Valued(data)) <= Keys(data)
    decreases |data|
  {
    if data != [] {
      ValuedKeys(data[1..]);
    }
  }

  /** Appending under a key the map does not hold adds that key last. */
  lemma {:induction false} AppendFresh(data: seq<Field>, k: Bytes, v: Bytes)
    requires k !in Keys(data)
    ensures Append(data, k, v) == data + [Field(k, [v])]
    decreases |data|
  {
    if data != [] {
      AppendFresh(data[1..], k, v);
      assert data == [data[0]] + data[1..];
    }
  }

  /** Appending under the last key, which no earlier entry holds, extends
      that entry's list. */
  lemma {:induction false} AppendLast(data: seq<Field>, k: Bytes, us: seq<Bytes>, v: Bytes)
    requires k !in Keys(data)
    ensures Append(data + [Field(k, us)], k, v) == data + [Field(k, us + [v])]
    decreases |data|
  {
    if data != [] {
      assert (data + [Field(k, us)])[1..] == data[1..] + [Field(k, us)];
      AppendLast(data[1..], k, us, v);
      assert data == [data[0]] + data[1..];
    }
  }

  lemma {:induction false} AppendAllLast(data: seq<Field>, k: Bytes, us: seq<Bytes>, vs: seq<Bytes>)
    requires k !in Keys(data)
    ensures AppendAll(data + [Field(k, us)], k, vs) == data + [Field(k, us + vs)]
    decreases |vs|
  {
    if vs == [] {
      assert us + vs == us;
    } else {
      AppendLast(data, k, us, vs[0]);
      AppendAllLast(data, k, us + [vs[0]], vs[1..]);
      assert us + [vs[0]] + vs[1..] == us + vs;
    }
  }

  /** All values of a key the map does not hold: the key arrives last with
      exactly those values, or not at all when there are none. */
  lemma AppendAllFresh(data: seq<Field>, k: Bytes, vs: seq<Bytes>)
    requires k !in Keys(data)
    ensures AppendAll(data, k, vs) == data + Valued([Field(k, vs)])
  {
    if vs != [] {
      AppendFresh(data, k, vs[0]);
      AppendAllLast(data, k, [vs[0]], vs[1..]);
      assert [vs[0]] + vs[1..] == vs;
    } else {
      assert data + [] == data;
    }
  }

  // ------------------------------------------------------------ closed forms

  /** The fixed field loop stores each key with its values, in order, and
      drops the keys without values. */
  lemma {:induction false} FoldFresh(key: Bytes, data: seq<Field>, fields: seq<Field>)
    requires DistinctKeys(fields) && Keys(data) !! Keys(fields)
    ensures FoldFields(false, key, data, fields) == data + Valued(fields)
    decreases |fields|
  {
    hide Append, AppendAll;
    if fields == [] {
      assert data + [] == data;
    } else {
      var f := fields[0];
      AppendAllFresh(data, f.key, f.values);
      var data' := data + Valued([f]);
      KeysAppend(data, Valued([f]));
      ValuedKeys([f]);
      FoldFresh(f.key, data', fields[1..]);
      ValuedCons(fields);
    }
  }

  /** A new key arriving while `k` is active: `k` receives the empty
      string, its entry created if it had no values. */
  lemma FlushStep(k: Bytes, vs: seq<Bytes>, data: seq<Field>)
    requires k !in Keys(data)
    ensures Append(data + Valued([Field(k, vs)]), k, []) == data + [Field(k, vs + [[]])]
    ensures Keys(data + [Field(k, vs + [[]])]) == Keys(data) + {k}
  {
    var cur := Field(k, vs);
    assert [cur][1..] == [];
    if vs == [] {
      AppendFresh(data, k, []);
      assert data + Valued([cur]) == data;
      assert vs + [[]] == [[]];
    } else {
      assert Valued([cur]) == [cur];
      AppendLast(data, k, vs, []);
    }
    KeysAppend(data, [Field(k, vs + [[]])]);
  }

  /** The field loop as written, with `k` active and its entry (if it has
      values) last in the map. */
  lemma {:induction false} FoldFlush(k: Bytes, vs: seq<Bytes>, data: seq<Field>, fields: seq<Field>)
    requires k != [] && k !in Keys(data) && k !in Keys(fields)
    requires Decodable(fields) && Keys(data) !! Keys(fields)
    ensures FoldFields(true, k, data + Valued([Field(k, vs)]), fields) == data + AsWrittenFrom(Field(k, vs), fields)
    decreases |fields|
  {
    hide Append, AppendAll, Valued;
    var cur := Field(k, vs);
    if fields != [] {
      var f := fields[0];
      var data2 := data + [Field(k, vs + [[]])];
      FlushStep(k, vs, data);
      AppendAllFresh(data2, f.key, f.values);
      FoldFlush(f.key, f.values, data2, fields[1..]);
      assert data2 + AsWrittenFrom(f, fields[1..]) == data + AsWrittenFrom(cur, fields);
    }
  }

  lemma FoldAsWritten(fields: seq<Field>)
    requires Decodable(fields)
    ensures FoldFields(true, [], [], fields) == AsWritten(fields)
  {
    if fields != [] {
      var f := fields[0];
      AppendAllFresh([], f.key, f.values);
      assert [] + Valued([f]) == Valued([f]);
      FoldFlush(f.key, f.values, [], fields[1..]);
      assert [] + AsWrittenFrom(f, fields[1..]) == AsWrittenFrom(f, fields[1..]);
    }
  }

  lemma ValuedCons(fields: seq<Field>)
    requires fields != []
    ensures Valued(fields) == Valued([fields[0]]) + Valued(fields[1..])
  {
    assert [fields[0]][1..] == [];
  }

  lemma {:induction false} ValuedAll(data: seq<Field>)
    requires AllValued(data)
    ensures Valued(data) == data
    decreases |data|
  {
    if data != [] {
      ValuedAll(data[1..]);
      assert data == [data[0]] + data[1..];
    }
  }

  // -------------------------------------------------------------- theorems

  /** DecodeHeader inverts EncodeHeader: it recovers the name, the content
      length and every key with its values in order, drops only the keys
      that have no values, and consumes exactly the encoding. */
  lemma DecodeEncode(h: Header, rest: Bytes, eof: Error)
    requires Encodable(h) && ReadableName(h.name) && Decodable(h.data)
    ensures DecodeHeader(EncodeHeader(h) + rest, eof)
         == Decoded(Ok(Header(h.name, h.size, Valued(h.data))), |EncodeHeader(h)|)
  {
    HeaderRoundTripWith(false, h, rest, eof);
    FoldFresh([], [], h.data);
    assert [] + Valued(h.data) == Valued(h.data);
  }

  /** The exact round trip when every key has a value. */
  lemma DecodeEncodeExact(h: Header, rest: Bytes, eof: Error)
    requires Encodable(h) && ReadableName(h.name) && Decodable(h.data) && AllValued(h.data)
    ensures DecodeHeader(EncodeHeader(h) + rest, eof) == Decoded(Ok(h), |EncodeHeader(h)|)
  {
    DecodeEncode(h, rest, eof);
    ValuedAll(h.data);
  }

  /** The decoder as written on an encoded header: the map AsWritten
      describes. */
  lemma DecodeEncodeAsWritten(h: Header, rest: Bytes, eof: Error)
    requires Encodable(h) && ReadableName(h.name) && Decodable(h.data)
    ensures DecodeHeaderAsWritten(EncodeHeader(h) + rest, eof)
         == Decoded(Ok(Header(h.name, h.size, AsWritten(h.data))), |EncodeHeader(h)|)
  {
    HeaderRoundTripWith(true, h, rest, eof);
    FoldAsWritten(h.data);
  }

  /** The flush changes the map exactly when there are two keys or more. */
  lemma AsWrittenValued(fields: seq<Field>)
    requires DistinctKeys(fields)
    ensures AsWritten(fields) == Valued(fields) <==> |fields| <= 1
  {
    if |fields| >= 2 {
      var f := fields[0];
      var r := AsWritten(fields);
      assert r[0] == Field(f.key, f.values + [[]]);
      if f.values != [] {
        assert Valued(fields)[0] == f;
        assert |r[0].values| != |f.values|;
      } else {
        assert Valued(fields) == Valued(fields[1..]);
        ValuedKeys(fields[1..]);
        if Valued(fields) != [] {
          assert Valued(fields)[0].key in Keys(Valued(fields[1..]));
        }
      }
    } else if |fields| == 1 {
      assert fields == [fields[0]];
    }
  }

  /** The decoder as written agrees with the fixed one on an encoded header
      exactly when the header has at most one metadata key. */
  lemma AsWrittenAgreesIff(h: Header, rest: Bytes, eof: Error)
    requires Encodable(h) && ReadableName(h.name) && Decodable(h.data)
    ensures DecodeHeaderAsWritten(EncodeHeader(h) + rest, eof) == DecodeHeader(EncodeHeader(h) + rest, eof)
        <==> |h.data| <= 1
  {
    DecodeEncode(h, rest, eof);
    DecodeEncodeAsWritten(h, rest, eof);
    AsWrittenValued(h.data);
  }

  /** The input that shows the flush: keys "k" (value "v") and "j" (value
      "w") decode with an extra empty value under "k". */
  lemma TwoKeysGainEmptyValue(rest: Bytes, eof: Error)
    ensures var h := Header([110], 0, [Field([107], [[118]]), Field([106], [[119]])]);
      && DecodeHeader(EncodeHeader(h) + rest, eof).result == Ok(h)
      && DecodeHeaderAsWritten(EncodeHeader(h) + rest, eof).result
         == Ok(Header([110], 0, [Field([107], [[118], []]), Field([106], [[119]])]))
  {
    hide EncodeHeader, DecodeHeader, DecodeHeaderAsWritten;
    var f := Field([107], [[118]]);
    var g := Field([106], [[119]]);
    var h := Header([110], 0, [f, g]);
    assert h.data[1..] == [g] && [g][1..] == [];
    assert GoStrings([[118]]) && GoStrings([[119]]);
    assert FieldsEncodable([g]) && FieldsEncodable(h.data);
    assert FieldsReadable([g]) && FieldsReadable(h.data);
    assert Keys([g]) == {[106]};
    assert DistinctKeys([g]) && DistinctKeys(h.data);
    assert AllValued([g]) && AllValued(h.data);
    DecodeEncodeExact(h, rest, eof);
    DecodeEncodeAsWritten(h, rest, eof);
    assert f.values + [[]] == [[118], []];
    assert AsWritten(h.data) == [Field([107], [[118], []])] + AsWrittenFrom(g, []);
    assert AsWrittenFrom(g, []) == [g];
    assert AsWritten(h.data) == [Field([107], [[118], []]), g];
    assert DecodeHeaderAsWritten(EncodeHeader(h) + rest, eof).result == Ok(Header([110], 0, AsWritten(h.data)));
  }
}

=== FILE: headersize.dfy ===
/** EncodedHeaderSize (header.go:212-236): the number of bytes a header
    occupies, which the table-of-contents builder adds to its offsets. */
module HeaderSize {
  import opened Base
  import opened VarSize
  import opened HeaderCodec

  /** Length of the value records of one key. */
  function ValuesSize(vs: seq<Bytes>): nat
  {
    if vs == [] then 0 else ByteCount(|vs[0]|) + |vs[0]| + ValuesSize(vs[1..])
  }

  function FieldsSize(data: seq<Field>): nat
  {
    if data == [] then 0
    else ByteCount(|data[0].key|) + |data[0].key| + ValuesSize(data[0].values) + FieldsSize(data[1..])
  }

  /** EncodedHeaderSize as the encoder lays the header out: one record per
      key and one per value, each a VarSize plus its payload. */
  function EncodedHeaderSize(h: Header): nat
  {
    ByteCount(|h.name|) + |h.name| + FieldsSize(h.data) + ByteCount(h.size)
  }

  /** The inner loop of header.go:224-228: for every value, the key record
      and the value's payload, with no value length prefix. */
  function ValuesSizeAsWritten(vs: seq<Bytes>, ons: nat): nat
  {
    if vs == [] then 0 else ons + |vs[0]| + ValuesSizeAsWritten(vs[1..], ons)
  }

  /** The per-key sum of header.go:220-233 as written: the key record
      counted once per value, or once if there are none. */
  function FieldsSizeAsWritten(data: seq<Field>): nat
  {
    if data == [] then 0
    else
      var f := data[0];
      var ons := ByteCount(|f.key|) + |f.key|;
      (if f.values == [] then ons else ValuesSizeAsWritten(f.values, ons)) + FieldsSizeAsWritten(data[1..])
  }

  /** EncodedHeaderSize as written. */
  function EncodedHeaderSizeAsWritten(h: Header): nat
  {
    ByteCount(|h.name|) + |h.name| + FieldsSizeAsWritten(h.data) + ByteCount(h.size)
  }

  /** No key carries a value. */
  predicate NoValues(data: seq<Field>)
  {
    data == [] || (data[0].values == [] && NoValues(data[1..]))
  }

  /** The length prefixes of the value records of one key. */
  function Prefixes(vs: seq<Bytes>): nat
  {
    if vs == [] then 0 else ByteCount(|vs[0]|) + Prefixes(vs[1..])
  }

  /** The length prefixes of all value records. */
  function ValuePrefixes(data: seq<Field>): nat
  {
    if data == [] then 0 else Prefixes(data[0].values) + ValuePrefixes(data[1..])
  }

  /** One key record per value after the first. */
  function Repeats(vs: seq<Bytes>, ons: nat): nat
  {
    if |vs| <= 1 then 0 else ons + Repeats(vs[1..], ons)
  }

  /** The key records counted beyond the first, over all keys. */
  function RepeatedKeys(data: seq<Field>): nat
  {
    if data == [] then 0
    else Repeats(data[0].values, ByteCount(|data[0].key|) + |data[0].key|) + RepeatedKeys(data[1..])
  }

  // --------------------------------------------------------------- proofs

  lemma {:induction false} ValuesSizeExact(vs: seq<Bytes>)
    requires GoStrings(vs)
    ensures ValuesSize(vs) == |EncodeValues(vs)|
    decreases |vs|
  {
    if vs != [] {
      ValuesSizeExact(vs[1..]);
    }
  }

  lemma {:induction false} FieldsSizeExact(data: seq<Field>)
    requires FieldsEncodable(data)
    ensures FieldsSize(data) == |EncodeFields(data)|
    decreases |data|
  {
    if data != [] {
      ValuesSizeExact(data[0].values);
      FieldsSizeExact(data[1..]);
    }
  }

  /** EncodedHeaderSize is the length of EncodeHeader's output. */
  lemma HeaderSizeExact(h: Header)
    requires Encodable(h)
    ensures EncodedHeaderSize(h) == |EncodeHeader(h)|
  {
    FieldsSizeExact(h.data);
  }

  /** One key's values, counted as written and as encoded. */
  lemma {:induction false} ValuesDiscrepancy(vs: seq<Bytes>, ons: nat)
    requires GoStrings(vs) && vs != []
    ensures ValuesSizeAsWritten(vs, ons) + Prefixes(vs) == ons + ValuesSize(vs) + Repeats(vs, ons)
    decreases |vs|
  {
    if |vs| > 1 {
      ValuesDiscrepancy(vs[1..], ons);
    }
  }

  /** What EncodedHeaderSize as written gets wrong, exactly: it adds a key
      record for every value after the first and leaves out the length
      prefix of every value. */
  lemma {:induction false} AsWrittenDiscrepancy(data: seq<Field>)
    requires FieldsEncodable(data)
    ensures FieldsSizeAsWritten(data) + ValuePrefixes(data) == FieldsSize(data) + RepeatedKeys(data)
    decreases |data|
  {
    if data != [] {
      var f := data[0];
      if f.values != [] {
        ValuesDiscrepancy(f.values, ByteCount(|f.key|) + |f.key|);
      }
      AsWrittenDiscrepancy(data[1..]);
    }
  }

  lemma {:induction false} NoValuesNoDiscrepancy(data: seq<Field>)
    requires FieldsEncodable(data) && NoValues(data)
    ensures ValuePrefixes(data) == 0 && RepeatedKeys(data) == 0
    decreases |data|
  {
    if data != [] {
      NoValuesNoDiscrepancy(data[1..]);
    }
  }

  /** Without metadata values, EncodedHeaderSize as written is exact. */
  lemma AsWrittenExactWithoutValues(h: Header)
    requires Encodable(h) && NoValues(h.data)
    ensures EncodedHeaderSizeAsWritten(h) == |EncodeHeader(h)|
  {
    AsWrittenDiscrepancy(h.data);
    NoValuesNoDiscrepancy(h.data);
    HeaderSizeExact(h);
  }

  /** Every key has at most one value. */
  predicate SingleValued(data: seq<Field>)
  {
    data == [] || (|data[0].values| <= 1 && SingleValued(data[1..]))
  }

  lemma {:induction false} SingleValuedDiscrepancy(data: seq<Field>)
    requires FieldsEncodable(data) && SingleValued(data)
    ensures RepeatedKeys(data) == 0
    ensures ValuePrefixes(data) == 0 <==> NoValues(data)
    decreases |data|
  {
    if data != [] {
      var vs := data[0].values;
      if vs != [] {
        assert vs[1..] == [];
      }
      SingleValuedDiscrepancy(data[1..]);
    }
  }

  /** With at most one value per key, EncodedHeaderSize as written is exact
      if and only if no key has a value; otherwise it falls short. */
  lemma AsWrittenExactIff(h: Header)
    requires Encodable(h) && SingleValued(h.data)
    ensures EncodedHeaderSizeAsWritten(h) <= |EncodeHeader(h)|
    ensures EncodedHeaderSizeAsWritten(h) == |EncodeHeader(h)| <==> NoValues(h.data)
  {
    AsWrittenDiscrepancy(h.data);
    SingleValuedDiscrepancy(h.data);
    HeaderSizeExact(h);
  }

  /** The input that shows it: name "a", content length 0 and key "k" with
      the single value "v" encode to 7 bytes, but EncodedHeaderSize as
      written says 6. */
  lemma SizeAsWrittenFallsShort()
    ensures var h := Header([97], 0, [Field([107], [[118]])]);
      Encodable(h) && |EncodeHeader(h)| == 7 && EncodedHeaderSizeAsWritten(h) == 6
  {
    var h := Header([97], 0, [Field([107], [[118]])]);
    assert GoStrings([[118]]) && FieldsEncodable(h.data);
    assert ByteCount(1) == 1 && ByteCount(0) == 1;
    HeaderSizeExact(h);
    assert [[118]][1..] == [] && h.data[1..] == [];
    assert FieldsSizeAsWritten(h.data) == 3;
  }
}

=== FILE: reader.dfy ===
/** reader (reader.go): reads an archive entry by entry. Next skips what is
    left of the current entry's content and decodes the next header; Read
    hands out the current entry's content, never more than its size. */
module PlainReader {
  import opened Base
  import opened Errors
  import opened HeaderCodec
  import opened ByteSource
  import HeaderMap

  /** reader (reader.go:21-24): the source, and `contentReader.N`, the
      content bytes of the current entry neither read nor skipped yet. */
  datatype Reader = Reader(src: Source, n: int)

  /** What the model keeps true of every reader: a valid source and a
      count that is not negative. */
  predicate Valid(r: Reader)
  {
    ByteSource.Valid(r.src) && r.n >= 0
  }

  /** The bytes the reader has not consumed. */
  function Pending(r: Reader): (p: Bytes)
    requires ByteSource.Valid(r.src)
    ensures |p| == |r.src.data| - r.src.pos
  {
    Unread(r.src)
  }

  /** NewReader (reader.go:26-33): nothing is owed before the first header. */
  function NewReader(src: Source): (r: Reader)
    requires ByteSource.Valid(src)
    ensures Valid(r) && Pending(r) == Unread(src) && r.n == 0
  {
    Reader(src, 0)
  }

  /** discardContent (reader.go:54-78): skips the `N` bytes still owed. A
      count of 0 does nothing; running into the end of a stream that ended
      cleanly is not an error. The count itself is left as it is. */
  function DiscardContent(r: Reader): (res: (Reader, Option<Error>))
    requires ByteSource.Valid(r.src)
    ensures ByteSource.Valid(res.0.src) && res.0.n == r.n && res.0.src.end == r.src.end
    ensures r.n == 0 ==> res == (r, None)
    ensures r.n >= 0 && res.1.None? ==> Pending(res.0) == Pending(r)[Min(r.n, |Pending(r)|)..]
    ensures r.n >= 0 && res.1.Some? ==>
      && !r.src.seekable && r.n > |Pending(r)| && !IsEOF(r.src.end) && res.1 == Some(r.src.end)
  {
    if r.n == 0 then (r, None)
    else
      var (s, e) := Discard(r.src, r.n);
      (r.(src := s), if e.Some? && IsEOF(e.value) then None else e)
  }

  /** Next (reader.go:35-48). With `asWritten` set it is the code as it
      stands: header.go's DecodeHeader with its flush of the unassigned
      value, and the count set to `int64(hdr.Size)`, which turns a size of
      2^63 or more negative. Otherwise it is the corrected reader: the
      decoder without the flush, and the size itself as the count. A
      failure leaves the count as it was, so the next call skips the same
      content again; a panic of the decoder passes through. */
  function NextWith(asWritten: bool, r: Reader): (res: (Reader, Result<Header>))
    requires ByteSource.Valid(r.src)
    ensures ByteSource.Valid(res.0.src) && res.0.src.end == r.src.end
    ensures res.1.Err? ==> res.0.n == r.n
    ensures res.1.Ok? ==> res.0.n == if asWritten then Int64Of(res.1.value.size) else res.1.value.size
  {
    var (r1, e1) := DiscardContent(r);
    if e1.Some? then (r1, Err(Wrapped("error discarding content", e1.value)))
    else
      var d := DecodeHeaderWith(asWritten, Pending(r1), r1.src.end);
      var r2 := r1.(src := Skip(r1.src, d.used));
      if d.result.Err? then (r2, Err(Wrap("error reading the next header", d.result.error)))
      else (r2.(n := if asWritten then Int64Of(d.result.value.size) else d.result.value.size), Ok(d.result.value))
  }

  /** The corrected Next, with the count kept as the unsigned size: every call moves
      forward, and a decoded header always consumes input. */
  function Next(r: Reader): (res: (Reader, Result<Header>))
    requires Valid(r)
    ensures Valid(res.0)
    ensures |Pending(res.0)| <= |Pending(r)|
    ensures res.1.Ok? ==> |Pending(res.0)| < |Pending(r)|
  {
    NextWith(false, r)
  }

  /** Read (reader.go:50-52), through `io.LimitedReader`: nothing but
      `io.EOF` once the count is used up; otherwise at most the count is
      read, and the count goes down by what was read. */
  function Read(r: Reader, k: nat): (res: (Reader, Bytes, Option<Error>))
    requires ByteSource.Valid(r.src)
    ensures ByteSource.Valid(res.0.src) && res.0.src.end == r.src.end
    ensures r.n <= 0 ==> res == (r, [], Some(EOF))
    ensures r.n > 0 ==> |res.1| <= Min(k, r.n) && res.0.n == r.n - |res.1|
    ensures Pending(r) == res.1 + Pending(res.0)
    ensures r.n > 0 && Pending(r) != [] ==> |res.1| == Min(Min(k, r.n), |Pending(r)|) && res.2.None?
    ensures r.n > 0 && Pending(r) == [] ==> res == (r, [], Some(r.src.end))
  {
    if r.n <= 0 then (r, [], Some(EOF))
    else
      var (s, b, e) := ByteSource.Read(r.src, Min(k, r.n));
      (Reader(s, r.n - |b|), b, e)
  }

  // --------------------------------------------------------------- proofs

  /** The reader's position within an entry: `c` is the content still
      owed, `rest` what follows the entry. */
  predicate Within(r: Reader, c: Bytes, rest: Bytes)
  {
    ByteSource.Valid(r.src) && Pending(r) == c + rest && r.n == |c|
  }

  /** Read keeps the reader within the entry, handing out its next bytes. */
  lemma ReadWithin(r: Reader, c: Bytes, rest: Bytes, k: nat)
    requires Within(r, c, rest)
    ensures var (r', b, err) := Read(r, k);
      var m := Min(k, |c|);
      && (c != [] ==> b == c[..m] && err.None? && Within(r', c[m..], rest))
      && (c == [] ==> b == [] && err == Some(EOF) && r' == r)
  {
    if c != [] {
      var (r', b, err) := Read(r, k);
      var m := Min(k, |c|);
      assert |b| == m;
      assert b == (c + rest)[..m] == c[..m];
      assert c + rest == c[..m] + (c[m..] + rest);
    }
  }

  /** However much of the entry was read, skipping its content lands on
      what follows it. */
  lemma DiscardWithin(r: Reader, c: Bytes, rest: Bytes)
    requires Within(r, c, rest)
    ensures DiscardContent(r).1.None?
    ensures Pending(DiscardContent(r).0) == rest
  {
    assert (c + rest)[|c|..] == rest;
  }

  /** Once the skip succeeded, Next is the decoder on what follows. */
  lemma NextDecodes(r: Reader, h: Header, used: nat)
    requires Valid(r) && DiscardContent(r).1.None?
    requires var r1 := DiscardContent(r).0;
      DecodeHeader(Pending(r1), r1.src.end) == Decoded(Ok(h), used)
    ensures used <= |Pending(DiscardContent(r).0)|
    ensures Next(r) == (Reader(Skip(DiscardContent(r).0.src, used), h.size), Ok(h))
  {
  }

  /** A reader within an entry followed by an encoded header: Next yields
      the header as the decoder stores it, and leaves the reader within the
      new entry's content. */
  lemma NextWithin(r: Reader, c: Bytes, h: Header, content: Bytes, rest: Bytes)
    requires Encodable(h) && ReadableName(h.name) && HeaderMap.Decodable(h.data) && |content| == h.size
    requires Within(r, c, EncodeHeader(h) + content + rest)
    ensures var (r', res) := Next(r);
      && res == Ok(Header(h.name, h.size, Valued(h.data)))
      && Within(r', content, rest)
  {
    hide DecodeHeader, EncodeHeader, Valued;
    var e := EncodeHeader(h);
    DiscardWithin(r, c, e + content + rest);
    var r1 := DiscardContent(r).0;
    assert Pending(r1) == e + (content + rest);
    HeaderMap.DecodeEncode(h, content + rest, r1.src.end);
    var h' := Header(h.name, h.size, Valued(h.data));
    NextDecodes(r, h', |e|);
    hide Next, DiscardContent;
    assert (e + (content + rest))[|e|..] == content + rest;
  }

  /** The error Next reports when the input ends where a header would
      start. */
  function EndError(end: Error): (e: Error)
    ensures IsEOF(e) <==> IsEOF(end)
  {
    WrapKeepsIs("error reading name size", end, EOF);
    WrapKeepsIs("error reading the next header", Wrapped("error reading name size", end), EOF);
    Wrapped("error reading the next header", Wrapped("error reading name size", end))
  }

  /** Once the last entry's content is all that is left, however much of
      it was read, Next reports the source's end error, wrapped twice: a
      clean end is still `io.EOF` to `errors.Is`. */
  lemma NextAtEnd(r: Reader, c: Bytes)
    requires Within(r, c, [])
    ensures Next(r).1 == Err(EndError(r.src.end))
  {
    DiscardWithin(r, c, []);
    EmptyInput(false, r.src.end);
  }

  /** Skipping fails only on a stream that ends early with an error other
      than `io.EOF`; Next then reports it and keeps the count. */
  lemma DiscardFault(r: Reader)
    requires Valid(r) && !r.src.seekable && r.n > |Pending(r)| && !IsEOF(r.src.end)
    ensures Next(r) == (r.(src := r.src.(pos := |r.src.data|)), Err(Wrapped("error discarding content", r.src.end)))
  {
  }

  // ------------------------------------------- the signed count, as written

  /** The archive of one entry named "a" whose size is 2^64 - 12, which the
      signed count makes -12: the length of the header itself. */
  function LoopingHeader(): (h: Header)
    ensures Encodable(h) && |EncodeHeader(h)| == 12
  {
    var h := Header([97], UINT64_LIMIT - 12, []);
    Pow2Wide();
    BitLenAtLeast(h.size, 64);
    BitLenFromBounds(h.size, 64);
    assert VarSize.ByteCount(h.size) == 10;
    assert VarSize.ByteCount(1) == 1 by {
      assert BitLen(1) == 1;
    }
    h
  }

  /** As written, after that header a byte slice is read in a circle: the
      negative count seeks back over the header just decoded, Next decodes
      it again and comes back to the same state, so a loop over Next, such
      as the table-of-contents builder's, never ends. */
  lemma NextAsWrittenRepeats()
    ensures var h := LoopingHeader();
      var r := Reader(Source(EncodeHeader(h), 12, EOF, true), -12);
      NextWith(true, r) == (r, Ok(h))
  {
    var h := LoopingHeader();
    var e := EncodeHeader(h);
    var r := Reader(Source(e, 12, EOF, true), -12);
    var r1 := DiscardContent(r).0;
    assert r1.src.pos == 0 && Pending(r1) == e + [];
    HeaderMap.DecodeEncodeAsWritten(h, [], EOF);
    assert HeaderMap.AsWritten(h.data) == [];
    assert Int64Of(h.size) == -12;
  }

  /** As written, Next within an entry followed by an encoded header whose
      size fits an int64: the header as the flushing decoder stores it,
      every key but the last with an extra empty value, and the reader
      within the new entry's content. */
  lemma NextWithinAsWritten(r: Reader, c: Bytes, h: Header, content: Bytes, rest: Bytes)
    requires Encodable(h) && ReadableName(h.name) && HeaderMap.Decodable(h.data) && |content| == h.size < INT64_LIMIT
    requires Within(r, c, EncodeHeader(h) + content + rest)
    ensures var (r', res) := NextWith(true, r);
      && res == Ok(Header(h.name, h.size, HeaderMap.AsWritten(h.data)))
      && Within(r', content, rest)
  {
    hide DecodeHeaderWith, EncodeHeader, HeaderMap.AsWritten;
    var e := EncodeHeader(h);
    DiscardWithin(r, c, e + content + rest);
    var r1 := DiscardContent(r).0;
    assert Pending(r1) == e + (content + rest);
    HeaderMap.DecodeEncodeAsWritten(h, content + rest, r1.src.end);
    assert (e + (content + rest))[|e|..] == content + rest;
  }
}

=== FILE: sink.dfy ===
/** The `io.Writer` the archive writers emit into. A sink keeps what it
    has accepted and a script of per-call faults: each `Write` consumes one
    entry of the script, and a sink whose script is empty accepts every
    byte, as a `bytes.Buffer` does. */
module Sink {
  import opened Base
  import opened Errors

  /** A failing call: the sink takes the first `taken` bytes offered (or all
      of them, if fewer) and reports `err`. */
  datatype Fault = Fault(taken: nat, err: Error)

  datatype Sink = Sink(written: Bytes, script: seq<Option<Fault>>)

  /** What one `Write(b)` call did: the sink afterwards, the count it
      returned, and its error. */
  datatype Put = Put(sink: Sink, n: nat, err: Option<Error>)

  /** A sink that accepts every byte from now on. */
  predicate Healthy(k: Sink)
  {
    k.script == []
  }

  /** `w.Write(b)`. The count never exceeds `len(b)` and a short count always
      comes with an error, as io.Writer requires. */
  function Write(k: Sink, b: Bytes): (r: Put)
    ensures r.n <= |b| && r.sink.written == k.written + b[..r.n]
    ensures r.n < |b| ==> r.err.Some?
    ensures Healthy(k) ==> r == Put(Sink(k.written + b, []), |b|, None)
    ensures |r.sink.script| == if k.script == [] then 0 else |k.script| - 1
  {
    if k.script == [] || k.script[0].None? then
      assert b[..|b|] == b;
      Put(Sink(k.written + b, if k.script == [] then [] else k.script[1..]), |b|, None)
    else
      var f := k.script[0].value;
      var n := Min(f.taken, |b|);
      Put(Sink(k.written + b[..n], k.script[1..]), n, Some(f.err))
  }
}

=== FILE: source.dfy ===
/** The `io.Reader` an archive is read from: the bytes it still holds and
    the error it reports once they are exhausted (`io.EOF` for a stream
    that ended cleanly, anything else for a broken one). A seekable source
    is a `bytes.Reader`. */
module ByteSource {
  import opened Base
  import opened Errors

  datatype Source = Source(data: Bytes, pos: nat, end: Error, seekable: bool)

  predicate Valid(s: Source)
  {
    s.pos <= |s.data|
  }

  function Unread(s: Source): (r: Bytes)
    requires Valid(s)
    ensures |r| == |s.data| - s.pos
  {
    s.data[s.pos..]
  }

  /** The source after `n` more bytes were consumed. */
  function Skip(s: Source, n: nat): (r: Source)
    requires Valid(s) && n <= |s.data| - s.pos
    ensures Valid(r) && Unread(r) == Unread(s)[n..]
  {
    s.(pos := s.pos + n)
  }

  /** `Read(b)` with `len(b) == k`: whatever is there, up to `k` bytes, or
      the end error when nothing is left. */
  function Read(s: Source, k: nat): (r: (Source, Bytes, Option<Error>))
    requires Valid(s)
    ensures Valid(r.0) && r.1 <= Unread(s) && |r.1| <= k && Unread(s) == r.1 + Unread(r.0)
    ensures r.2.Some? <==> Unread(s) == []
    ensures Unread(s) != [] ==> |r.1| == Min(k, |Unread(s)|)
  {
    if s.pos == |s.data| then (s, [], Some(s.end))
    else
      var n := Min(k, |s.data| - s.pos);
      assert Unread(s) == Unread(s)[..n] + Unread(s)[n..];
      (Skip(s, n), s.data[s.pos..s.pos + n], None)
  }

  /** Skipping `n` bytes of content: `Seek(n, io.SeekCurrent)` on a
      seekable source, `io.CopyN(io.Discard, r, n)` otherwise. A seek past
      the end is allowed and leaves nothing to read (the position is kept
      at the end: nothing seeks back from beyond it, because only a decoded
      header, which needs unread bytes, can set a negative count); a copy
      that runs out reports the end error. A negative `n` moves a seekable
      source back, unless that would pass its start, and copies nothing. */
  function Discard(s: Source, n: int): (r: (Source, Option<Error>))
    requires Valid(s)
    ensures Valid(r.0) && r.0.data == s.data && r.0.end == s.end && r.0.seekable == s.seekable
    ensures n >= 0 && r.1.None? ==> Unread(r.0) == Unread(s)[Min(n, |Unread(s)|)..]
    ensures n >= 0 && r.1.Some? ==> !s.seekable && n > |Unread(s)| && Unread(r.0) == [] && r.1 == Some(s.end)
    ensures n < 0 && s.seekable ==> (r.1.None? <==> s.pos + n >= 0)
    ensures n < 0 && r.1.None? ==> r.0.pos == if s.seekable then s.pos + n else s.pos
    ensures n < 0 && r.1.Some? ==> r.0 == s && r.1 == Some(Message("bytes.Reader.Seek: negative position"))
  {
    if n < 0 then
      if s.seekable && s.pos + n < 0 then (s, Some(Message("bytes.Reader.Seek: negative position")))
      else if s.seekable then (s.(pos := s.pos + n), None)
      else (s, None)
    else if s.seekable then (s.(pos := Min(s.pos + n, |s.data|)), None)
    else if n <= |s.data| - s.pos then (Skip(s, n), None)
    else (Skip(s, |s.data| - s.pos), Some(s.end))
  }
}

=== FILE: toc.dfy ===
/** BuildTableOfContents (pitch.go:14-58): reads an archive header by header
    and records, per entry name, where the entry's content lies in the
    stream: the header's encoded length past the running offset, then the
    content's size. */
module TableOfContents {
  import opened Base
  import opened Errors
  import opened HeaderCodec
  import opened HeaderSize
  import ByteSource
  import PlainReader
  import HeaderMap
  import CatReader

  /** HeaderItem (used at pitch.go:49-55): an entry's header and the byte
      range [start, end) of its content. */
  datatype HeaderItem = HeaderItem(name: Bytes, size: uint64, data: seq<Field>, start: int, end: int)

  type Toc = map<Bytes, HeaderItem>

  /** Every item sits under its own name and spans its size, as an int64. */
  predicate Consistent(toc: Toc)
  {
    forall k :: k in toc ==> toc[k].name == k && toc[k].end - toc[k].start == Int64Of(toc[k].size)
  }

  /** The bytes one entry adds to the offset (pitch.go:46-47): its encoded
      header and its size converted to an int64. */
  function Span(h: Header): int
  {
    EncodedHeaderSize(h) + Int64Of(h.size)
  }

  /** The item recorded for `h` when the entry starts at `offset`. */
  function Item(h: Header, offset: int): (it: HeaderItem)
  {
    HeaderItem(h.name, h.size, h.data, offset + EncodedHeaderSize(h), offset + Span(h))
  }

  /** The loop of buildTableOfContentsFromReader (pitch.go:33-57), from a
      table and an offset on. `io.EOF` ends it, and is returned itself when
      no entry was seen; any other error is wrapped and drops the table,
      and a panic of the decoder passes through. */
  function Build(r: CatReader.Reader, toc: Toc, offset: int): (res: Result<Toc>)
    requires CatReader.Internal(r) && CatReader.Valid(r)
    ensures res.Ok? ==> res.value != map[] && toc.Keys <= res.value.Keys
    decreases CatReader.Pending(r)
  {
    var n := CatReader.Next(r);
    if n.1.Err? then
      if IsEOF(n.1.error) then (if |toc| == 0 then Err(EOF) else Ok(toc))
      else Err(Wrap("error reading header", n.1.error))
    else
      var h := n.1.value;
      Build(n.0, toc[h.name := Item(h, offset)], offset + Span(h))
  }

  /** buildTableOfContentsFromReader (pitch.go:28-58): an empty table is
      never returned, every item spans its size under its own name, and an
      error is either a bare `io.EOF` or wrapped by the builder. */
  function FromReader(r: CatReader.Reader): (res: Result<Toc>)
    requires CatReader.Internal(r) && CatReader.Valid(r)
    ensures res.Ok? ==> res.value != map[] && Consistent(res.value)
    ensures res.Err? ==> res.error == EOF || res.error.Panicked? || (res.error.Wrapped? && res.error.context == "error reading header")
  {
    BuildIsTable(r, map[], 0);
    TableConsistent(CatReader.Drain(r).0, map[], 0);
    Build(r, map[], 0)
  }

  /** The values BuildTableOfContents accepts (pitch.go:15-23): a byte
      slice, a Reader of this package, another io.Reader, or anything
      else. */
  datatype Value =
    | ByteSlice(b: Bytes)
    | AReader(r: CatReader.Reader)
    | AnIoReader(src: ByteSource.Source)
    | Unsupported

  /** BuildTableOfContents (pitch.go:14-26): a byte slice is read through a
      bytes.Reader, an io.Reader through NewReader, a Reader as it is. */
  function BuildTableOfContents(v: Value): (res: Result<Toc>)
    requires v.AReader? ==> CatReader.Internal(v.r) && CatReader.Valid(v.r)
    requires v.AnIoReader? ==> ByteSource.Valid(v.src)
    ensures v.Unsupported? ==> res == Err(Message("expected []byte, Reader or io.Reader"))
    ensures res.Ok? ==> res.value != map[] && Consistent(res.value)
  {
    match v
    case ByteSlice(b) => FromReader(CatReader.Plain(PlainReader.NewReader(ByteSource.Source(b, 0, EOF, true)), None))
    case AReader(r) => FromReader(r)
    case AnIoReader(src) => FromReader(CatReader.Plain(PlainReader.NewReader(src), None))
    case Unsupported => Err(Message("expected []byte, Reader or io.Reader"))
  }

  // ------------------------------------------------- the table as a fold

  /** The table the headers `hs` produce, one after the other, from a table
      and an offset on. */
  function Table(hs: seq<Header>, toc: Toc, offset: int): (t: Toc)
    ensures toc.Keys <= t.Keys
    decreases |hs|
  {
    if hs == [] then toc
    else
      Table(hs[1..], toc[hs[0].name := Item(hs[0], offset)], offset + Span(hs[0]))
  }

  /** What the loop returns, given the headers Next yields and the error
      that stops it. */
  function Outcome(d: (seq<Header>, Error), toc: Toc, offset: int): Result<Toc>
  {
    if !IsEOF(d.1) then Err(Wrap("error reading header", d.1))
    else if d.0 == [] && toc == map[] then Err(EOF)
    else Ok(Table(d.0, toc, offset))
  }

  /** The loop is the fold of Table over the headers repeated Next calls
      yield: an empty archive is `io.EOF`, a broken one the wrapped error,
      and anything else the table of all its headers. */
  lemma {:induction false} BuildIsTable(r: CatReader.Reader, toc: Toc, offset: int)
    requires CatReader.Internal(r) && CatReader.Valid(r)
    ensures Build(r, toc, offset) == Outcome(CatReader.Drain(r), toc, offset)
    decreases CatReader.Pending(r), 1
  {
    if CatReader.Next(r).1.Err? {
      BuildStops(r, toc, offset);
    } else {
      BuildGoesOn(r, toc, offset);
    }
  }

  lemma BuildStops(r: CatReader.Reader, toc: Toc, offset: int)
    requires CatReader.Internal(r) && CatReader.Valid(r) && CatReader.Next(r).1.Err?
    ensures Build(r, toc, offset) == Outcome(CatReader.Drain(r), toc, offset)
  {
    var e := CatReader.Next(r).1.error;
    assert CatReader.Drain(r) == ([], e) by {
      CatReader.DrainStep(r);
    }
    BuildStep(r, toc, offset);
    hide Build, CatReader.Drain, CatReader.Next, Table;
    assert |toc| == 0 <==> toc == map[];
  }

  lemma {:induction false} BuildGoesOn(r: CatReader.Reader, toc: Toc, offset: int)
    requires CatReader.Internal(r) && CatReader.Valid(r) && CatReader.Next(r).1.Ok?
    ensures Build(r, toc, offset) == Outcome(CatReader.Drain(r), toc, offset)
    decreases CatReader.Pending(r), 0
  {
    hide CatReader.Next, CatReader.Valid, CatReader.Pending, EncodedHeaderSize, Span, Item;
    hide Build, CatReader.Drain, Outcome, Table;
    var n := CatReader.Next(r);
    var h := n.1.value;
    var toc' := toc[h.name := Item(h, offset)];
    var d' := CatReader.Drain(n.0);
    assert CatReader.Drain(r) == ([h] + d'.0, d'.1) by {
      CatReader.DrainStep(r);
    }
    BuildStepOk(r, toc, offset, n.0, h);
    BuildIsTable(n.0, toc', offset + Span(h));
    OutcomeStep(h, d', toc, offset);
  }

  /** One header more in front: the fold records it first. */
  lemma OutcomeStep(h: Header, d: (seq<Header>, Error), toc: Toc, offset: int)
    ensures Outcome(([h] + d.0, d.1), toc, offset) == Outcome(d, toc[h.name := Item(h, offset)], offset + Span(h))
  {
    var toc' := toc[h.name := Item(h, offset)];
    assert Table([h] + d.0, toc, offset) == Table(d.0, toc', offset + Span(h)) by {
      assert ([h] + d.0)[1..] == d.0;
    }
    assert toc' != map[] by {
      assert h.name in toc';
    }
  }

  /** One turn of the loop. */
  lemma BuildStep(r: CatReader.Reader, toc: Toc, offset: int)
    requires CatReader.Internal(r) && CatReader.Valid(r)
    ensures var n := CatReader.Next(r);
      n.1.Err? && IsEOF(n.1.error) ==> Build(r, toc, offset) == if |toc| == 0 then Err(EOF) else Ok(toc)
    ensures var n := CatReader.Next(r);
      n.1.Err? && !IsEOF(n.1.error) ==> Build(r, toc, offset) == Err(Wrap("error reading header", n.1.error))
    ensures var n := CatReader.Next(r);
      n.1.Ok? ==> Build(r, toc, offset) == Build(n.0, toc[n.1.value.name := Item(n.1.value, offset)], offset + Span(n.1.value))
  {
    hide EncodedHeaderSize, Span, Item, CatReader.Next, CatReader.Valid, CatReader.Pending;
  }

  lemma BuildStepOk(r: CatReader.Reader, toc: Toc, offset: int, r': CatReader.Reader, h: Header)
    requires CatReader.Internal(r) && CatReader.Valid(r) && CatReader.Next(r) == (r', Ok(h))
    ensures CatReader.Internal(r') && CatReader.Valid(r')
    ensures Build(r, toc, offset) == Build(r', toc[h.name := Item(h, offset)], offset + Span(h))
  {
    hide CatReader.Next, CatReader.Valid, CatReader.Pending, EncodedHeaderSize, Span, Item;
  }

  /** Every item the fold adds spans its size under its own name, and a
      header always leaves an item. */
  lemma {:induction false} TableConsistent(hs: seq<Header>, toc: Toc, offset: int)
    requires Consistent(toc)
    ensures Consistent(Table(hs, toc, offset))
    ensures hs != [] ==> Table(hs, toc, offset) != map[]
    decreases |hs|
  {
    if hs != [] {
      assert hs[0].name in toc[hs[0].name := Item(hs[0], offset)];
      var toc' := toc[hs[0].name := Item(hs[0], offset)];
      assert Consistent(toc');
      TableConsistent(hs[1..], toc', offset + Span(hs[0]));
    }
  }

  /** Where the `i`-th entry of `hs` starts: the offset plus the spans of
      the entries before it. */
  function At(hs: seq<Header>, offset: int, i: nat): int
    requires i <= |hs|
    decreases i
  {
    if i == 0 then offset else At(hs[1..], offset + Span(hs[0]), i - 1)
  }

  /** An entry whose name no later header repeats keeps its item: later
      entries leave it alone. */
  lemma {:induction false} TableKeeps(hs: seq<Header>, toc: Toc, offset: int, n: Bytes)
    requires n in toc && forall j :: 0 <= j < |hs| ==> hs[j].name != n
    ensures Table(hs, toc, offset)[n] == toc[n]
    decreases |hs|
  {
    if hs != [] {
      TableKeeps(hs[1..], toc[hs[0].name := Item(hs[0], offset)], offset + Span(hs[0]), n);
    }
  }

  /** The last entry of a name wins: its item is the one in the table, at
      the offset of that entry. */
  lemma {:induction false} LastWins(hs: seq<Header>, toc: Toc, offset: int, i: nat)
    requires i < |hs|
    requires forall j :: i < j < |hs| ==> hs[j].name != hs[i].name
    ensures hs[i].name in Table(hs, toc, offset)
    ensures Table(hs, toc, offset)[hs[i].name] == Item(hs[i], At(hs, offset, i))
    decreases i
  {
    var toc' := toc[hs[0].name := Item(hs[0], offset)];
    if i == 0 {
      TableKeeps(hs[1..], toc', offset + Span(hs[0]), hs[0].name);
    } else {
      LastWins(hs[1..], toc', offset + Span(hs[0]), i - 1);
    }
  }

  // ------------------------------------------------- archives, end to end

  /** One entry of an archive: its header and its content. */
  datatype Entry = Entry(h: Header, content: Bytes)

  /** An entry the reader gives back as it was written: a non-empty name,
      keys that are distinct and non-empty, each with at least one value,
      and exactly `size` bytes of content, `size` fitting an int64. */
  predicate WellFormedEntry(e: Entry)
  {
    && Encodable(e.h) && ReadableName(e.h.name)
    && HeaderMap.Decodable(e.h.data) && HeaderMap.AllValued(e.h.data)
    && |e.content| == e.h.size && e.h.size < INT64_LIMIT
  }

  predicate WellFormed(es: seq<Entry>)
  {
    forall i :: 0 <= i < |es| ==> WellFormedEntry(es[i])
  }

  predicate DistinctNames(es: seq<Entry>)
  {
    forall i, j :: 0 <= i < j < |es| ==> es[i].h.name != es[j].h.name
  }

  /** One entry's bytes: its encoded header, then its content. */
  function Record(e: Entry): (b: Bytes)
    requires WellFormedEntry(e)
  {
    EncodeHeader(e.h) + e.content
  }

  /** The archive's bytes: the entries' records, one after the other. */
  function Archive(es: seq<Entry>): Bytes
    requires WellFormed(es)
    decreases |es|
  {
    if es == [] then [] else Record(es[0]) + Archive(es[1..])
  }

  function Heads(es: seq<Entry>): (hs: seq<Header>)
    ensures |hs| == |es| && forall i :: 0 <= i < |es| ==> hs[i] == es[i].h
    decreases |es|
  {
    if es == [] then [] else [es[0].h] + Heads(es[1..])
  }

  /** A reader within an entry of an archive, followed by further entries,
      yields the further entries' headers and then the source's end error. */
  lemma {:induction false} DrainArchive(p: PlainReader.Reader, ce: Option<Error>, c: Bytes, es: seq<Entry>)
    requires WellFormed(es) && PlainReader.Within(p, c, Archive(es))
    ensures CatReader.Valid(CatReader.Plain(p, ce))
    ensures CatReader.Drain(CatReader.Plain(p, ce)) == (Heads(es), PlainReader.EndError(p.src.end))
    decreases |es|
  {
    var r := CatReader.Plain(p, ce);
    assert CatReader.Valid(r);
    if es == [] {
      PlainReader.NextAtEnd(p, c);
      CatReader.DrainStep(r);
    } else {
      var e := es[0];
      assert WellFormedEntry(e);
      assert Archive(es) == EncodeHeader(e.h) + e.content + Archive(es[1..]);
      PlainReader.NextWithin(p, c, e.h, e.content, Archive(es[1..]));
      HeaderMap.ValuedAll(e.h.data);
      var p' := PlainReader.Next(p).0;
      DrainArchive(p', ce, e.content, es[1..]);
      assert Heads(es) == [e.h] + Heads(es[1..]);
      CatReader.DrainStep(r);
    }
  }

  lemma {:induction false} ArchiveAppend(a: seq<Entry>, b: seq<Entry>)
    requires WellFormed(a) && WellFormed(b)
    ensures WellFormed(a + b) && Archive(a + b) == Archive(a) + Archive(b)
    decreases |a|
  {
    hide Record, WellFormedEntry;
    if a != [] {
      assert (a + b)[0] == a[0] && (a + b)[1..] == a[1..] + b;
      ArchiveAppend(a[1..], b);
    } else {
      assert a + b == b;
    }
  }

  /** An entry with a well-formed header occupies exactly its encoded
      header and its content in the offsets. */
  lemma SpanExact(e: Entry)
    requires WellFormedEntry(e)
    ensures Span(e.h) == |EncodeHeader(e.h)| + |e.content| == |Record(e)|
    ensures Item(e.h, 0).start == |EncodeHeader(e.h)|
  {
    HeaderSizeExact(e.h);
  }

  lemma AtCons(hs: seq<Header>, offset: int, i: nat)
    requires 0 < i <= |hs|
    ensures At(hs, offset, i) == At(hs[1..], offset + Span(hs[0]), i - 1)
  {
  }

  lemma HeadsCons(es: seq<Entry>)
    requires es != []
    ensures Heads(es)[0] == es[0].h && Heads(es)[1..] == Heads(es[1..])
  {
  }

  lemma FirstSpan(es: seq<Entry>)
    requires WellFormed(es) && es != []
    ensures WellFormed(es[1..]) && Span(es[0].h) == |Record(es[0])|
  {
    assert WellFormedEntry(es[0]);
    SpanExact(es[0]);
  }

  /** One entry further, the archive before the `i`-th entry loses the
      first entry's record. */
  lemma PrefixStep(es: seq<Entry>, i: nat)
    requires WellFormed(es) && 0 < i <= |es|
    ensures |Archive(es[..i])| == |Record(es[0])| + |Archive(es[1..][..i - 1])|
  {
    var e := es[0];
    assert WellFormed(es[..i]) && WellFormed(es[1..][..i - 1]);
    hide Record, WellFormedEntry, EncodeHeader, Span, Item, Table, WellFormed, At, Heads;
    assert es[..i][0] == e && es[..i][1..] == es[1..][..i - 1];
  }

  lemma AtStart(es: seq<Entry>, offset: int)
    ensures At(Heads(es), offset, 0) == offset + |Archive(es[..0])|
  {
    assert es[..0] == [];
  }

  /** The `i`-th entry starts where the archive of the entries before it
      ends. */
  lemma {:induction false} AtIsPrefix(es: seq<Entry>, offset: int, i: nat)
    requires WellFormed(es) && i <= |es|
    ensures At(Heads(es), offset, i) == offset + |Archive(es[..i])|
    decreases i
  {
    hide Record, WellFormedEntry, EncodeHeader, Span, Item, Table, At, Heads, Archive;
    if i > 0 {
      AtCons(Heads(es), offset, i);
      HeadsCons(es);
      FirstSpan(es);
      PrefixStep(es, i);
      AtIsPrefix(es[1..], offset + Span(es[0].h), i - 1);
    } else {
      AtStart(es, offset);
    }
  }

  /** Where the `i`-th entry's content starts in the archive. */
  function ContentStart(es: seq<Entry>, i: nat): nat
    requires WellFormed(es) && i < |es|
  {
    |Archive(es[..i])| + |EncodeHeader(es[i].h)|
  }

  lemma ArchiveSplit(es: seq<Entry>, i: nat)
    requires WellFormed(es) && i <= |es|
    ensures Archive(es) == Archive(es[..i]) + Archive(es[i..])
  {
    hide Record, WellFormedEntry;
    assert es == es[..i] + es[i..];
    ArchiveAppend(es[..i], es[i..]);
  }

  lemma ArchiveCons(es: seq<Entry>)
    requires WellFormed(es) && es != []
    ensures Encodable(es[0].h)
    ensures Archive(es) == EncodeHeader(es[0].h) + es[0].content + Archive(es[1..])
  {
    assert WellFormedEntry(es[0]);
  }

  /** The archive around its `i`-th entry. */
  lemma ArchiveAround(es: seq<Entry>, i: nat)
    requires WellFormed(es) && i < |es|
    ensures Archive(es) == Archive(es[..i]) + EncodeHeader(es[i].h) + es[i].content + Archive(es[i + 1..])
  {
    hide Archive, EncodeHeader, Record, WellFormedEntry;
    var e := es[i];
    assert es[i..][0] == e && es[i..][1..] == es[i + 1..];
    ArchiveSplit(es, i);
    ArchiveCons(es[i..]);
    var pre, hd, tail := Archive(es[..i]), EncodeHeader(e.h), Archive(es[i + 1..]);
    assert pre + (hd + e.content + tail) == pre + hd + e.content + tail;
  }

  /** The content of the `i`-th entry sits right after its header. */
  lemma ContentAt(es: seq<Entry>, i: nat)
    requires WellFormed(es) && i < |es|
    ensures ContentStart(es, i) + |es[i].content| <= |Archive(es)|
    ensures Archive(es)[ContentStart(es, i)..ContentStart(es, i) + |es[i].content|] == es[i].content
  {
    ArchiveAround(es, i);
    var pre := Archive(es[..i]) + EncodeHeader(es[i].h);
    assert ContentStart(es, i) == |pre|;
    hide Archive, EncodeHeader, Record, WellFormedEntry, WellFormed, ContentStart;
    Middle(pre, es[i].content, Archive(es[i + 1..]));
  }

  lemma Middle(x: Bytes, c: Bytes, y: Bytes)
    ensures (x + c + y)[|x|..|x| + |c|] == c
  {
  }

  /** The item the `i`-th entry gets covers exactly its content. */
  lemma ItemAt(es: seq<Entry>, i: nat)
    requires WellFormed(es) && i < |es|
    ensures Item(es[i].h, At(Heads(es), 0, i))
      == HeaderItem(es[i].h.name, es[i].h.size, es[i].h.data, ContentStart(es, i), ContentStart(es, i) + |es[i].content|)
  {
    AtIsPrefix(es, 0, i);
    SpanExact(es[i]);
  }

  /** For an archive with distinct names, the table of its headers records
      each entry under its name, with the range where its content sits. */
  lemma TableLocates(es: seq<Entry>, i: nat)
    requires WellFormed(es) && DistinctNames(es) && i < |es|
    ensures es[i].h.name in Table(Heads(es), map[], 0)
    ensures Table(Heads(es), map[], 0)[es[i].h.name]
      == HeaderItem(es[i].h.name, es[i].h.size, es[i].h.data, ContentStart(es, i), ContentStart(es, i) + |es[i].content|)
  {
    var hs := Heads(es);
    assert forall j :: i < j < |hs| ==> hs[j].name != hs[i].name;
    ItemAt(es, i);
    hide Item, At, ContentStart, WellFormed;
    LastWins(hs, map[], 0, i);
  }

  /** A byte slice holding an archive of at least one entry: the builder
      returns the table of all the archive's headers. */
  lemma ByteSliceTable(es: seq<Entry>)
    requires WellFormed(es) && es != []
    ensures BuildTableOfContents(ByteSlice(Archive(es))) == Ok(Table(Heads(es), map[], 0))
  {
    var a := Archive(es);
    var p := PlainReader.NewReader(ByteSource.Source(a, 0, EOF, true));
    var r := CatReader.Plain(p, None);
    assert a == [] + a;
    DrainArchive(p, None, [], es);
    assert BuildTableOfContents(ByteSlice(a)) == FromReader(r) == Build(r, map[], 0);
    BuildIsTable(r, map[], 0);
  }

  /** A byte slice holding an archive with distinct names: every entry is
      in the table, under a range that holds exactly its content. */
  lemma ByteSliceLocates(es: seq<Entry>, i: nat)
    requires WellFormed(es) && DistinctNames(es) && i < |es|
    ensures BuildTableOfContents(ByteSlice(Archive(es))).Ok?
    ensures es[i].h.name in BuildTableOfContents(ByteSlice(Archive(es))).value
    ensures BuildTableOfContents(ByteSlice(Archive(es))).value[es[i].h.name]
      == HeaderItem(es[i].h.name, es[i].h.size, es[i].h.data, ContentStart(es, i), ContentStart(es, i) + |es[i].content|)
    ensures ContentStart(es, i) + |es[i].content| <= |Archive(es)|
    ensures Archive(es)[ContentStart(es, i)..ContentStart(es, i) + |es[i].content|] == es[i].content
  {
    ByteSliceTable(es);
    TableLocates(es, i);
    ContentAt(es, i);
  }

  /** An empty input ends at once: the table is absent and the error is a
      bare `io.EOF`, whatever kind of value carried it. */
  lemma EmptyIsEOF(v: Value)
    requires (v.ByteSlice? && v.b == []) || (v.AnIoReader? && ByteSource.Valid(v.src) && ByteSource.Unread(v.src) == [] && v.src.end == EOF)
    ensures BuildTableOfContents(v) == Err(EOF)
  {
    var src := if v.ByteSlice? then ByteSource.Source([], 0, EOF, true) else v.src;
    var p := PlainReader.NewReader(src);
    var r := CatReader.Plain(p, None);
    assert PlainReader.Within(p, [], Archive([]));
    DrainArchive(p, None, [], []);
    assert BuildTableOfContents(v) == FromReader(r) == Build(r, map[], 0);
    BuildIsTable(r, map[], 0);
  }

  /** A stream that breaks where a header would start: no table, and the
      stream's error wrapped by the builder, the reader and the decoder. */
  lemma BrokenIsWrapped(src: ByteSource.Source, es: seq<Entry>)
    requires ByteSource.Valid(src) && WellFormed(es) && ByteSource.Unread(src) == Archive(es) && !IsEOF(src.end)
    ensures BuildTableOfContents(AnIoReader(src)) == Err(Wrapped("error reading header", PlainReader.EndError(src.end)))
  {
    var p := PlainReader.NewReader(src);
    var r := CatReader.Plain(p, None);
    assert Archive(es) == [] + Archive(es);
    DrainArchive(p, None, [], es);
    assert BuildTableOfContents(AnIoReader(src)) == FromReader(r) == Build(r, map[], 0);
    BuildIsTable(r, map[], 0);
  }

  // ---------------------------------------------- several archives, Cat'd

  /** A fresh reader of this package over an archive, whose source ends
      cleanly. */
  predicate Serves(r: CatReader.Reader, es: seq<Entry>)
  {
    && WellFormed(es) && r.Plain? && r.p.n == 0 && ByteSource.Valid(r.p.src)
    && PlainReader.Pending(r.p) == Archive(es) && r.p.src.end == EOF
  }

  predicate AllServe(rs: seq<CatReader.Reader>, parts: seq<seq<Entry>>)
  {
    |rs| == |parts| && forall j :: 0 <= j < |rs| ==> Serves(rs[j], parts[j])
  }

  function Flat(parts: seq<seq<Entry>>): seq<Entry>
    decreases |parts|
  {
    if parts == [] then [] else parts[0] + Flat(parts[1..])
  }

  /** The concatenation of the readers' unread input. */
  function Inputs(rs: seq<CatReader.Reader>): Bytes
    requires forall j :: 0 <= j < |rs| ==> rs[j].Plain? && ByteSource.Valid(rs[j].p.src)
    decreases |rs|
  {
    if rs == [] then [] else PlainReader.Pending(rs[0].p) + Inputs(rs[1..])
  }

  /** Readers that each serve an archive drain to its headers and end with
      `io.EOF`, and their inputs together are the archive of all entries. */
  lemma {:induction false} ServedHeaders(rs: seq<CatReader.Reader>, parts: seq<seq<Entry>>)
    requires AllServe(rs, parts)
    ensures CatReader.Drainable(rs) && CatReader.AllValid(rs)
    ensures CatReader.Headers(rs) == Heads(Flat(parts))
    ensures WellFormed(Flat(parts)) && Inputs(rs) == Archive(Flat(parts))
    decreases |rs|
  {
    if rs != [] {
      var r := rs[0];
      assert Serves(r, parts[0]);
      assert Archive(parts[0]) == [] + Archive(parts[0]);
      DrainArchive(r.p, r.closeErr, [], parts[0]);
      assert AllServe(rs[1..], parts[1..]);
      ServedHeaders(rs[1..], parts[1..]);
      ArchiveAppend(parts[0], Flat(parts[1..]));
      HeadsAppend(parts[0], Flat(parts[1..]));
    }
  }

  lemma HeadsAppend(a: seq<Entry>, b: seq<Entry>)
    ensures Heads(a + b) == Heads(a) + Heads(b)
  {
    assert Heads(a + b) == Heads(a) + Heads(b);
  }

  /** Several archives read through Cat: the builder returns the table of
      all their headers, in order, and the readers' inputs together form the
      archive of all their entries. */
  lemma CatTable(rs: seq<CatReader.Reader>, parts: seq<seq<Entry>>)
    requires |rs| >= 1 && AllServe(rs, parts) && Flat(parts) != []
    ensures CatReader.Internal(CatReader.MakeCat(rs)) && CatReader.Valid(CatReader.MakeCat(rs))
    ensures WellFormed(Flat(parts)) && Inputs(rs) == Archive(Flat(parts))
    ensures BuildTableOfContents(AReader(CatReader.MakeCat(rs))) == Ok(Table(Heads(Flat(parts)), map[], 0))
  {
    ServedHeaders(rs, parts);
    CatReader.CatHeaders(rs);
    var c := CatReader.MakeCat(rs);
    assert CatReader.Valid(c);
    assert BuildTableOfContents(AReader(c)) == FromReader(c) == Build(c, map[], 0);
    BuildIsTable(c, map[], 0);
  }

  /** Through Cat the offsets run on across the readers: each entry's range
      indexes the concatenation of their inputs and holds exactly its
      content. */
  lemma CatLocates(rs: seq<CatReader.Reader>, parts: seq<seq<Entry>>, i: nat)
    requires |rs| >= 1 && AllServe(rs, parts)
    requires WellFormed(Flat(parts)) && DistinctNames(Flat(parts)) && i < |Flat(parts)|
    ensures CatReader.Internal(CatReader.MakeCat(rs)) && CatReader.Valid(CatReader.MakeCat(rs))
    ensures BuildTableOfContents(AReader(CatReader.MakeCat(rs))).Ok?
    ensures Flat(parts)[i].h.name in BuildTableOfContents(AReader(CatReader.MakeCat(rs))).value
    ensures BuildTableOfContents(AReader(CatReader.MakeCat(rs))).value[Flat(parts)[i].h.name]
      == HeaderItem(Flat(parts)[i].h.name, Flat(parts)[i].h.size, Flat(parts)[i].h.data,
                    ContentStart(Flat(parts), i), ContentStart(Flat(parts), i) + |Flat(parts)[i].content|)
    ensures Inputs(rs) == Archive(Flat(parts))
  {
    CatTable(rs, parts);
    TableLocates(Flat(parts), i);
  }
}

=== FILE: tocwriter.dfy ===
/** TOCWriter (tocWriter.go): the Writer of writer.go that also counts
    the bytes it has emitted and records, for every entry, the byte range
    its content occupies in the output. */
module TocWriter {
  import opened Base
  import opened Errors
  import opened Sink
  import opened UntypedSize
  import ArchiveWriter

  /** ByteRange (tocWriter.go:9-12). */
  datatype ByteRange = ByteRange(start: int, end: int)

  /** TOCWriter (tocWriter.go:16-21). Offsets are Go `int64`s; they are
      unbounded here. */
  datatype TocWriter = TocWriter(remaining: nat, open: bool, sink: Sink, toc: map<Bytes, ByteRange>, offset: int)

  /** NewTOCWriter (tocWriter.go:23-28); `None` is a nil `io.Writer`. */
  function NewTocWriter(w: Option<Sink>): (r: TocWriter)
    ensures r.remaining == 0 && r.offset == 0 && r.toc == map[] && (r.open <==> w.Some?)
  {
    if w.None? then TocWriter(0, false, Sink([], []), map[], 0) else TocWriter(0, true, w.value, map[], 0)
  }

  /** pad (tocWriter.go:117-126): the owed zeros go out and are counted in
      the offset whether or not the sink took them. */
  function Pad(w: TocWriter): (r: (TocWriter, Option<Error>))
    ensures r.0 == w.(sink := r.0.sink, offset := w.offset + w.remaining)
    ensures Healthy(w.sink) ==> r == (w.(sink := Sink(w.sink.written + Zeros(w.remaining), []), offset := w.offset + w.remaining), None)
  {
    var p := Write(w.sink, Zeros(w.remaining));
    (w.(sink := p.sink, offset := w.offset + w.remaining), p.err)
  }

  /** writeSize (tocWriter.go:128-162): sizes below 1 are refused; the
      bytes the sink took are counted only when it did not fail. */
  function WriteSize(w: TocWriter, size: int): (r: (TocWriter, Option<Error>))
    ensures size < 1 ==> r == (w, Some(InvalidSize))
    ensures r.0 == w.(sink := r.0.sink, offset := r.0.offset)
    ensures size >= 1 && Healthy(w.sink) ==>
      r == (w.(sink := Sink(w.sink.written + Untyped(size), []), offset := w.offset + SizeWriteSize(size)), None)
  {
    if size < 1 then (w, Some(InvalidSize))
    else
      var p := Write(w.sink, Untyped(size));
      if p.err.Some? then (w.(sink := p.sink), p.err)
      else (w.(sink := p.sink, offset := w.offset + p.n), None)
  }

  /** WriteHeader (tocWriter.go:30-64). There is no early check of the
      content length: the name's record is out before a bad length is
      refused. The table changes only when the whole header is out. */
  function WriteHeader(w: TocWriter, name: Bytes, contentLength: int64): (r: (TocWriter, Option<Error>))
    requires |name| < INT64_LIMIT
    ensures !w.open ==> r == (w, Some(Closed))
    ensures r.1.None? ==>
      && r.0.remaining == contentLength && r.0.open
      && r.0.toc == w.toc[name := ByteRange(r.0.offset, r.0.offset + contentLength)]
    ensures r.1.Some? ==> r.0.toc == w.toc && r.0.remaining == w.remaining && r.0.open == w.open
  {
    if !w.open then (w, Some(Closed))
    else
      var (w1, e1) := Pad(w);
      if e1.Some? then (w1, Some(Wrapped("error padding file", e1.value)))
      else
        var (w2, e2) := WriteSize(w1, |name|);
        if e2.Some? then (w2, e2)
        else
          var p := Write(w2.sink, name);
          if p.err.Some? then (w2.(sink := p.sink), p.err)
          else
            var w3 := w2.(sink := p.sink, offset := w2.offset + p.n);
            var (w4, e4) := WriteSize(w3, contentLength);
            if e4.Some? then (w4, e4)
            else
              (w4.(remaining := contentLength as nat,
                   toc := w4.toc[name := ByteRange(w4.offset, w4.offset + contentLength)]), None)
  }

  /** Write (tocWriter.go:66-101): Writer's Write, with the accepted bytes
      also added to the offset. A closed writer and a complete entry refuse
      the call and stay as they are. */
  function WriteContent(w: TocWriter, b: Bytes): (r: (TocWriter, ArchiveWriter.Outcome))
    ensures !w.open ==> r == (w, ArchiveWriter.Done(0, Some(Closed)))
    ensures w.open && w.remaining == 0 ==> r == (w, ArchiveWriter.Done(0, Some(WriteTooLong)))
    ensures r.1.Done? && r.1.n <= Min(|b|, w.remaining)
    ensures r.0.sink.written == w.sink.written + b[..r.1.n]
    ensures r.0.toc == w.toc && r.0.open == w.open
    ensures r.0.remaining + r.0.offset == w.remaining + w.offset
         || (r.0.remaining == w.remaining && r.0.offset == w.offset)
  {
    if !w.open then (w, ArchiveWriter.Done(0, Some(Closed)))
    else if w.remaining == 0 then (w, ArchiveWriter.Done(0, Some(WriteTooLong)))
    else
      var n := Min(|b|, w.remaining);
      var p := Write(w.sink, b[..n]);
      assert b[..n][..p.n] == b[..p.n];
      if p.err.Some? then (w.(sink := p.sink), ArchiveWriter.Done(p.n, p.err))
      else
        (w.(remaining := w.remaining - p.n, offset := w.offset + p.n, sink := p.sink),
         ArchiveWriter.Done(p.n, if |b| > w.remaining then Some(WriteTooLong) else None))
  }

  /** Close (tocWriter.go:103-115). A closed writer refuses; a failed pad
      keeps the writer open, with the offset already advanced. */
  function Close(w: TocWriter): (r: (TocWriter, Option<Error>))
    ensures !w.open ==> r == (w, Some(Closed))
    ensures w.open && Pad(w).1.Some? ==> r == (Pad(w).0, Some(Wrapped("error padding file", Pad(w).1.value)))
    ensures r.1.None? <==> w.open && Pad(w).1.None?
    ensures r.1.None? ==> r.0 == Pad(w).0.(open := false)
    ensures r.0.toc == w.toc
  {
    if !w.open then (w, Some(Closed))
    else
      var (w1, e1) := Pad(w);
      if e1.Some? then (w1, Some(Wrapped("error padding file", e1.value)))
      else (w1.(open := false), None)
  }

  /** TableOfContents (tocWriter.go:164-166). */
  function TableOfContents(w: TocWriter): map<Bytes, ByteRange>
  {
    w.toc
  }

  // --------------------------------------------------------------- proofs

  /** With a sink that accepts every byte, the offset counts exactly the
      bytes emitted since the writer was made: the output length less the
      offset never changes. */
  predicate Counted(w: TocWriter, base: int)
  {
    Healthy(w.sink) && |w.sink.written| == base + w.offset
  }

  lemma WriteHeaderCounts(w: TocWriter, base: int, name: Bytes, contentLength: int64)
    requires |name| < INT64_LIMIT && Counted(w, base)
    ensures Counted(WriteHeader(w, name, contentLength).0, base)
  {
  }

  lemma WriteContentCounts(w: TocWriter, base: int, b: Bytes)
    requires Counted(w, base)
    ensures Counted(WriteContent(w, b).0, base)
  {
  }

  lemma CloseCounts(w: TocWriter, base: int)
    requires Counted(w, base)
    ensures Counted(Close(w).0, base)
  {
  }

  /** A successful header records its content's range: it starts where the
      header ends in the output and spans the declared length. */
  lemma HeaderRange(w: TocWriter, base: int, name: Bytes, contentLength: int64)
    requires |name| < INT64_LIMIT && Counted(w, base)
    requires WriteHeader(w, name, contentLength).1.None?
    ensures var w' := WriteHeader(w, name, contentLength).0;
      && name in w'.toc
      && w'.toc[name].start == |w'.sink.written| - base
      && w'.toc[name].end - w'.toc[name].start == contentLength
  {
    WriteHeaderCounts(w, base, name, contentLength);
  }

  /** writeSize refuses sizes below 1, so an empty name or a content length
      below 1 fails the header; for a bad length the name's record has
      already gone out. */
  lemma NonPositiveRejected(w: TocWriter, name: Bytes, contentLength: int64)
    requires |name| < INT64_LIMIT && w.open && Healthy(w.sink)
    requires name == [] || contentLength < 1
    ensures var (w', err) := WriteHeader(w, name, contentLength);
      && err == Some(InvalidSize) && w'.toc == w.toc
      && w'.sink.written == w.sink.written + Zeros(w.remaining)
                            + (if name == [] then [] else Untyped(|name|) + name)
  {
    if name != [] {
      assert w.sink.written + Zeros(w.remaining) + Untyped(|name|) + name
          == w.sink.written + Zeros(w.remaining) + (Untyped(|name|) + name);
    } else {
      assert w.sink.written + Zeros(w.remaining) + [] == w.sink.written + Zeros(w.remaining);
    }
  }

  /** On an open writer over a sink that takes everything, a header goes
      out in full exactly when the name is non-empty and the content length
      is at least 1. It then emits the owed zeros, the name's length, the
      name and the content length, counts all of it in the offset, and
      records the range that starts right after it. */
  lemma WriteHeaderHealthy(w: TocWriter, name: Bytes, contentLength: int64)
    requires |name| < INT64_LIMIT && w.open && Healthy(w.sink)
    ensures WriteHeader(w, name, contentLength).1.None? <==> name != [] && contentLength >= 1
    ensures name != [] && contentLength >= 1 ==>
      var bytes := Zeros(w.remaining) + Untyped(|name|) + name + Untyped(contentLength as nat);
      var start := w.offset + |bytes|;
      WriteHeader(w, name, contentLength)
        == (TocWriter(contentLength as nat, true, Sink(w.sink.written + bytes, []),
                      w.toc[name := ByteRange(start, start + contentLength)], start), None)
  {
    if name != [] && contentLength >= 1 {
      var s := w.sink.written;
      assert s + Zeros(w.remaining) + Untyped(|name|) + name + Untyped(contentLength as nat)
          == s + (Zeros(w.remaining) + Untyped(|name|) + name + Untyped(contentLength as nat));
    }
  }

  /** A later header with the same name replaces the earlier range. */
  lemma LastWriterWins(w: TocWriter, name: Bytes, contentLength: int64)
    requires |name| < INT64_LIMIT && name in w.toc
    requires WriteHeader(w, name, contentLength).1.None?
    ensures var w' := WriteHeader(w, name, contentLength).0;
      w'.toc.Keys == w.toc.Keys && w'.toc[name] == ByteRange(w'.offset, w'.offset + contentLength)
  {
  }

  /** A closed writer refuses everything, emits nothing, and stays as it
      is; a successful Close leaves the writer closed. */
  lemma ClosedIsInert(w: TocWriter, name: Bytes, contentLength: int64, b: Bytes)
    requires |name| < INT64_LIMIT
    requires Close(w).1.None?
    ensures var c := Close(w).0;
      && !c.open
      && WriteHeader(c, name, contentLength) == (c, Some(Closed))
      && WriteContent(c, b) == (c, ArchiveWriter.Done(0, Some(Closed)))
      && Close(c) == (c, Some(Closed))
  {
  }

  /** With a sink that accepts everything and content still owed, Write
      passes on the first min(len(b), remaining) bytes, moves them from the
      remaining count to the offset, and reports ErrWriteTooLong exactly
      when it had to cut `b` short. */
  lemma WriteHealthy(w: TocWriter, b: Bytes)
    requires w.open && w.remaining > 0 && Healthy(w.sink)
    ensures var r := WriteContent(w, b);
      var n := Min(|b|, w.remaining);
      && r.0 == w.(remaining := w.remaining - n, offset := w.offset + n, sink := Sink(w.sink.written + b[..n], []))
      && r.1.n == n
      && (r.1.err == Some(WriteTooLong) <==> |b| > w.remaining)
      && (r.1.err.None? <==> |b| <= w.remaining)
  {
  }

  /** Once the entry's content is complete, Write emits nothing. */
  lemma WriteWhenComplete(w: TocWriter, b: Bytes)
    requires w.open && w.remaining == 0
    ensures WriteContent(w, b) == (w, ArchiveWriter.Done(0, Some(WriteTooLong)))
  {
  }

  /** A failing sink: Write returns the sink's count and error, and neither
      the remaining count nor the offset moves. */
  lemma WriteSinkFault(w: TocWriter, b: Bytes)
    requires w.open && w.remaining > 0 && w.sink.script != [] && w.sink.script[0].Some?
    ensures var r := WriteContent(w, b);
      var f := w.sink.script[0].value;
      && r.1 == ArchiveWriter.Done(Min(f.taken, Min(|b|, w.remaining)), Some(f.err))
      && r.0.remaining == w.remaining && r.0.offset == w.offset
  {
  }

  /** A run of Write calls, each on the writer the previous one left. */
  function WriteAll(w: TocWriter, bs: seq<Bytes>): (r: TocWriter)
    ensures r.open == w.open && r.toc == w.toc
    decreases |bs|
  {
    if bs == [] then w else WriteAll(WriteContent(w, bs[0]).0, bs[1..])
  }

  lemma {:induction false} WriteAllHealthy(w: TocWriter, bs: seq<Bytes>)
    requires w.open && Healthy(w.sink)
    ensures var k := Min(|ArchiveWriter.Flatten(bs)|, w.remaining);
      WriteAll(w, bs) == w.(remaining := w.remaining - k, offset := w.offset + k,
                            sink := Sink(w.sink.written + ArchiveWriter.Flatten(bs)[..k], []))
    decreases |bs|
  {
    if bs != [] {
      var c := ArchiveWriter.Flatten(bs);
      var w1 := WriteContent(w, bs[0]).0;
      var n := Min(|bs[0]|, w.remaining);
      WriteAllHealthy(w1, bs[1..]);
      if w.remaining > 0 {
        var rest := ArchiveWriter.Flatten(bs[1..]);
        var k1 := Min(|rest|, w1.remaining);
        assert c == bs[0] + rest;
        if n < |bs[0]| {
          assert w1.remaining == 0 && k1 == 0;
          assert c[..n] == bs[0][..n];
        } else {
          assert c[..n + k1] == bs[0] + rest[..k1];
        }
        assert w.sink.written + bs[0][..n] + rest[..k1] == w.sink.written + c[..n + k1];
      }
    }
  }

  /** Once an entry is completed by Close, the output between its recorded
      start and end is the bytes Write accepted for it, then zeros. */
  lemma EntryRegion(w: TocWriter, base: int, name: Bytes, contentLength: int64, bs: seq<Bytes>)
    requires |name| < INT64_LIMIT && Counted(w, base)
    requires WriteHeader(w, name, contentLength).1.None?
    ensures var (c, err) := Close(WriteAll(WriteHeader(w, name, contentLength).0, bs));
      var r := c.toc[name];
      && err.None? && name in c.toc
      && 0 <= base + r.start <= base + r.end == |c.sink.written|
      && c.sink.written[base + r.start..base + r.end] == ArchiveWriter.Fill(ArchiveWriter.Flatten(bs), contentLength as nat)
  {
    hide WriteHeader, Close, WriteAll, ArchiveWriter.Fill, ArchiveWriter.Flatten, Pad, WriteContent, Write;
    var w1 := WriteHeader(w, name, contentLength).0;
    WriteHeaderCounts(w, base, name, contentLength);
    EntryContent(w1, bs);
    var x := w1.sink.written;
    var f := ArchiveWriter.Fill(ArchiveWriter.Flatten(bs), contentLength as nat);
    assert (x + f)[|x|..|x| + |f|] == f;
  }

  /** Once an entry is completed by the next header, the output between
      its recorded start and end is the bytes Write accepted for it, then
      the zeros that header pads with first. */
  lemma EntryRegionNext(w: TocWriter, base: int, name: Bytes, contentLength: int64, bs: seq<Bytes>,
                        name2: Bytes, contentLength2: int64)
    requires |name| < INT64_LIMIT && |name2| < INT64_LIMIT && name2 != name && Counted(w, base)
    requires WriteHeader(w, name, contentLength).1.None?
    requires WriteHeader(WriteAll(WriteHeader(w, name, contentLength).0, bs), name2, contentLength2).1.None?
    ensures var (c, _) := WriteHeader(WriteAll(WriteHeader(w, name, contentLength).0, bs), name2, contentLength2);
      var r := c.toc[name];
      && name in c.toc
      && 0 <= base + r.start <= base + r.end <= |c.sink.written|
      && c.sink.written[base + r.start..base + r.end] == ArchiveWriter.Fill(ArchiveWriter.Flatten(bs), contentLength as nat)
  {
    hide WriteHeader, Close, WriteAll, ArchiveWriter.Fill, ArchiveWriter.Flatten, Pad, WriteContent, Write;
    var w1 := WriteHeader(w, name, contentLength).0;
    WriteHeaderCounts(w, base, name, contentLength);
    NextHeaderPads(w1, bs, name2, contentLength2);
    var x := w1.sink.written;
    var f := ArchiveWriter.Fill(ArchiveWriter.Flatten(bs), contentLength as nat);
    var c := WriteHeader(WriteAll(w1, bs), name2, contentLength2).0;
    assert c.sink.written[..|x| + |f|] == x + f;
    assert c.sink.written[|x|..|x| + |f|] == (x + f)[|x|..];
  }

  /** Writes, then the next header: the output grows by the accepted bytes,
      the padding and the header, and the table keeps every other name. */
  lemma NextHeaderPads(w: TocWriter, bs: seq<Bytes>, name2: Bytes, contentLength2: int64)
    requires |name2| < INT64_LIMIT && w.open && Healthy(w.sink)
    requires WriteHeader(WriteAll(w, bs), name2, contentLength2).1.None?
    ensures var c := WriteHeader(WriteAll(w, bs), name2, contentLength2).0;
      && (forall k :: k in w.toc && k != name2 ==> k in c.toc && c.toc[k] == w.toc[k])
      && |w.sink.written| + w.remaining <= |c.sink.written|
      && c.sink.written[..|w.sink.written| + w.remaining]
         == w.sink.written + ArchiveWriter.Fill(ArchiveWriter.Flatten(bs), w.remaining)
  {
    hide WriteHeader, WriteAll, Pad, WriteContent, Write, Close, ArchiveWriter.Fill;
    var f := ArchiveWriter.Flatten(bs);
    var k := Min(|f|, w.remaining);
    WrittenAfterWrites(w, bs);
    var w2 := WriteAll(w, bs);
    WriteHeaderHealthy(w2, name2, contentLength2);
    var c := WriteHeader(w2, name2, contentLength2).0;
    var hd := Zeros(w2.remaining) + Untyped(|name2|) + name2 + Untyped(contentLength2 as nat);
    assert c.sink.written == w2.sink.written + hd;
    FillIs(f, w.remaining);
    PadPrefix(w.sink.written, f[..k], hd, w.remaining - k);
  }

  lemma WrittenAfterWrites(w: TocWriter, bs: seq<Bytes>)
    requires w.open && Healthy(w.sink)
    ensures var k := Min(|ArchiveWriter.Flatten(bs)|, w.remaining);
      var w2 := WriteAll(w, bs);
      && w2.remaining == w.remaining - k && w2.toc == w.toc && w2.open && Healthy(w2.sink)
      && w2.sink.written == w.sink.written + ArchiveWriter.Flatten(bs)[..k]
  {
    WriteAllHealthy(w, bs);
  }

  /** The output after the accepted bytes `a` and a header `hd` that
      starts with `z` zeros: its prefix up to the zeros' end is `a` padded. */
  lemma PadPrefix(x: Bytes, a: Bytes, hd: Bytes, z: nat)
    requires |hd| >= z && hd[..z] == Zeros(z)
    ensures |x| + |a| + z <= |x + a + hd|
    ensures (x + a + hd)[..|x| + |a| + z] == x + (a + Zeros(z))
  {
    assert (x + a + hd)[..|x| + |a| + z] == x + a + hd[..z];
  }

  lemma FillIs(c: Bytes, cl: nat)
    ensures ArchiveWriter.Fill(c, cl) == c[..Min(|c|, cl)] + Zeros(cl - Min(|c|, cl))
  {
  }

  /** Writes, then Close: the output grows by the accepted bytes and the
      padding, and the table is left as it was. */
  lemma EntryContent(w: TocWriter, bs: seq<Bytes>)
    requires w.open && Healthy(w.sink)
    ensures var (c, err) := Close(WriteAll(w, bs));
      && err.None? && c.toc == w.toc
      && c.sink.written == w.sink.written + ArchiveWriter.Fill(ArchiveWriter.Flatten(bs), w.remaining)
  {
    WriteAllHealthy(w, bs);
    var k := Min(|ArchiveWriter.Flatten(bs)|, w.remaining);
    assert w.sink.written + ArchiveWriter.Flatten(bs)[..k] + Zeros(w.remaining - k)
        == w.sink.written + ArchiveWriter.Fill(ArchiveWriter.Flatten(bs), w.remaining);
  }

  /** A run of calls on a TOC writer. */
  datatype Call = Header(name: Bytes, contentLength: int64) | Content(b: Bytes) | Finish

  predicate NamesFit(calls: seq<Call>)
  {
    forall i :: 0 <= i < |calls| ==> (calls[i].Header? ==> |calls[i].name| < INT64_LIMIT)
  }

  function Run(w: TocWriter, calls: seq<Call>): (r: TocWriter)
    requires NamesFit(calls)
    decreases |calls|
  {
    if calls == [] then w
    else
      var w' := match calls[0]
        case Header(name, cl) => WriteHeader(w, name, cl).0
        case Content(b) => WriteContent(w, b).0
        case Finish => Close(w).0;
      Run(w', calls[1..])
  }

  /** The names of the headers that went out in full. */
  function Named(w: TocWriter, calls: seq<Call>): (r: set<Bytes>)
    requires NamesFit(calls)
    decreases |calls|
  {
    if calls == [] then {}
    else
      var w' := match calls[0]
        case Header(name, cl) => WriteHeader(w, name, cl).0
        case Content(b) => WriteContent(w, b).0
        case Finish => Close(w).0;
      (if calls[0].Header? && WriteHeader(w, calls[0].name, calls[0].contentLength).1.None? then {calls[0].name} else {})
      + Named(w', calls[1..])
  }

  /** The table holds exactly the names of the headers written in full,
      whatever else happened in between. */
  lemma {:induction false} TableHoldsWrittenNames(w: TocWriter, calls: seq<Call>)
    requires NamesFit(calls)
    ensures TableOfContents(Run(w, calls)).Keys == TableOfContents(w).Keys + Named(w, calls)
    decreases |calls|
  {
    if calls != [] {
      var w' := match calls[0]
        case Header(name, cl) => WriteHeader(w, name, cl).0
        case Content(b) => WriteContent(w, b).0
        case Finish => Close(w).0;
      TableHoldsWrittenNames(w', calls[1..]);
    }
  }
}

=== FILE: untyped.dfy ===
/** The size prefix writer.go and tocWriter.go emit (`writeSize`): unlike
    header.go's VarSize it has no type tag. It is the 7-bit groups of the
    size, most significant first, each shifted left by one, with bit 0 set
    on the last byte only. */
module UntypedSize {
  import opened Base
  import opened Errors
  import opened VarSize

  /** `sizeWriteSize` (writer.go:156-158): floor(log2(size)) / 7 + 1 in
      float arithmetic, which for size >= 1 is the number of 7-bit groups
      of the size, ceil(bitlen / 7). */
  function SizeWriteSize(size: nat): (n: nat)
    requires size >= 1
    ensures n >= 1 && 7 * (n - 1) < BitLen(size) <= 7 * n
  {
    BitLenBounds(size);
    (BitLen(size) - 1) / 7 + 1
  }

  /** Group `j` of `x`, counting from the least significant. */
  function Septet(x: nat, j: nat): (g: nat)
    ensures g < 128
  {
    (x / Pow2(7 * j)) % 128
  }

  /** The `n` groups of `x` below group `n`, most significant first, each
      shifted left by one, the last with bit 0 set when `last` holds. */
  function Groups(x: nat, n: nat, last: bool): (r: Bytes)
    ensures |r| == n
    decreases n
  {
    if n == 0 then []
    else if n == 1 then [Septet(x, 0) * 2 + (if last then 1 else 0)]
    else [Septet(x, n - 1) * 2] + Groups(x, n - 1, last)
  }

  /** The bytes `writeSize(size)` writes for `size >= 1`. */
  function Untyped(size: nat): (r: Bytes)
    requires size >= 1
    ensures |r| == SizeWriteSize(size)
  {
    Groups(size, SizeWriteSize(size), true)
  }

  /** The fill loop of writeSize (writer.go:137-151), from the last byte
      back to the first, taking the low 7 bits of the size each time. */
  method WriteSizeLoop(size: nat) returns (buf: Bytes)
    requires size >= 1
    ensures buf == Untyped(size)
  {
    var n := SizeWriteSize(size);
    buf := seq(n, _ => 0);
    var rest := size;
    var idx := n - 1;
    while idx >= 0
      invariant -1 <= idx <= n - 1 && |buf| == n
      invariant rest == size / Pow2(7 * (n - 1 - idx))
      invariant forall i :: idx < i < n ==> buf[i] == Septet(size, n - 1 - i) * 2 + (if i == n - 1 then 1 else 0)
      decreases idx + 1
    {
      var b := rest % 128;
      ShiftSeptet(size, n - 1 - idx);
      rest := rest / 128;
      b := b * 2;
      if idx == n - 1 {
        b := b + 1;
      }
      buf := buf[idx := b];
      idx := idx - 1;
    }
    GroupsLayout(size, n, true);
  }

  /** Each further shift by 7 exposes the next group. */
  lemma ShiftSeptet(x: nat, j: nat)
    ensures (x / Pow2(7 * j)) % 128 == Septet(x, j)
    ensures x / Pow2(7 * j) / 128 == x / Pow2(7 * (j + 1))
  {
    Pow2Step7(7 * j);
    DivDiv(x, Pow2(7 * j), 128);
  }

  lemma {:induction false} GroupsLayout(x: nat, n: nat, last: bool)
    ensures forall i :: 0 <= i < n ==>
      Groups(x, n, last)[i] == Septet(x, n - 1 - i) * 2 + (if i == n - 1 && last then 1 else 0)
    decreases n
  {
    if n > 1 {
      GroupsLayout(x, n - 1, last);
    }
  }

  // ---------------------------------------------------------- reading back

  /** Reads an untyped size from the front of `s`: groups accumulate most
      significant first until a byte with bit 0 set. Yields the value and
      the bytes read, or None when `s` ends first. */
  function ReadUntyped(s: Bytes, acc: nat): (r: Option<(nat, nat)>)
    ensures r.Some? ==> 1 <= r.value.1 <= |s|
    decreases |s|
  {
    if s == [] then None
    else
      var acc' := acc * 128 + s[0] / 2;
      if s[0] % 2 == 1 then Some((acc', 1))
      else
        var more := ReadUntyped(s[1..], acc');
        if more.None? then None else Some((more.value.0, more.value.1 + 1))
  }

  /** Reading `n` groups of `x` (`n >= 1`, the last one flagged) appends
      the low `7n` bits of `x` to the accumulator. */
  lemma {:induction false} ReadGroups(x: nat, n: nat, tail: Bytes, acc: nat)
    requires n >= 1
    ensures ReadUntyped(Groups(x, n, true) + tail, acc) == Some((acc * Pow2(7 * n) + x % Pow2(7 * n), n))
    decreases n
  {
    var p := Pow2(7 * (n - 1));
    Pow2Step7(7 * (n - 1));
    assert Pow2(7 * n) == 128 * p;
    SplitLow(x, p);
    var g := Septet(x, n - 1);
    if n == 1 {
      assert p == 1;
      ReadLast(g, tail, acc);
      assert Groups(x, n, true) + tail == [g * 2 + 1] + tail;
    } else {
      ReadMore(g, Groups(x, n - 1, true) + tail, acc);
      assert Groups(x, n, true) + tail == [g * 2] + (Groups(x, n - 1, true) + tail);
      ReadGroups(x, n - 1, tail, acc * 128 + g);
      hide ReadUntyped, Groups, Septet, Pow2;
      AccStep(acc, g, p, x % p);
    }
  }

  /** A flagged byte ends the size. */
  lemma ReadLast(g: nat, tail: Bytes, acc: nat)
    requires g < 128
    ensures ReadUntyped([g * 2 + 1] + tail, acc) == Some((acc * 128 + g, 1))
  {
    assert ([g * 2 + 1] + tail)[0] == g * 2 + 1;
  }

  /** An unflagged byte adds its group and reading goes on. */
  lemma ReadMore(g: nat, rest: Bytes, acc: nat)
    requires g < 128
    ensures var more := ReadUntyped(rest, acc * 128 + g);
      ReadUntyped([g * 2] + rest, acc) == if more.None? then None else Some((more.value.0, more.value.1 + 1))
  {
    var s := [g * 2] + rest;
    assert s[0] == g * 2 && s[1..] == rest;
  }

  lemma AccStep(acc: nat, g: nat, p: nat, lo: nat)
    ensures (acc * 128 + g) * p + lo == acc * (128 * p) + (g * p + lo)
  {
  }

  /** x mod 128p splits into the group above p and x mod p. */
  lemma SplitLow(x: nat, p: nat)
    requires p >= 1
    ensures x % (128 * p) == ((x / p) % 128) * p + x % p
  {
    var q := x / p;
    var r := x % p;
    assert x == (q / 128) * (128 * p) + ((q % 128) * p + r);
    assert (q % 128) * p + r < 128 * p by {
      MulMonotone(p, q % 128, 127);
    }
    DivUnique(x, 128 * p, q / 128, (q % 128) * p + r);
  }

  /** writeSize's bytes read back to the size, and take exactly
      SizeWriteSize bytes. */
  lemma UntypedRoundTrip(size: nat, tail: Bytes)
    requires size >= 1
    ensures ReadUntyped(Untyped(size) + tail, 0) == Some((size, SizeWriteSize(size)))
  {
    var n := SizeWriteSize(size);
    ReadGroups(size, n, tail, 0);
    BitLenBounds(size);
    Pow2Monotone(BitLen(size), 7 * n);
    ModSmall(size, Pow2(7 * n));
  }

  // ------------------------------------------- against header.go's VarSize

  /** Below 32 the untyped prefix coincides with header.go's name-size
      record... */
  lemma SmallSizesLookLikeNames(x: nat)
    requires 1 <= x < 32
    ensures Untyped(x) == EncodeSize(NameSize, x)
  {
    Pow2Small();
    BitLenFromBounds(x, 5);
    NarrowByteCount(x);
    BitLenBounds(x);
    assert SizeWriteSize(x) == 1;
    assert Septet(x, 0) == x by {
      assert Pow2(0) == 1;
    }
    assert Untyped(x) == [x * 2 + 1];
    assert NameSize.Ord() == 0 && x % 32 == x;
    assert EncodeSize(NameSize, x) == [x * 2 + 1] + VarSize.Groups(x / 32, 0);
  }

  /** ...so the content length a writer emits after a short name is read
      by DecodeSize as another name size: 3 is written as the byte 7. */
  lemma ContentLengthThreeReadsAsName(rest: Bytes, eof: Error)
    ensures Untyped(3) == [7]
    ensures DecodeSize(Untyped(3) + rest, eof) == Decoded(Ok(Size(NameSize, 3)), 1)
  {
    SmallSizesLookLikeNames(3);
    assert Untyped(3)[0] == 7;
    EncodeDecodeSize(NameSize, 3, rest, eof);
  }
}

=== FILE: varsize.dfy ===
/** The tagged variable-length size of header.go: a 2-bit type tag and a
    uint64 magnitude packed into 1 to 10 bytes. The magnitude is cut into
    little-endian groups, 5 bits in the first byte and 7 in each further
    byte, each group stored in bits 7..1; bit 0 marks the last byte. */
module VarSize {
  import opened Base
  import opened Errors

  datatype SizeType = NameSize | ContentSize | DataNameSize | DataValueSize
  {
    /** The tag's numeric value, `iota` order in header.go. */
    function Ord(): (r: nat)
      ensures r < 4
    {
      match this
      case NameSize => 0
      case ContentSize => 1
      case DataNameSize => 2
      case DataValueSize => 3
    }
  }

  /** `SizeType(b >> 6)` for a byte `b`: every 2-bit value names a tag. */
  function TagOf(tag: nat): (t: SizeType)
    requires tag < 4
    ensures t.Ord() == tag
  {
    if tag == 0 then NameSize
    else if tag == 1 then ContentSize
    else if tag == 2 then DataNameSize
    else DataValueSize
  }

  lemma TagOfOrd(t: SizeType)
    ensures TagOf(t.Ord()) == t
  {
  }

  datatype Size = Size(kind: SizeType, value: uint64)

  /** Magnitudes below `Capacity(k)` fit in `k` bytes: 5 + 7 * (k - 1) bits. */
  function Capacity(k: nat): nat
    requires k >= 1
  {
    Pow2(7 * k - 2)
  }

  /** ByteCount (header.go:191-209): the number of bytes EncodeSize emits,
      from the bit length of `x`. */
  function ByteCount(x: nat): (r: nat)
    ensures r >= 1
  {
    var bits := BitLen(x);
    if x == 0 then 1 else if bits <= 5 then 1 else 1 + (bits - 6) / 7 + 1
  }

  /** ByteCount is the least `k >= 1` with `x < Capacity(k)`, so at most 10
      for a uint64. */
  lemma ByteCountFits(x: uint64)
    ensures var r := ByteCount(x);
      && r <= 10
      && x < Capacity(r)
      && (r > 1 ==> Capacity(r - 1) <= x)
  {
    if x == 0 || BitLen(x) <= 5 {
      NarrowByteCount(x);
    } else {
      WideByteCountOf(x);
    }
  }

  lemma WideByteCountOf(x: uint64)
    requires BitLen(x) > 5
    ensures var r := ByteCount(x);
      r == (BitLen(x) - 6) / 7 + 2 && r <= 10 && x < Capacity(r) && Capacity(r - 1) <= x
  {
    var bits := BitLen(x);
    var q := (bits - 6) / 7;
    var r := ByteCount(x);
    assert r == q + 2;
    BitLenBounds(x);
    WideByteCount(x, bits, q);
    assert Capacity(r) == Capacity(q + 2) && Capacity(r - 1) == Capacity(q + 1);
  }

  lemma NarrowByteCount(x: uint64)
    requires x == 0 || BitLen(x) <= 5
    ensures ByteCount(x) == 1 && x < Capacity(1)
  {
    BitLenBounds(x);
    Pow2Monotone(BitLen(x), 5);
  }

  lemma WideByteCount(x: uint64, bits: nat, q: nat)
    requires bits >= 6 && x < Pow2(bits) && Pow2(bits - 1) <= x
    requires 7 * q <= bits - 6 < 7 * q + 7
    ensures q + 2 <= 10
    ensures x < Capacity(q + 2)
    ensures Capacity(q + 1) <= x
  {
    if bits > 64 {
      Pow2Wide();
      Pow2Monotone(64, bits - 1);
      assert false;
    }
    Pow2Monotone(bits, 7 * q + 12);
    Pow2Monotone(7 * q + 5, bits - 1);
  }

  /** The continuation bytes: `n` groups of 7 bits of `y`, least significant
      first, each shifted left by one, bit 0 set on the last. */
  function Groups(y: nat, n: nat): (r: seq<byte>)
    ensures |r| == n
  {
    if n == 0 then []
    else [(y % 128) * 2 + (if n == 1 then 1 else 0)] + Groups(y / 128, n - 1)
  }

  /** EncodeSize (header.go:166-188). */
  function EncodeSize(t: SizeType, x: uint64): (r: seq<byte>)
    ensures |r| == ByteCount(x)
  {
    var bc := ByteCount(x);
    [(t.Ord() * 32 + x % 32) * 2 + (if bc == 1 then 1 else 0)] + Groups(x / 32, bc - 1)
  }

  lemma {:induction false} GroupDigit(y: nat, n: nat, j: nat)
    requires j < n
    ensures Groups(y, n)[j] / 2 == (y / Pow2(7 * j)) % 128
    ensures Groups(y, n)[j] % 2 == 1 <==> j == n - 1
  {
    if j > 0 {
      GroupDigit(y / 128, n - 1, j - 1);
      Pow2Step7(7 * (j - 1));
      DivDiv(y, 128, Pow2(7 * (j - 1)));
    }
  }

  /** The byte layout EncodeSize promises: the tag in bits 7..6 of the first
      byte, the low 5 bits of `x` in its bits 5..1, then successive 7-bit
      groups of `x`, least significant first, with bit 0 set on the last
      byte only. */
  lemma EncodeSizeLayout(t: SizeType, x: uint64)
    ensures var r := EncodeSize(t, x);
      && r[0] / 64 == t.Ord()
      && (r[0] % 64) / 2 == x % 32
      && (forall j :: 1 <= j < |r| ==> r[j] / 2 == (x / Capacity(j)) % 128)
      && (forall j :: 0 <= j < |r| ==> (r[j] % 2 == 1 <==> j == |r| - 1))
  {
    var r := EncodeSize(t, x);
    var bc := ByteCount(x);
    var g := Groups(x / 32, bc - 1);
    assert r == [r[0]] + g;
    HeadByte(t, x, bc == 1);
    forall j | 1 <= j < |r|
      ensures r[j] / 2 == (x / Capacity(j)) % 128
      ensures r[j] % 2 == 1 <==> j == |r| - 1
    {
      assert r[j] == g[j - 1];
      ContinuationDigit(x, bc - 1, j - 1);
    }
  }

  lemma ContinuationDigit(x: nat, n: nat, k: nat)
    requires k < n
    ensures Groups(x / 32, n)[k] / 2 == (x / Capacity(k + 1)) % 128
    ensures Groups(x / 32, n)[k] % 2 == 1 <==> k == n - 1
  {
    GroupDigit(x / 32, n, k);
    Pow2Small();
    Pow2Add(5, 7 * k);
    DivDiv(x, 32, Pow2(7 * k));
  }

  /** The continuation loop of DecodeSize (header.go:52-64): from byte `i`
      on, each byte's bits 7..1 are OR-ed into `acc` at `shift`. The value is
      a uint64, so bits at or above 64 fall off; since `acc` only holds bits
      below `shift`, the OR is an addition modulo 2^64. */
  function DecodeGroups(s: seq<byte>, eof: Error, i: nat, shift: nat, kind: SizeType, acc: uint64): (d: Decoded<Size>)
    requires 1 <= i <= |s|
    ensures d.result.Ok? ==> i < d.used <= |s| && d.result.value.kind == kind
    ensures d.result.Err? ==> d == Decoded(Err(eof), |s|)
    decreases |s| - i
  {
    if i == |s| then Decoded(Err(eof), |s|)
    else
      var b := s[i];
      var acc' := (acc + (b / 2) * Pow2(shift)) % UINT64_LIMIT;
      if b % 2 == 1 then Decoded(Ok(Size(kind, acc')), i + 1)
      else DecodeGroups(s, eof, i + 1, shift + 7, kind, acc')
  }

  /** The continuation loop stops at the first byte with bit 0 set, and
      fails exactly when there is none. */
  lemma {:induction false} DecodeGroupsStops(s: seq<byte>, eof: Error, i: nat, shift: nat, kind: SizeType, acc: uint64)
    requires 1 <= i <= |s|
    ensures var d := DecodeGroups(s, eof, i, shift, kind, acc);
      && (d.result.Ok? <==> exists j :: i <= j < |s| && s[j] % 2 == 1)
      && (d.result.Ok? ==> s[d.used - 1] % 2 == 1 && forall j :: i <= j < d.used - 1 ==> s[j] % 2 == 0)
    decreases |s| - i
  {
    if i < |s| && s[i] % 2 == 0 {
      var acc' := (acc + (s[i] / 2) * Pow2(shift)) % UINT64_LIMIT;
      DecodeGroupsStops(s, eof, i + 1, shift + 7, kind, acc');
    }
  }

  /** DecodeSize (header.go:32-67) over the bytes the source still holds;
      `eof` is the error the source reports once they are exhausted. It
      stops at the first byte with bit 0 set, and fails with the source's
      error, having consumed everything, when there is none. */
  function DecodeSize(s: seq<byte>, eof: Error): (d: Decoded<Size>)
    ensures d.result.Ok? ==> 1 <= d.used <= |s| && d.result.value.kind == TagOf(s[0] / 64)
    ensures d.result.Err? ==> d == Decoded(Err(eof), |s|)
  {
    if |s| == 0 then Decoded(Err(eof), 0)
    else
      var h := s[0];
      var kind := TagOf(h / 64);
      var value := (h % 64) / 2;
      if h % 2 == 1 then Decoded(Ok(Size(kind, value)), 1)
      else DecodeGroups(s, eof, 1, 5, kind, value)
  }

  /** A record ends at the first byte with bit 0 set: DecodeSize succeeds
      exactly when the input holds such a byte, and consumes up to and
      including the first one. */
  lemma DecodeSizeStops(s: seq<byte>, eof: Error)
    ensures var d := DecodeSize(s, eof);
      && (d.result.Ok? <==> exists j :: 0 <= j < |s| && s[j] % 2 == 1)
      && (d.result.Ok? ==> s[d.used - 1] % 2 == 1 && forall j :: 0 <= j < d.used - 1 ==> s[j] % 2 == 0)
  {
    if |s| > 0 && s[0] % 2 == 0 {
      DecodeGroupsStops(s, eof, 1, 5, TagOf(s[0] / 64), (s[0] % 64) / 2);
    }
  }

  /** Splitting off the lowest 7-bit group of `y` at weight `p`. */
  lemma GroupSplit(y: nat, p: nat, acc: nat)
    requires acc < p && acc + y * p < UINT64_LIMIT
    ensures 0 <= (y % 128) * p
    ensures acc + (y % 128) * p < UINT64_LIMIT
    ensures acc + (y % 128) * p < 128 * p
    ensures acc + (y % 128) * p + (y / 128) * (128 * p) == acc + y * p
  {
    var lo := y % 128;
    var hi := y / 128;
    assert y == 128 * hi + lo;
    assert y * p == lo * p + hi * (128 * p) by {
      calc {
        y * p;
        (128 * hi + lo) * p;
        lo * p + hi * (128 * p);
      }
    }
    MulMonotone(p, lo, 127);
    MulMonotone(p, 0, lo);
    assert lo * p <= 127 * p;
  }

  lemma GroupsHead(y: nat, n: nat)
    requires n >= 1
    ensures Groups(y, n)[0] / 2 == y % 128
    ensures Groups(y, n)[0] % 2 == 1 <==> n == 1
    ensures Groups(y, n)[1..] == Groups(y / 128, n - 1)
  {
  }

  /** One iteration of the continuation loop when the byte's group is the
      low group of `y` and the accumulated value stays below 2^64. */
  lemma DecodeGroupsStep(s: seq<byte>, eof: Error, i: nat, shift: nat, kind: SizeType, acc: uint64, lo: nat)
    requires 1 <= i < |s| && s[i] / 2 == lo
    requires acc + lo * Pow2(shift) < UINT64_LIMIT
    ensures s[i] % 2 == 1 ==> DecodeGroups(s, eof, i, shift, kind, acc) == Decoded(Ok(Size(kind, acc + lo * Pow2(shift))), i + 1)
    ensures s[i] % 2 == 0 ==> DecodeGroups(s, eof, i, shift, kind, acc) == DecodeGroups(s, eof, i + 1, shift + 7, kind, acc + lo * Pow2(shift))
  {
    var v := acc + lo * Pow2(shift);
    assert (acc + (s[i] / 2) * Pow2(shift)) % UINT64_LIMIT == v by {
      ModSmall(v, UINT64_LIMIT);
    }
  }

  lemma ModSmall(a: nat, m: nat)
    requires a < m
    ensures a % m == a
  {
  }

  /** The arithmetic of one continuation byte: taking the low group of `y`
      into `acc` leaves a smaller problem with the same total. */
  lemma GroupStepArith(y: nat, n: nat, shift: nat, acc: uint64) returns (acc': uint64, y': nat)
    requires n >= 2 && acc < Pow2(shift) && y < Pow2(7 * n)
    requires acc + y * Pow2(shift) < UINT64_LIMIT
    ensures acc' == acc + (y % 128) * Pow2(shift) && y' == y / 128
    ensures acc' < Pow2(shift + 7) && y' < Pow2(7 * (n - 1))
    ensures acc' + y' * Pow2(shift + 7) == acc + y * Pow2(shift)
  {
    GroupSplit(y, Pow2(shift), acc);
    Pow2Step7(shift);
    Pow2Step7(7 * (n - 1));
    DivBound(y, 128, Pow2(7 * (n - 1)));
    acc' := acc + (y % 128) * Pow2(shift);
    y' := y / 128;
  }

  lemma GroupsSlice(s: seq<byte>, i: nat, y: nat, n: nat)
    requires n >= 1 && i + n <= |s| && s[i..i + n] == Groups(y, n)
    ensures s[i] / 2 == y % 128
    ensures s[i] % 2 == 1 <==> n == 1
    ensures s[i + 1..i + n] == Groups(y / 128, n - 1)
  {
    GroupsHead(y, n);
    assert s[i] == s[i..i + n][0];
    assert s[i + 1..i + n] == s[i..i + n][1..];
  }

  lemma DecodeLastGroup(s: seq<byte>, eof: Error, i: nat, shift: nat, kind: SizeType, acc: uint64, y: nat, v: uint64)
    requires 1 <= i < |s| && s[i] / 2 == y % 128 && s[i] % 2 == 1
    requires y < Pow2(7) && v == acc + y * Pow2(shift)
    ensures DecodeGroups(s, eof, i, shift, kind, acc) == Decoded(Ok(Size(kind, v)), i + 1)
  {
    Pow2Small();
    DecodeGroupsStep(s, eof, i, shift, kind, acc, y);
  }

  /** Decoding the continuation bytes `Groups(y, n)` at `shift` on top of
      `acc` yields `v`, the two combined. */
  lemma {:induction false} DecodeGroupsOfGroups(s: seq<byte>, eof: Error, i: nat, shift: nat, kind: SizeType,
                                               acc: uint64, y: nat, n: nat, v: uint64)
    requires n >= 1 && 1 <= i && i + n <= |s|
    requires s[i..i + n] == Groups(y, n)
    requires acc < Pow2(shift) && y < Pow2(7 * n)
    requires v == acc + y * Pow2(shift)
    ensures DecodeGroups(s, eof, i, shift, kind, acc) == Decoded(Ok(Size(kind, v)), i + n)
    decreases n
  {
    GroupsSlice(s, i, y, n);
    if n == 1 {
      DecodeLastGroup(s, eof, i, shift, kind, acc, y, v);
    } else {
      var acc', y' := GroupStepArith(y, n, shift, acc);
      DecodeGroupsStep(s, eof, i, shift, kind, acc, y % 128);
      DecodeGroupsOfGroups(s, eof, i + 1, shift + 7, kind, acc', y', n - 1, v);
    }
  }

  /** The first byte of EncodeSize carries the tag, the low five bits and
      the last-byte flag. */
  lemma HeadByte(t: SizeType, x: uint64, last: bool)
    ensures var h := (t.Ord() * 32 + x % 32) * 2 + (if last then 1 else 0);
      h / 64 == t.Ord() && (h % 64) / 2 == x % 32 && (h % 2 == 1 <==> last)
  {
  }

  /** Round trip: decoding an encoded size recovers tag and magnitude,
      consumes exactly ByteCount(x) bytes and leaves what follows alone. */
  lemma EncodeDecodeSize(t: SizeType, x: uint64, rest: seq<byte>, eof: Error)
    ensures DecodeSize(EncodeSize(t, x) + rest, eof) == Decoded(Ok(Size(t, x)), ByteCount(x))
  {
    var s := EncodeSize(t, x) + rest;
    HeadByte(t, x, ByteCount(x) == 1);
    TagOfOrd(t);
    ByteCountFits(x);
    if ByteCount(x) == 1 {
      Pow2Small();
    } else {
      DecodeWide(t, x, s, eof);
    }
  }

  /** The continuation bytes of a multi-byte record decode to the high part
      of `x` on top of its low five bits. */
  lemma DecodeWide(t: SizeType, x: uint64, s: seq<byte>, eof: Error)
    requires ByteCount(x) > 1 && EncodeSize(t, x) <= s
    ensures DecodeGroups(s, eof, 1, 5, t, x % 32) == Decoded(Ok(Size(t, x)), ByteCount(x))
  {
    var bc := ByteCount(x);
    ByteCountFits(x);
    CapacitySplit(x, bc);
    assert s[1..bc] == Groups(x / 32, bc - 1) by {
      assert s[1..bc] == EncodeSize(t, x)[1..];
    }
    DecodeGroupsOfGroups(s, eof, 1, 5, t, x % 32, x / 32, bc - 1, x);
  }

  lemma CapacitySplit(x: uint64, k: nat)
    requires k >= 2 && x < Capacity(k)
    ensures x / 32 < Pow2(7 * (k - 1))
    ensures x % 32 < Pow2(5) && x % 32 + (x / 32) * Pow2(5) == x
  {
    Pow2Small();
    Pow2Add(5, 7 * (k - 1));
    DivBound(x, 32, Pow2(7 * (k - 1)));
  }
}

=== FILE: writer.dfy ===
/** Writer (writer.go): writes entries as a header (untyped name length,
    name, untyped content length) followed by exactly the declared number
    of content bytes, zero-padded when the caller writes fewer. */
module ArchiveWriter {
  import opened Base
  import opened Errors
  import opened Sink
  import opened UntypedSize

  /** `remaining` is `contentLength`, the content bytes the current entry
      still expects; `open` is `w != nil`. */
  datatype Writer = Writer(remaining: nat, open: bool, sink: Sink)

  /** The result of a call: the count and error it returned, or a runtime
      panic. */
  datatype Outcome = Done(n: nat, err: Option<Error>) | Panic

  datatype Step = Step(wtr: Writer, out: Outcome)

  /** NewWriter (writer.go:23-27); `None` is a nil `io.Writer`. */
  function NewWriter(w: Option<Sink>): (r: Writer)
    ensures r.remaining == 0 && (r.open <==> w.Some?)
  {
    if w.None? then Writer(0, false, Sink([], [])) else Writer(0, true, w.value)
  }

  /** pad (writer.go:123-125): the zeros the current entry still owes. */
  function Pad(w: Writer): (p: Put)
    ensures p.n <= w.remaining
    ensures Healthy(w.sink) ==> p == Put(Sink(w.sink.written + Zeros(w.remaining), []), w.remaining, None)
  {
    Write(w.sink, Zeros(w.remaining))
  }

  /** writeSize (writer.go:127-154) for a size that is not negative: size 0
      takes log2(0) = -Inf, which converts to a negative length and makes
      `make` panic. */
  function WriteSize(k: Sink, size: nat): (r: Option<Put>)
    ensures r.None? <==> size == 0
    ensures r.Some? ==> r.value.n <= SizeWriteSize(size)
    ensures r.Some? && Healthy(k) ==> r.value == Put(Sink(k.written + Untyped(size), []), SizeWriteSize(size), None)
  {
    if size == 0 then None else Some(Write(k, Untyped(size)))
  }

  /** WriteHeader (writer.go:29-72). `name` is a Go string, so its length
      fits an `int64`. A panic leaves the sink holding what went out before
      it: the padding, and for a content length of 0 the name's record and
      the name too. */
  function WriteHeader(w: Writer, name: Bytes, contentLength: int64): (r: Step)
    requires |name| < INT64_LIMIT
    ensures !w.open ==> r == Step(w, Done(0, Some(Closed)))
    ensures w.open && contentLength < 0 ==> r == Step(w, Done(0, Some(InvalidSize)))
    ensures r.out.Done? && r.out.err.None? ==> r.wtr == Writer(contentLength as nat, true, r.wtr.sink)
    ensures r.out.Done? && r.out.err.Some? ==> r.wtr.remaining == w.remaining && r.wtr.open == w.open
    ensures r.out.Done? ==> |r.wtr.sink.written| == |w.sink.written| + r.out.n
  {
    if !w.open then Step(w, Done(0, Some(Closed)))
    else if contentLength < 0 then Step(w, Done(0, Some(InvalidSize)))
    else
      var p := Pad(w);
      if p.err.Some? then Step(w.(sink := p.sink), Done(p.n, Some(Wrapped("error padding file", p.err.value))))
      else
        var q := WriteSize(p.sink, |name|);
        if q.None? then Step(w.(sink := p.sink), Panic)
        else if q.value.err.Some? then Step(w.(sink := q.value.sink), Done(p.n + q.value.n, q.value.err))
        else
          var s := Write(q.value.sink, name);
          var n := p.n + q.value.n + s.n;
          if s.err.Some? then Step(w.(sink := s.sink), Done(n, s.err))
          else
            var t := WriteSize(s.sink, contentLength as nat);
            if t.None? then Step(w.(sink := s.sink), Panic)
            else if t.value.err.Some? then Step(w.(sink := t.value.sink), Done(n + t.value.n, t.value.err))
            else Step(Writer(contentLength as nat, true, t.value.sink), Done(n + t.value.n, None))
  }

  /** Write (writer.go:74-107): at most the remaining count is passed on;
      the sink's count is returned, and it is deducted from the remaining
      count unless the sink failed. */
  function WriteContent(w: Writer, b: Bytes): (r: Step)
    ensures r.out.Done? && r.wtr.open == w.open
    ensures r.out.n <= Min(|b|, w.remaining)
    ensures r.wtr.sink.written == w.sink.written + b[..r.out.n]
    ensures r.wtr.remaining == w.remaining - r.out.n || r.wtr.remaining == w.remaining
  {
    if !w.open then Step(w, Done(0, Some(Closed)))
    else if w.remaining == 0 then Step(w, Done(0, Some(WriteTooLong)))
    else
      var n := Min(|b|, w.remaining);
      var p := Write(w.sink, b[..n]);
      assert b[..n][..p.n] == b[..p.n];
      if p.err.Some? then Step(w.(sink := p.sink), Done(p.n, p.err))
      else
        Step(w.(remaining := w.remaining - p.n, sink := p.sink),
             Done(p.n, if |b| > w.remaining then Some(WriteTooLong) else None))
  }

  /** Close (writer.go:109-121): pads the current entry, then closes. */
  function Close(w: Writer): (r: (Writer, Option<Error>))
    ensures r.1.None? <==> w.open && Pad(w).err.None?
    ensures r.1.None? ==> r.0 == Writer(w.remaining, false, Pad(w).sink)
    ensures r.1.Some? ==> r.0.open == w.open && r.0.remaining == w.remaining
  {
    if !w.open then (w, Some(Closed))
    else
      var p := Pad(w);
      if p.err.Some? then (w.(sink := p.sink), Some(Wrapped("error padding file", p.err.value)))
      else (Writer(w.remaining, false, p.sink), None)
  }

  // --------------------------------------------------------------- proofs

  /** A closed writer refuses everything, emits nothing, and stays as it
      is; a successful Close leaves the writer closed. */
  lemma ClosedIsInert(w: Writer, name: Bytes, contentLength: int64, b: Bytes)
    requires |name| < INT64_LIMIT
    requires Close(w).1.None?
    ensures var c := Close(w).0;
      && WriteHeader(c, name, contentLength) == Step(c, Done(0, Some(Closed)))
      && WriteContent(c, b) == Step(c, Done(0, Some(Closed)))
      && Close(c) == (c, Some(Closed))
  {
  }

  /** With a sink that accepts everything, a header for a non-empty name
      and a positive length emits the owed zeros, the name's length, the
      name and the content length, and returns that many bytes; an empty
      name or a zero length panics, after the padding and, for a zero
      length, the name's record and the name have gone out. */
  lemma WriteHeaderHealthy(w: Writer, name: Bytes, contentLength: int64)
    requires |name| < INT64_LIMIT && w.open && contentLength >= 0 && Healthy(w.sink)
    ensures var r := WriteHeader(w, name, contentLength);
      && (r.out.Panic? <==> name == [] || contentLength == 0)
      && (r.out.Done? ==>
            var bytes := Zeros(w.remaining) + Untyped(|name|) + name + Untyped(contentLength as nat);
            && r.out == Done(|bytes|, None)
            && r.wtr == Writer(contentLength as nat, true, Sink(w.sink.written + bytes, [])))
      && (r.out.Panic? ==>
            r.wtr.sink.written == w.sink.written + Zeros(w.remaining) + (if name == [] then [] else Untyped(|name|) + name))
  {
    if name != [] && contentLength != 0 {
      var s := w.sink.written;
      assert s + Zeros(w.remaining) + Untyped(|name|) + name + Untyped(contentLength as nat)
          == s + (Zeros(w.remaining) + Untyped(|name|) + name + Untyped(contentLength as nat));
    }
  }

  /** With a sink that accepts everything and content still owed, Write
      passes on the first min(len(b), remaining) bytes, deducts them, and
      reports ErrWriteTooLong exactly when it had to cut `b` short. */
  lemma WriteHealthy(w: Writer, b: Bytes)
    requires w.open && w.remaining > 0 && Healthy(w.sink)
    ensures var r := WriteContent(w, b);
      var n := Min(|b|, w.remaining);
      && r.wtr == Writer(w.remaining - n, true, Sink(w.sink.written + b[..n], []))
      && r.out.n == n
      && (r.out.err == Some(WriteTooLong) <==> |b| > w.remaining)
      && (r.out.err.None? <==> |b| <= w.remaining)
  {
  }

  /** Once the entry's content is complete, Write emits nothing. */
  lemma WriteWhenComplete(w: Writer, b: Bytes)
    requires w.open && w.remaining == 0
    ensures WriteContent(w, b) == Step(w, Done(0, Some(WriteTooLong)))
  {
  }

  /** A failing sink: Write returns the sink's count and error and leaves
      the remaining count as it was. */
  lemma WriteSinkFault(w: Writer, b: Bytes)
    requires w.open && w.remaining > 0 && w.sink.script != [] && w.sink.script[0].Some?
    ensures var r := WriteContent(w, b);
      var f := w.sink.script[0].value;
      && r.out == Done(Min(f.taken, Min(|b|, w.remaining)), Some(f.err))
      && r.wtr.remaining == w.remaining
  {
  }

  // ------------------------------------------------- an entry's content

  /** A run of Write calls, each on the writer the previous one left. */
  function WriteAll(w: Writer, bs: seq<Bytes>): (r: Writer)
    ensures r.open == w.open
    decreases |bs|
  {
    if bs == [] then w else WriteAll(WriteContent(w, bs[0]).wtr, bs[1..])
  }

  function Flatten(bs: seq<Bytes>): (r: Bytes)
    decreases |bs|
  {
    if bs == [] then [] else bs[0] + Flatten(bs[1..])
  }

  /** The content region of an entry of length `cl` that was offered `c`:
      its first `cl` bytes, then zeros up to `cl`. */
  function Fill(c: Bytes, cl: nat): (r: Bytes)
    ensures |r| == cl
  {
    var k := Min(|c|, cl);
    c[..k] + Zeros(cl - k)
  }

  lemma {:induction false} WriteAllHealthy(w: Writer, bs: seq<Bytes>)
    requires w.open && Healthy(w.sink)
    ensures var k := Min(|Flatten(bs)|, w.remaining);
      WriteAll(w, bs) == Writer(w.remaining - k, true, Sink(w.sink.written + Flatten(bs)[..k], []))
    decreases |bs|
  {
    if bs != [] {
      var c := Flatten(bs);
      var w1 := WriteContent(w, bs[0]).wtr;
      var n := Min(|bs[0]|, w.remaining);
      if w.remaining == 0 {
        WriteWhenComplete(w, bs[0]);
        WriteAllHealthy(w1, bs[1..]);
      } else {
        WriteHealthy(w, bs[0]);
        WriteAllHealthy(w1, bs[1..]);
        var rest := Flatten(bs[1..]);
        var k1 := Min(|rest|, w1.remaining);
        assert c == bs[0] + rest;
        if n < |bs[0]| {
          assert w1.remaining == 0 && k1 == 0;
          assert c[..n] == bs[0][..n];
        } else {
          assert c[..n + k1] == bs[0] + rest[..k1];
        }
        assert w.sink.written + bs[0][..n] + rest[..k1] == w.sink.written + c[..n + k1];
      }
    }
  }

  /** Each entry's content region is exactly its declared length: the
      bytes Write accepted, then the zeros Close pads with. */
  lemma EntryContent(w: Writer, bs: seq<Bytes>)
    requires w.open && Healthy(w.sink)
    ensures var (c, err) := Close(WriteAll(w, bs));
      && err.None? && !c.open
      && c.sink.written == w.sink.written + Fill(Flatten(bs), w.remaining)
  {
    WriteAllHealthy(w, bs);
    var k := Min(|Flatten(bs)|, w.remaining);
    assert w.sink.written + Flatten(bs)[..k] + Zeros(w.remaining - k)
        == w.sink.written + Fill(Flatten(bs), w.remaining);
  }
}
